=== FILE: README.md ===
# AI slide deck generation — a Dafny model

This project models the template-filling engine of the presentation editor's AI deck
generator, the `useAIPPT` hook. It is given template slides and a list of AI slide
descriptors: cover, contents, transition, content and end. From them it makes a deck:

- It splits contents and content slides that carry too many items into chunks.
- For each slide it chooses a template of the right kind whose slot count fits the item
  count.
- It fills the template's text slots with the slide's data, fitting each text's font size
  to its box.
- It fills image slots from an image pool, cropping each image so it covers its slot.
- It numbers sections, and it drops the slots (and their groups) that no data reaches.

The model also covers:

- the helpers that strip a Markdown or JSON fence from model output;
- the HTML table builder, which lays out row and column spans in an occupancy matrix and
  reads cell styles from inline CSS.

The modules follow the hook's structure:

| module | models |
|---|---|
| `Slides` | The data: elements, text and image types, rich-text markup reduced to its text runs and font declarations, slides, pool images, and AI slide descriptors. |
| `Strings` | `trim`, `indexOf`, `includes`, `replace`, `parseInt` and number-to-text. |
| `Paginator` | The splitting of long contents and content slides. |
| `TemplateSelector` | `getUseableTemplates`. |
| `TextFitter` | `getAdaptedFontsize`, `getFontInfo` and `getNewTextElement`. |
| `ImageAllocator` | `getUseableImage` and `getNewImgElement`. |
| `Fences` | `getMdContent` and `getJSONContent`. |
| `TableStyle` and `TableBuilder` | `parseHTMLTable`. |
| `ReadingOrder` | The comparators that order a template's slots before data is handed out. |
| `Assembler` | The map-then-filter that turns a template into a slide. |
| `SlideFill` and `ItemSlides` | The per-kind slide builders. |
| `Generation` | The slide loop and the entry point `AIPPT`. |

Host services are parameters:

- text measurement (`Measure`);
- the `Math.random()` stream (`rand`, read at a running draw count);
- the point-to-pixel conversion of the table builder (`ptToPx`).

## Model

| member | source | states |
|---|---|---|
| Paginator.SplitContent | src/hooks/useAIPPT.ts:533-566 | A content slide is cut into 1, 2 or 3 chunks by the size table. The chunks' items concatenate back to the original items. Every chunk keeps the title. Every chunk after the first is offset by the index of its first item. |
| Paginator.SplitContents | src/hooks/useAIPPT.ts:567-584 | A contents slide of 11 sections splits 6+5. One of more than 11 splits 10+rest. The chunks concatenate back to the sections, and the second chunk is offset by its start. |
| Paginator.SplitSlide | src/hooks/useAIPPT.ts:531-586 | Any AI slide becomes chunks of the planned sizes. Slides other than contents and content pass through unchanged. A real split never yields an empty chunk. |
| Paginator.PaginatePreserves | src/hooks/useAIPPT.ts:531-586 | Pagination of a whole slide list neither adds nor loses transition slides or items. |
| Paginator.SplitCountSum | src/hooks/useAIPPT.ts:533-584 | The chunk counts of one slide sum to its item count. |
| TemplateSelector.Closest | src/hooks/useAIPPT.ts:57-61 | The reduce returns a member of the list whose count is minimal. |
| TemplateSelector.Largest | src/hooks/useAIPPT.ts:48-55 | The last template after the ascending sort has the greatest count. |
| TemplateSelector.TargetCount | src/hooks/useAIPPT.ts:44-61 | The count selected is the smallest count at or above `n` when one exists, and otherwise the greatest count. |
| TemplateSelector.BestFit | src/hooks/useAIPPT.ts:44-68 | The general rule returns exactly the templates whose count equals the winning count, and at least one of them. |
| TemplateSelector.UseableTemplates | src/hooks/useAIPPT.ts:29-69 | With one item and some minimal templates, the result is exactly the minimal templates. A minimal template has no slot of the role and one title and one content slot. Otherwise the result is exactly the templates of the winning count. The result is empty only for an empty input. |
| TextFitter.TriedBounds | src/hooks/useAIPPT.ts:87-101 | Every size the search tries lies between the 10px floor and the starting size. |
| TextFitter.TriedDecreasing | src/hooks/useAIPPT.ts:90-99 | The tried sizes strictly decrease: 2px steps above 22px, then 1px steps. |
| TextFitter.AdaptedFontSize | src/hooks/useAIPPT.ts:71-102 | The result is the largest tried size at which the text fits in `maxLine` lines, or the floor when none fits. No larger tried size fits. The result is never above the start or below the floor. |
| TextFitter.GetFontInfo | src/hooks/useAIPPT.ts:104-120 | The declared size and family are used when present. Otherwise the defaults of 16px and the default family are used. |
| TextFitter.PaddedNumber | src/hooks/useAIPPT.ts:155-158 | A zero-padded number reads back with `parseInt` as the number. A one-digit number padded into a two-character run has two digits. Numbers of two digits or more are not padded. |
| TextFitter.NewTextElement | src/hooks/useAIPPT.ts:122-170 | Only the first text run is replaced, by the padded text. The other runs, the geometry, the id and the group are kept. The font size is set to the fitted size wherever the markup declares one or has a paragraph. A text element's line height becomes 1.2 when the fitted size is below 15px. |
| ImageAllocator.PickIndex | src/hooks/useAIPPT.ts:182 | `Math.floor(Math.random() * len)` is a valid index. |
| ImageAllocator.Candidates | src/hooks/useAIPPT.ts:175-180 | The candidates are exactly the pool images of the slot's orientation class when there are any, and otherwise the whole pool. |
| ImageAllocator.WithoutId | src/hooks/useAIPPT.ts:183 | Removing by id keeps exactly the images with another id. |
| ImageAllocator.WithoutIdUnique | src/hooks/useAIPPT.ts:183 | Removing by id keeps the pool's ids distinct. |
| ImageAllocator.WithoutIdCount | src/hooks/useAIPPT.ts:183 | With distinct ids, removing by id removes exactly one image when the id occurs and none otherwise. |
| ImageAllocator.UseableImage | src/hooks/useAIPPT.ts:172-186 | On an empty pool, nothing is chosen and the pool is unchanged. Otherwise a pool image is chosen, of the slot's class whenever the pool has one. The pool loses every image with the chosen id: exactly that one image when ids are distinct. |
| ImageAllocator.CoverCrop | src/hooks/useAIPPT.ts:192-207 | The crop cuts equal margins, each under 50%, off the overflowing dimension only. The other dimension is kept whole. |
| ImageAllocator.CoverCropKeepsAspect | src/hooks/useAIPPT.ts:192-207 | The kept part of the image has exactly the slot's aspect ratio, so the image covers the slot without distortion. |
| ImageAllocator.NewImgElement | src/hooks/useAIPPT.ts:172-214 | The slot keeps its id, group, geometry and image type. On a non-empty pool it becomes exactly `CoverWith` of the image `getUseableImage` chooses, and the pool becomes what that choice leaves. It keeps its own clip shape (`rect` by default). On an empty pool, slot and pool are unchanged. Either way the slot is `FilledFrom` the pool. |
| ImageAllocator.CoverWith | src/hooks/useAIPPT.ts:188-214 | A slot covered by a pool image shows that image's source, clipped to the slot's shape. The kept part has exactly the slot's aspect ratio. Id and group stay. |
| ImageAllocator.FilledFromWider | src/hooks/useAIPPT.ts:172-214 | A slot filled from a pool is filled from any pool that holds that pool's images. |
| Fences.TickFreeRun | src/hooks/useAIPPT.ts:217-218 | The captured body runs from the opening fence up to exactly the next backtick. |
| Fences.FenceFrom | src/hooks/useAIPPT.ts:217-218 | The match found is the leftmost one at or after the start, and there is none before it. |
| Fences.FenceRoundTrip | src/hooks/useAIPPT.ts:216-228 | Stripping text that holds a fenced block, with backtick-free text before it and a backtick-free body, gives back the trimmed body. |
| Fences.UnclosedFence | src/hooks/useAIPPT.ts:216-228 | An opening fence that is never closed is deleted, and the rest of the text is kept. |
| Fences.NoFenceUnchanged | src/hooks/useAIPPT.ts:216-228 | Text without a triple backtick comes back unchanged. |
| Fences.BodyTickFree | src/hooks/useAIPPT.ts:216-228 | What a matched block yields never contains a backtick. |
| Strings.Trim | src/hooks/useAIPPT.ts:219 | `trim` yields a middle slice that neither starts nor ends with white space. It is empty exactly when the text is blank, and it leaves unpadded text unchanged. |
| Strings.ReplaceFirst | src/hooks/useAIPPT.ts:220 | A literal `replace` changes only the first occurrence, and changes nothing when there is none. |
| Strings.ParseIntRoundTrip | src/hooks/useAIPPT.ts:715 | `parseInt(n + '')` is `n` for every integer. |
| Strings.ParseIntZeroPadded | src/hooks/useAIPPT.ts:157 | `parseInt('0' + n)` is `n`. |
| Strings.IntToStringInjective | src/hooks/useAIPPT.ts:715 | Different part numbers are written differently. |
| TableStyle.Capture | src/hooks/useAIPPT.ts:291-345 | The group `\s*([^;]+)` captures exactly when the next character is not a stop. The capture is non-empty and free of stops. |
| TableStyle.GroupTrim | src/hooks/useAIPPT.ts:291-345 | Trimming the captured group equals trimming the whole run. |
| TableStyle.FirstDeclarationWins | src/hooks/useAIPPT.ts:287-355 | For a style that starts with a declaration of the property, the reader returns that declaration's trimmed value, whatever follows. |
| TableStyle.PropFromLeftmost | src/hooks/useAIPPT.ts:429-438 | A style expression matched without the global flag returns its leftmost match: the first position where it matches decides the value. |
| TableStyle.CleanColorOfCapture | src/hooks/useAIPPT.ts:251-253 | On a captured colour, which holds no semicolon, `cleanColorValue` is `trim`. |
| TableStyle.NumericWeight | src/hooks/useAIPPT.ts:329-333 | A numeric font weight is bold exactly when it is at least 600. |
| TableStyle.ParseCellStyle | src/hooks/useAIPPT.ts:287-355 | A background colour is never blank or transparent. A text colour is never blank or `transparent`. Without `text-align`, column 0 is left-aligned and the others centred. |
| TableStyle.CellColors | src/hooks/useAIPPT.ts:291-305 | The background and text colours are the trimmed first declarations. A background that is blank, `transparent` or `rgba(0, 0, 0, 0)` is dropped, and a text colour that is blank or `transparent` is dropped. Otherwise each is kept. |
| TableStyle.CellFont | src/hooks/useAIPPT.ts:307-333 | A font size is set exactly when declared, and is the declaration itself unless in points. A family is set exactly when declared, unquoted and mapped to its Latin name. A weight is set exactly when declared: `bold` is bold, and a numeric weight is bold exactly when at least 600. |
| TableStyle.CellDecoration | src/hooks/useAIPPT.ts:335-354 | Italic exactly when `font-style` is `italic`. Underline and strike-through exactly when `text-decoration` mentions them. A declared alignment is used as written. |
| TableStyle.StyleColorNoSemicolon | src/hooks/useAIPPT.ts:298-304 | The stand-alone `color` expression never captures a semicolon. |
| TableStyle.CellText | src/hooks/useAIPPT.ts:275-284 | The cell text is `data-value` when set. Otherwise it is the trimmed text content when not blank, and otherwise the trimmed inner text. |
| TableBuilder.LayoutInv | src/hooks/useAIPPT.ts:256-393 | The first pass records one placement per source cell in document order. Every occupied position holds what the latest covering placement put there. The row count reaches every rowspan. |
| TableBuilder.ColsNeededFacts | src/hooks/useAIPPT.ts:391 | `maxCols` is NaN exactly when some colspan is NaN. Otherwise it is non-negative and covers every cell's column reach. |
| TableBuilder.ColHeader | src/hooks/useAIPPT.ts:441-452 | The first row is a header exactly when one of its non-empty cells has a background, bold text or a non-body colour. |
| TableBuilder.RowHeaderMeans | src/hooks/useAIPPT.ts:454-464 | The first column is a row header exactly when the table has at least two rows, at least two rows have a first cell with content, and one of those cells has a background, bold text or a non-body colour. |
| TableBuilder.FirstColumnContent | src/hooks/useAIPPT.ts:455 | The non-empty cells of the first column are one per row whose first cell exists and has content. |
| TableBuilder.OutlineOf | src/hooks/useAIPPT.ts:467-484 | The border comes from the first cell's style, each part defaulting to 1, `solid` and `#cccccc`. |
| TableBuilder.EstimatedWidth | src/hooks/useAIPPT.ts:425 | The width is 100 per column clamped to 500..900: 500 at or below five columns, 900 at or above nine, 100 per column in between. |
| TableBuilder.ThemeColorDeclared | src/hooks/useAIPPT.ts:429-438 | A table style without `--themeColor` (in any letter case) gives the theme colour `rgb(255, 255, 255)`. Otherwise its first occurrence decides it: the cleaned value captured up to `;` or `)`. |
| TableBuilder.Assemble | src/hooks/useAIPPT.ts:396-505 | The element's grid has one row per layout row and `maxCols` cells per row, and each position holds the recorded cell. It has equal column widths, the estimated width of its column count, the theme colour of the table's style, 36px per row, the header flags and no footers. |
| TableBuilder.ParseTable | src/hooks/useAIPPT.ts:233-524 | A table is built exactly when a table with rows exists and no colspan is NaN. NaN is the `RangeError` the catch turns into `null`. |
| TableBuilder.ParseTableGrid | src/hooks/useAIPPT.ts:391-422 | A parsed table has `max(rows, rowspan reach)` rows and `maxCols` columns. Every position holds the cell whose span covers it, or a filler. |
| TableBuilder.ParseTableSizes | src/hooks/useAIPPT.ts:422-505 | A parsed table's column widths are equal and sum to the whole. Its width is the estimated width of its column count, its theme colour is that of the table's style, its height is 36 per row, its headers are read from the grid, and its border is the first cell's. |
| TableBuilder.SourceCellLands | src/hooks/useAIPPT.ts:256-419 | Every source cell with positive spans appears in the grid at the position the first pass gave it, read from its own attributes at that column. |
| TableBuilder.NaNColspanFails | src/hooks/useAIPPT.ts:391-393 | A single NaN colspan anywhere makes the whole table fail. |
| ReadingOrder.SortPermutes | src/hooks/useAIPPT.ts:648-673 | Sorting slots is a permutation. |
| ReadingOrder.SortSorted | src/hooks/useAIPPT.ts:748-773 | Sorting by a key difference orders by the key. |
| ReadingOrder.SortStable | src/hooks/useAIPPT.ts:748-773 | The sort is stable: slots of equal key keep template order. |
| ReadingOrder.SortKeepsOrder | src/hooks/useAIPPT.ts:625-645 | A sort whose comparator never reports an inversion leaves its input as it is. |
| ReadingOrder.SortedSlotsOrder | src/hooks/useAIPPT.ts:748-773 | A role's slots are handed out by `left + 2 * top`, ties in template order, and they are exactly the role's slots. |
| ReadingOrder.BadgesAsWrittenKeepTemplateOrder | src/hooks/useAIPPT.ts:625-645 | As written, more than six badges with tagged markup are never reordered. |
| ReadingOrder.BadgesByNumber | src/hooks/useAIPPT.ts:625-645 | With the badge numbers read from the text, more than six badges are ordered by the numbers they show, stably. |
| ReadingOrder.FewBadgesByReadingKey | src/hooks/useAIPPT.ts:625-645 | With at most six badges, both comparators give reading order. |
| ReadingOrder.ItemsAsWrittenKeepTemplateOrder | src/hooks/useAIPPT.ts:647-673 | As written, more than six items whose badges have tagged markup keep template order. |
| ReadingOrder.ItemsByBadgeNumber | src/hooks/useAIPPT.ts:647-673 | With readable badge numbers, more than six items are ordered by their badges' numbers, stably. |
| ReadingOrder.ReversedBadgesShow | src/hooks/useAIPPT.ts:625-645 | The example template's seven badges show 07 down to 01 in tagged markup. |
| ReadingOrder.ReversedBadgesCounterexample | src/hooks/useAIPPT.ts:625-645 | On that template, as written, badge 07 stays first, while the intended order puts badge 01 first. |
| Assembler.Apply | src/hooks/useAIPPT.ts:677-696 | An action keeps the element's id and group and carries out what it says. An image fill is `FilledFrom` the pool. Only an image fill takes from the pool, and it takes one random value. |
| Assembler.Realise | src/hooks/useAIPPT.ts:677-694 | Actions are carried out slot by slot, one output per template slot. Each image fill is `FilledFrom` the pool on entry. The pool is threaded through and only loses images. |
| Assembler.DropUnused | src/hooks/useAIPPT.ts:695-696 | The filter keeps exactly the elements neither marked unused nor in a group of an unused element. |
| Assembler.DropUnusedAppend | src/hooks/useAIPPT.ts:695-696 | The filter keeps order and multiplicity. It maps nothing to nothing, and one more element at the end adds exactly that element at the end unless it is dropped. |
| Assembler.FillElements | src/hooks/useAIPPT.ts:677-696 | The slide's elements are the carried-out slots in template order, with the unused filter applied to that sequence. Filling consumes only pool images, one random value each. |
| Assembler.FillElementsKeeps | src/hooks/useAIPPT.ts:677-696 | An unused element and every element of its group are dropped. Every other mapped element survives. |
| Assembler.NothingDropped | src/hooks/useAIPPT.ts:604-616 | Without unused marks, the slide keeps every template element, in order. |
| Assembler.ConsumesTrans | src/hooks/useAIPPT.ts:600-992 | Pool consumption composes across consecutive slides. |
| Assembler.ConsumesShift | src/hooks/useAIPPT.ts:600-992 | Consumption does not depend on the draw count it starts from. |
| Assembler.FillSlide | src/hooks/useAIPPT.ts:677-702 | A filled slide has the template's type. Its elements are exactly the surviving template slots, in template order, each with its action carried out and an image fill refilled from the pool. Every template slot shows what its action says, and every output element comes from a template slot. |
| Assembler.FillElementsShows | src/hooks/useAIPPT.ts:677-696 | Each template slot either survives with its action carried out or leaves no trace. A surviving image-fill slot is shown filled from the pool on entry. |
| Assembler.Survivors | src/hooks/useAIPPT.ts:695-696 | The surviving slots, as template positions: increasing, and holding exactly the positions of slots that are neither marked unused nor grouped with an unused slot. |
| Assembler.FillElementsAssembled | src/hooks/useAIPPT.ts:677-696 | The output holds one element per surviving slot and nothing else, in template order: the j-th element is the j-th survivor with its action carried out, and an image fill shown filled from the pool on entry. |
| Assembler.AssembledWider | src/hooks/useAIPPT.ts:677-696 | A slide assembled with refills from a pool is assembled from any pool holding it. |
| SlideFill.Pick | src/hooks/useAIPPT.ts:603 | A random template comes from the list. |
| SlideFill.Category | src/hooks/useAIPPT.ts:588-592 | A category holds exactly the templates of its type. |
| SlideFill.Longest | src/hooks/useAIPPT.ts:675 | The longest-string reduce returns a longest string, or `''` when there is none. |
| SlideFill.LongestFirst | src/hooks/useAIPPT.ts:675 | Ties go to the earliest string of greatest length. |
| SlideFill.CoverSlots | src/hooks/useAIPPT.ts:604-614 | A cover puts the title on one line and the text on three, and leaves other text slots alone. |
| SlideFill.TransitionSlots | src/hooks/useAIPPT.ts:705-718 | A transition also writes the zero-padded part number into every part-number slot. |
| SlideFill.EndSlots | src/hooks/useAIPPT.ts:983-986 | An end slide changes only its typed image slots. |
| SlideFill.CoverSlide | src/hooks/useAIPPT.ts:602-620 | A cover comes from a random cover template and has one element per template slot, in template order. The title and text slots get the title on one line and the text on three. Typed image slots are refilled from the pool. Every other slot is unchanged. It takes one random value for the template. |
| SlideFill.TransitionSlide | src/hooks/useAIPPT.ts:703-724 | A transition slide has one element per slot of the transition template. It shows the title, the text and the zero-padded part number in their slots, and refills typed image slots from the pool. It takes no random value for the template. |
| SlideFill.EndSlide | src/hooks/useAIPPT.ts:981-992 | An end slide comes from a random end template, one element per slot. Typed image slots are refilled from the pool, and every other slot is unchanged. |
| SlideFill.CoverMadeWider | src/hooks/useAIPPT.ts:602-620 | A cover made with refills from a pool is also made from any pool holding that pool. |
| SlideFill.TransitionMadeWider | src/hooks/useAIPPT.ts:703-724 | So is a transition slide. |
| SlideFill.EndMadeWider | src/hooks/useAIPPT.ts:981-992 | So is an end slide. |
| SlideFill.UnrefilledSlotsFree | src/hooks/useAIPPT.ts:605-606 | Only the slots a slide kind refills need a size: an untyped image slot, or a content slide's background, may have any size. |
| ItemSlides.ContentsApplicable | src/hooks/useAIPPT.ts:677-694 | Every contents action can be carried out on its slot. |
| ItemSlides.ContentsAction | src/hooks/useAIPPT.ts:677-694 | Only an item slot can be unused. An image fill happens exactly on a typed image slot. A badge always gets a zero-padded number. Text goes only into slots with markup. Every other slot is kept. |
| ItemSlides.ContentsPlan | src/hooks/useAIPPT.ts:677-694 | One action per template element. The action rules above hold element by element. |
| ItemSlides.ContentsNumbering | src/hooks/useAIPPT.ts:677-686 | Badge `i` shows `p + offset + 1`, zero-padded, where `p` is its place in the numbering order. |
| ItemSlides.ContentsItemSlot | src/hooks/useAIPPT.ts:677-694 | Item slot `k` of the item order shows section `k` on one line, fitted to the longest section. It is unused when section `k` is missing or empty. |
| ItemSlides.BadgePlacesDistinct | src/hooks/useAIPPT.ts:625-686 | Distinct badges of a template with distinct ids show distinct numbers. |
| ItemSlides.ContentsTemplate | src/hooks/useAIPPT.ts:622-623 | A contents template is a useable template of the contents category for the section count. |
| ItemSlides.ContentsShows | src/hooks/useAIPPT.ts:677-696 | Carried out, the contents actions show every surviving badge's number and every reached section. A surviving typed image slot is refilled from the pool, and any other surviving slot is kept as it is. An unreached item slot leaves no trace. |
| ItemSlides.ContentsSlide | src/hooks/useAIPPT.ts:621-702 | A contents slide is contents-typed and comes from a useable contents template. Its elements are exactly the surviving template slots, in template order, with the contents actions carried out. Every slot of the template shows what `ContentsShows` promises, with refills from the pool on entry. It takes one random value for the template. |
| ItemSlides.ContentsMadeWider | src/hooks/useAIPPT.ts:621-702 | A contents slide made with refills from a pool, slot by slot and in template order, is also made from any pool holding it. |
| ItemSlides.NumberReadsBack | src/hooks/useAIPPT.ts:680-686 | The number written into a badge reads back with `parseInt` as that number. |
| ItemSlides.ContentCandidates | src/hooks/useAIPPT.ts:727-746 | Content templates fit the item count. They narrow to those with item figures exactly when some item has an image and some fitting template has an item figure. |
| ItemSlides.ContentApplicable | src/hooks/useAIPPT.ts:805-873 | Every content action can be carried out on its slot. |
| ItemSlides.ContentAction | src/hooks/useAIPPT.ts:748-873 | A page figure is always refilled. Only an item figure takes an item's image, and only an image some item has. Only figures are refilled. Only item figures, or item slots when there is not exactly one item, can be unused. Text goes only into slots with markup. Every non-textual slot that is not a figure is kept. |
| ItemSlides.ContentPlan | src/hooks/useAIPPT.ts:748-873 | One action per template element. The action rules above hold element by element. |
| ItemSlides.ContentNumbering | src/hooks/useAIPPT.ts:748-873 | Badge `i` shows `p + offset + 1` for its reading place `p`, and is unused past the last item. |
| ItemSlides.ContentTitleSlot | src/hooks/useAIPPT.ts:748-873 | Title slot `k` in reading order shows item `k`'s title on one line, and is unused when the item or its title is missing. |
| ItemSlides.ContentTextSlot | src/hooks/useAIPPT.ts:748-873 | Text slot `k` in reading order shows item `k`'s text on up to four lines, and is unused when the item or its text is missing. |
| ItemSlides.ContentFigure | src/hooks/useAIPPT.ts:748-873 | Item figure `k` shows item `k`'s image uncropped. It is unused when the item has a table and no image, and is refilled from the pool otherwise. |
| ItemSlides.ContentTemplate | src/hooks/useAIPPT.ts:746 | A content template is one of the candidates. |
| ItemSlides.ContentShows | src/hooks/useAIPPT.ts:805-873 | Carried out, the content actions show numbers, titles, texts and images where they belong. A surviving title slot shows the slide title on one line. With a single item, its text fills the content slot on up to six lines. Page figures, and item figures whose item has neither image nor table, are refilled from the pool. A surviving slot that no data reaches (not a figure, not a title slot given a title, not a slot some item fills) is kept as it is. Slots no item reaches leave no trace. |
| ItemSlides.ContentSlide | src/hooks/useAIPPT.ts:725-873 | A content slide is content-typed and comes from a candidate template. Its elements are exactly the surviving template slots, in template order, with the content actions carried out. Every slot shows what `ContentShows` promises, with refills from the pool on entry. It takes one random value for the template. |
| ItemSlides.ContentMadeWider | src/hooks/useAIPPT.ts:725-873 | A content slide made with refills from a pool, slot by slot and in template order, is also made from any pool holding it. |
| ItemSlides.ContentSlotWider | src/hooks/useAIPPT.ts:725-873 | What one slot of a content slide shows with refills from a pool, it shows with refills from any pool holding it. |
| Generation.MadeWider | src/hooks/useAIPPT.ts:600-992 | A slide made from an AI slide with refills from a pool is also made from any pool holding it. |
| Generation.Step | src/hooks/useAIPPT.ts:600-992 | One AI slide becomes one slide of its kind, made from a template of that kind: a cover, transition or end slide has one element per template slot, filled slot by slot, and a contents or content slide has exactly the surviving slots in template order, kept slots unchanged. A transition advances the counter and is numbered with it. Each other slide takes one random value for its template. |
| Generation.TransitionStep | src/hooks/useAIPPT.ts:703-724 | A transition slide is the session's transition template, filled and numbered with the advanced counter. |
| Generation.TemplateStep | src/hooks/useAIPPT.ts:600-992 | A non-transition slide has the type of its kind and is made from a template of its kind, filled as the kind says, with exactly the surviving slots in template order. Its template costs one random value. |
| Generation.CoverStep | src/hooks/useAIPPT.ts:602-620 | A cover step makes a cover from some cover template, filled as a cover is. |
| Generation.ContentsStep | src/hooks/useAIPPT.ts:621-702 | A contents step makes a contents slide from a useable contents template: exactly its surviving slots in template order, filled as a contents slide is. |
| Generation.ContentStep | src/hooks/useAIPPT.ts:725-980 | A content step makes a content slide from a candidate template: exactly its surviving slots in template order, filled as a content slide is, kept slots unchanged. |
| Generation.EndStep | src/hooks/useAIPPT.ts:981-992 | An end step makes an end slide from some end template, with only its typed image slots refilled. |
| Generation.Generate | src/hooks/useAIPPT.ts:600-992 | The slide list becomes one slide per AI slide, in order and of its kind. Every slide is made from a template of its kind, holding exactly the template's surviving slots in template order, filled as its kind says, with refills from the starting pool. The counter advances by the number of transitions, the k-th of which shows part number start + k. The pool only loses images. |
| Generation.Extend | src/hooks/useAIPPT.ts:600-992 | One more step keeps every property of the run: counter, draws, pool, types, numbering and how each slide was made. |
| Generation.MadeExtend | src/hooks/useAIPPT.ts:600-992 | A slide made from a later, smaller pool joins the run as made from the starting pool. |
| Generation.NumberedExtend | src/hooks/useAIPPT.ts:703-724 | Each new transition continues the part numbering. |
| Generation.PaginateSupplied | src/hooks/useAIPPT.ts:531-586 | Pagination keeps every slide's kind, so a template list that supplies the AI slides supplies their chunks. |
| Generation.PaginateSized | src/hooks/useAIPPT.ts:531-586 | For the same reason, templates sized for the AI slides are sized for their chunks. |
| Generation.StartSized | src/hooks/useAIPPT.ts:594-597 | When the session keeps no transition template, the one drawn is a transition template, so it is sized whenever all transition templates are. |
| Generation.Start | src/hooks/useAIPPT.ts:529-597 | `imgs` replaces the pool when given. A kept transition template costs nothing. Otherwise one random value chooses a transition template, which exists exactly when the templates hold a transition. |
| Generation.AIPPT | src/hooks/useAIPPT.ts:526-996 | `imgs` replaces the pool when given. A transition template is chosen once unless one is kept. The deck has one slide per chunk, of its kind, each made from a template of its kind: exactly the template's surviving slots in template order, filled as its kind says. Transitions are numbered on from the session's counter, which advances by the number of transitions. The pool only loses images, and its ids stay distinct. |

## Left out

- The rich-text markup is an abstract record: its text runs, its font-size and font-family declarations, a paragraph flag, and whether it starts with a tag. DOM parsing of the markup and the regular expressions over it are not modelled beyond this.
- Ids made with `nanoid`, for slides and for AI-synthesised elements, are not modelled. Slides carry no id, and an element keeps its template id.
- `createAIImageElement` (src/hooks/useAIPPT.ts:786-796) also gives the image a fresh id and sets `filters` to `undefined`. Elements carry no filters in the model, so that reset is not modelled; the fresh id is covered by the line above.
- Table and image synthesis for content items (src/hooks/useAIPPT.ts:876-973) is not modelled. A table item's figure slot is marked unused, as the source does before synthesis.
- TextFitter.AdaptedFontSize: measurement is a parameter (`Measure`), and the canvas text measurement is not modelled. The division by the box width is real division, except at width 0, where `FitsLines` follows IEEE arithmetic: the quotient is infinite or NaN, so the text fits only when its measured width is negative. A negative width (from an element narrower than 22px) gives a negative quotient, which fits at once.
- UTF-16 code-unit lengths are not modelled. String lengths are counted in characters.
- `Math.random()` is a parameter: a stream of reals in [0, 1) read at a running draw count.
- The hook's store calls are not modelled: `updateSlideIndex`, `setSlides` and `addSlidesFromData` (lines 527 and 994-995). Generation.AIPPT returns the slides instead.
- `presetImgPool` (lines 230-232) is a plain assignment. It is modelled only as the `imgs` argument of Generation.AIPPT.
- TableBuilder.ParseTable: HTML tokenising (`DOMParser`, `querySelector`) is replaced by a tokenised table of rows of cell attributes. `ptToPx` is a parameter, and the table element's id is not modelled.
- TableStyle.ParseCellStyle: `fontMap` is a plain object, so a family named after an `Object.prototype` member (`constructor`, `toString`, `__proto__`, …) makes `fontname` that member rather than the name. The model keeps every name other than the four mapped ones as written.
- TableStyle.CellFont: the weight is read with `Strings.ParseInt`, which is radix 10. JavaScript's `parseInt` without a radix reads a `0x` prefix as hexadecimal (`0x258` is 600, so bold), where the model reads 0. Its float precision for very long digit runs is not modelled either.
- Strings.ParseInt: radix 10 only. A `0x`/`0X` prefix, which JavaScript's `parseInt` reads as hexadecimal, is read as the digit 0.
- ItemSlides.ContentsNumbering: states the numbering under the corrected badge order `ReadingOrder.BadgeOrder`, not the as-written comparator (see Findings). With more than six badges it differs from the source, which keeps template order.
- ItemSlides.ContentsItemSlot: hands out sections under the corrected item order `ReadingOrder.ItemOrder`, not the as-written comparator (see Findings).
- ItemSlides.ContentsShows: rests on the corrected badge and item orders above.
- ItemSlides.ContentsSlide: fills with the corrected badge and item orders. For templates with more than six badges, the source as written keeps template order instead.
- ReadingOrder.SortPermutes: `Array.prototype.sort` is modelled as a stable insertion sort. Engines that sort unstably, or sort with inconsistent comparators, are not modelled.
- Generation.AIPPT: its contents slides are filled with the corrected badge and item orders, through ItemSlides.ContentsMade (see Findings). For templates with more than six badges, the source as written keeps template order instead. Generation.Generate, Generation.Step and Generation.ContentsStep inherit the same.
- ImageAllocator.NewImgElement: requires the slot and every pool image to have a positive size. A zero size makes the crop at lines 188-207 divide by zero. The source does not fail: it writes an infinite or NaN range into the clip, or for some shapes a degenerate finite one. A `real` cannot hold infinity or NaN, so the model leaves these inputs out, and negative sizes with them.
- SlideFill.CoverSlide: requires a cover template, since the source reads `undefined.elements` and throws without one. It also requires the typed image slots of the drawn template, and every pool image, to have a positive size, for the reason given at ImageAllocator.NewImgElement. It asks this even of a slot reached after the pool has run out, whose size the source never reads.
- SlideFill.TransitionSlide: requires the typed image slots of the transition template, and every pool image, to have a positive size, as SlideFill.CoverSlide does.
- SlideFill.EndSlide: requires an end template, and sized typed image slots in the drawn one, as SlideFill.CoverSlide does.
- ItemSlides.ContentsSlide: requires a contents template, and sized typed image slots in the drawn one, as SlideFill.CoverSlide does.
- ItemSlides.ContentSlide: requires a content template, and a positive size for every page and item figure of the drawn one and every pool image. This includes item figures that get an AI image or are dropped for a table, which the source does not crop. Background images may have any size.
- Generation.Step: requires what its slide's maker requires above. It asks the size of every template of the slide's kind, not only of the drawn one.
- Generation.TemplateStep: requires the same as Generation.Step.
- Generation.TransitionStep: requires what SlideFill.TransitionSlide requires.
- Generation.CoverStep: requires a cover template, and sized typed image slots in every cover template.
- Generation.ContentsStep: requires a contents template, and sized typed image slots in every contents template.
- Generation.ContentStep: requires a content template, and sized page and item figures in every content template.
- Generation.EndStep: requires an end template, and sized typed image slots in every end template.
- Generation.Generate: requires, for every AI slide of the list, what Generation.Step requires. The transition template's slots need a size only when a transition slide comes.
- Generation.AIPPT: requires every pool image to have a positive size. For each kind of slide it makes, it also requires the refilled slots of every template of that kind to be sized. For transitions it requires this of the session's template when the session keeps one, else of every transition template, and only when a transition slide comes.
- Generation.AIPPT: requires templates of every kind the AI slides use. The source reads `undefined.elements` and throws otherwise.

## Findings

| source | as written | input that shows it | evidently intended | confidence | as-written member | corrected member |
|---|---|---|---|---|---|---|
| src/hooks/useAIPPT.ts:625-645 | With more than six number badges, the comparator calls `parseInt` on each badge's rich-text markup. The markup starts with a tag (`<p>`), so both numbers are NaN. The comparison is NaN, which sorts as equal, so the badges keep template order. | A contents template whose seven badges show 07 to 01 in document order. As written the badge showing 07 is numbered first; see `ReversedBadgesCounterexample`. | Order the badges by the number each one shows. | not executed | ReadingOrder.BadgesAsWrittenKeepTemplateOrder | ReadingOrder.BadgesByNumber |
| src/hooks/useAIPPT.ts:647-673 | The item comparator reads its badge numbers the same way, so more than six items also keep template order. | The same template, with one item slot grouped with each badge. | Order the items by their badges' numbers. | not executed | ReadingOrder.ItemsAsWrittenKeepTemplateOrder | ReadingOrder.ItemsByBadgeNumber |

=== FILE: assembler.dfy ===
/** Slide assembly (`AIPPT`): every AI slide, after pagination, is turned into a copy of a
    template slide whose elements are filled with the slide's data. Each template element
    gets an `Action`; the actions are carried out left to right, taking images from the
    pool as they go; elements left unused, and every element of their groups, are then
    dropped. Randomness is a stream of `Math.random()` values and a count of the values
    drawn so far. */
module Assembler {
  import opened Common
  import opened Strings
  import opened Slides
  import opened Paginator
  import opened TemplateSelector
  import opened TextFitter
  import opened ImageAllocator
  import opened ReadingOrder

  /** What becomes of one template element. */
  datatype Action =
    | Keep
      /** Fill the image slot from the pool, when the pool is not empty. */
    | FillImage
      /** Show the data item's own image, uncropped. */
    | PutImage(src: string)
    | PutText(text: string, maxLine: int, longestText: string, digitPadding: bool)
      /** Keep for now, and drop it and its group afterwards. */
    | Unused

  /** The action can be carried out on the element. */
  predicate Applicable(el: Element, a: Action) {
    match a
    case FillImage => el.kind.ImageKind? && el.width > 0.0 && el.height > 0.0
    case PutImage(_) => el.kind.ImageKind?
    case PutText(_, _, _, _) => HasMarkup(el)
    case _ => true
  }

  /** The element after an action other than `FillImage`: unchanged for `Keep` and
      `Unused`, rewritten by the text fitter for `PutText`, showing the new source
      uncropped for `PutImage`; always with its id and group. */
  predicate Carried(m: Measure, el: Element, a: Action, out: Element) {
    && out.id == el.id && out.groupId == el.groupId
    && (a.Keep? || a.Unused? ==> out == el)
    && (a.PutText? ==> HasMarkup(el) && out == NewTextElement(m, el, a.text, a.maxLine, a.longestText, a.digitPadding))
    && (a.PutImage? ==> el.kind.ImageKind? && out == el.(kind := el.kind.(src := a.src, clip := None)))
  }

  /** The host services: text measurement and the `Math.random()` stream. */
  datatype Env = Env(measure: Measure, rand: nat -> Unit)

  /** The image pool and the number of random values drawn so far. */
  datatype Draw = Draw(pool: seq<ImgPoolItem>, draws: nat)

  /** The pool only loses images, each one for one random value. */
  predicate Consumes(before: Draw, after: Draw) {
    && (forall x :: x in after.pool ==> x in before.pool)
    && PositiveSizes(after.pool)
    && before.draws <= after.draws
    && (UniquePoolIds(before.pool) ==>
          UniquePoolIds(after.pool) && after.draws - before.draws == |before.pool| - |after.pool|)
  }

  /** One action carried out. */
  function Apply(env: Env, el: Element, a: Action, d: Draw): (r: (Element, Draw))
    requires Applicable(el, a) && PositiveSizes(d.pool)
    ensures r.0.id == el.id && r.0.groupId == el.groupId
    ensures Consumes(d, r.1)
    ensures !a.FillImage? ==> r.1 == d
    ensures Carried(env.measure, el, a, r.0)
    ensures a.FillImage? && |d.pool| == 0 ==> r.0 == el && r.1 == d
    ensures a.FillImage? && |d.pool| > 0 ==> r.0 == NewImgElement(el, d.pool, env.rand(d.draws)).0
    ensures a.FillImage? ==> FilledFrom(el, r.0, d.pool)
  {
    match a
    case Keep => (el, d)
    case Unused => (el, d)
    case FillImage =>
      if |d.pool| == 0 then (el, d)
      else
        var (e, pool) := NewImgElement(el, d.pool, env.rand(d.draws));
        (e, Draw(pool, d.draws + 1))
    case PutImage(src) => (el.(kind := el.kind.(src := src, clip := None)), d)
    case PutText(text, maxLine, longest, padding) =>
      (NewTextElement(env.measure, el, text, maxLine, longest, padding), d)
  }

  predicate AllApplicable(els: seq<Element>, acts: seq<Action>) {
    |els| == |acts| && forall i :: 0 <= i < |els| ==> Applicable(els[i], acts[i])
  }

  /** `elements.map(...)`: the actions carried out in template order, the pool threaded
      from each element to the next. */
  function Realise(env: Env, els: seq<Element>, acts: seq<Action>, d: Draw): (r: (seq<Element>, Draw))
    requires AllApplicable(els, acts) && PositiveSizes(d.pool)
    ensures |r.0| == |els|
    ensures forall i :: 0 <= i < |els| ==> Carried(env.measure, els[i], acts[i], r.0[i])
    ensures Consumes(d, r.1)
    ensures (forall i :: 0 <= i < |acts| ==> !acts[i].FillImage?) ==> r.1 == d
    ensures forall i :: 0 <= i < |els| && acts[i].FillImage? ==> FilledFrom(els[i], r.0[i], d.pool)
    decreases |els|
  {
    if |els| == 0 then ([], d)
    else
      var (e, d1) := Apply(env, els[0], acts[0], d);
      var (rest, d2) := Realise(env, els[1..], acts[1..], d1);
      RealiseCons(env.measure, els, acts, e, rest, d1.pool, d.pool);
      ([e] + rest, d2)
  }

  /** The first action carried out, then the others from a smaller pool: every action is
      carried out, every refill taken from the larger pool. */
  lemma RealiseCons(m: Measure, els: seq<Element>, acts: seq<Action>, e: Element, rest: seq<Element>,
                    pool: seq<ImgPoolItem>, wider: seq<ImgPoolItem>)
    requires |els| == |acts| && |els| > 0 && |rest| == |els| - 1
    requires Carried(m, els[0], acts[0], e) && (acts[0].FillImage? ==> FilledFrom(els[0], e, wider))
    requires forall i :: 0 <= i < |rest| ==> Carried(m, els[1..][i], acts[1..][i], rest[i])
    requires forall i :: 0 <= i < |rest| && acts[1..][i].FillImage? ==> FilledFrom(els[1..][i], rest[i], pool)
    requires forall x :: x in pool ==> x in wider
    ensures forall i :: 0 <= i < |els| ==> Carried(m, els[i], acts[i], ([e] + rest)[i])
    ensures forall i :: 0 <= i < |els| && acts[i].FillImage? ==> FilledFrom(els[i], ([e] + rest)[i], wider)
  {
    forall i | 1 <= i < |els|
      ensures Carried(m, els[i], acts[i], ([e] + rest)[i])
      ensures acts[i].FillImage? ==> FilledFrom(els[i], ([e] + rest)[i], wider)
    {
      assert els[1..][i - 1] == els[i] && acts[1..][i - 1] == acts[i] && ([e] + rest)[i] == rest[i - 1];
      if acts[i].FillImage? {
        FilledFromWider(els[i], rest[i - 1], pool, wider);
      }
    }
  }

  /** The ids of the elements marked unused. */
  function UnusedIds(els: seq<Element>, acts: seq<Action>): set<string>
    requires |els| == |acts|
  {
    set i | 0 <= i < |els| && acts[i].Unused? :: els[i].id
  }

  /** The groups of the elements marked unused. */
  function UnusedGroups(els: seq<Element>, acts: seq<Action>): set<string>
    requires |els| == |acts|
  {
    set i | 0 <= i < |els| && acts[i].Unused? && els[i].groupId != "" :: els[i].groupId
  }

  /** The filter after the map: the element's id was marked unused, or it belongs to a
      group one of whose elements was. */
  predicate Dropped(el: Element, ids: set<string>, groups: set<string>) {
    el.id in ids || (el.groupId != "" && el.groupId in groups)
  }

  /** The test the filter applies. */
  function Kept(ids: set<string>, groups: set<string>): Element -> bool {
    el => !Dropped(el, ids, groups)
  }

  function DropUnused(mapped: seq<Element>, ids: set<string>, groups: set<string>): (r: seq<Element>)
    ensures forall x :: x in r <==> x in mapped && !Dropped(x, ids, groups)
  {
    Filter(mapped, Kept(ids, groups))
  }

  /** The filter keeps order and multiplicity: nothing is left of nothing, and one more
      element at the end adds it at the end, unless it is dropped. */
  lemma DropUnusedAppend(mapped: seq<Element>, x: Element, ids: set<string>, groups: set<string>)
    ensures DropUnused([], ids, groups) == []
    ensures DropUnused(mapped + [x], ids, groups)
         == DropUnused(mapped, ids, groups) + (if Dropped(x, ids, groups) then [] else [x])
  {
    var keep := Kept(ids, groups);
    FilterAppend(mapped, [x], keep);
    FilterSingle(x, keep);
  }

  /** The elements of a filled slide: the template elements with their actions carried
      out, minus the unused ones and their groups. */
  function FillElements(env: Env, els: seq<Element>, acts: seq<Action>, d: Draw): (r: (seq<Element>, Draw))
    requires AllApplicable(els, acts) && PositiveSizes(d.pool)
    ensures Consumes(d, r.1)
    ensures var made := Realise(env, els, acts, d);
      r.0 == DropUnused(made.0, UnusedIds(els, acts), UnusedGroups(els, acts)) && r.1 == made.1
  {
    var (mapped, d1) := Realise(env, els, acts, d);
    (DropUnused(mapped, UnusedIds(els, acts), UnusedGroups(els, acts)), d1)
  }

  /** What the unused filter keeps and drops: an element marked unused never survives,
      nor does any element sharing its group; an element whose id and group were not
      marked survives with its action carried out. */
  lemma FillElementsKeeps(env: Env, els: seq<Element>, acts: seq<Action>, d: Draw)
    requires AllApplicable(els, acts) && PositiveSizes(d.pool)
    ensures var out := FillElements(env, els, acts, d).0;
      var mapped := Realise(env, els, acts, d).0;
      && (forall i :: 0 <= i < |els| && acts[i].Unused? ==> forall x :: x in out ==> x.id != els[i].id)
      && (forall i :: 0 <= i < |els| && acts[i].Unused? && els[i].groupId != "" ==>
            forall x :: x in out ==> x.groupId != els[i].groupId)
      && (forall i :: 0 <= i < |els| && !Dropped(els[i], UnusedIds(els, acts), UnusedGroups(els, acts)) ==>
            mapped[i] in out)
      && (forall x :: x in out ==> x in mapped)
  {
    var out := FillElements(env, els, acts, d).0;
    var mapped := Realise(env, els, acts, d).0;
    forall i | 0 <= i < |els| && acts[i].Unused?
      ensures els[i].id in UnusedIds(els, acts)
      ensures els[i].groupId != "" ==> els[i].groupId in UnusedGroups(els, acts)
    {
    }
    forall i | 0 <= i < |els| && !Dropped(els[i], UnusedIds(els, acts), UnusedGroups(els, acts))
      ensures mapped[i] in out
    {
      assert mapped[i] in mapped;
    }
  }

  /** Without unused marks nothing is dropped: the slide keeps every template element, in
      template order, with its action carried out. */
  lemma NothingDropped(env: Env, els: seq<Element>, acts: seq<Action>, d: Draw)
    requires AllApplicable(els, acts) && PositiveSizes(d.pool)
    requires forall i :: 0 <= i < |acts| ==> !acts[i].Unused?
    ensures FillElements(env, els, acts, d).0 == Realise(env, els, acts, d).0
  {
    var mapped := Realise(env, els, acts, d).0;
    assert UnusedIds(els, acts) == {};
    assert UnusedGroups(els, acts) == {};
    FilterAll(mapped, Kept({}, {}));
  }

  /** Consumption composes: two stretches of slides consume what their sum consumes. */
  lemma ConsumesTrans(a: Draw, b: Draw, c: Draw)
    requires Consumes(a, b) && Consumes(b, c)
    ensures Consumes(a, c)
  {
  }

  /** Consumption does not depend on where the draw count starts. */
  lemma ConsumesShift(a: Draw, b: Draw, k: nat)
    requires Consumes(a, b)
    ensures Consumes(Draw(a.pool, a.draws + k), Draw(b.pool, b.draws + k))
  {
  }

  /** The slot survives the unused filter. */
  predicate Survives(els: seq<Element>, acts: seq<Action>, i: int)
    requires |els| == |acts| && 0 <= i < |els|
  {
    !Dropped(els[i], UnusedIds(els, acts), UnusedGroups(els, acts))
  }

  /** The template positions whose slots survive the unused filter, in increasing
      order. */
  function Survivors(els: seq<Element>, acts: seq<Action>): (r: seq<int>)
    requires |els| == |acts|
    ensures forall j :: 0 <= j < |r| ==> 0 <= r[j] < |els| && Survives(els, acts, r[j])
    ensures forall j, k :: 0 <= j < k < |r| ==> r[j] < r[k]
    ensures forall i :: 0 <= i < |els| && Survives(els, acts, i) ==> i in r
  {
    FilterIndices(els, Kept(UnusedIds(els, acts), UnusedGroups(els, acts)), |els|)
  }

  /** `x` is template slot `el` with action `a` carried out, refilled from `pool` when
      the action is an image fill. */
  predicate RealisedAs(m: Measure, pool: seq<ImgPoolItem>, el: Element, a: Action, x: Element) {
    Carried(m, el, a, x) && (a.FillImage? ==> FilledFrom(el, x, pool))
  }

  /** The finished elements are exactly the surviving template slots with their actions
      carried out, one each, in template order. */
  predicate Assembled(m: Measure, pool: seq<ImgPoolItem>, els: seq<Element>, acts: seq<Action>, out: seq<Element>)
    requires |els| == |acts|
  {
    var s := Survivors(els, acts);
    && |out| == |s|
    && forall j :: 0 <= j < |s| ==> RealisedAs(m, pool, els[s[j]], acts[s[j]], out[j])
  }

  /** The elements the assembler produces are the surviving slots carried out, in
      template order, each image fill refilled from the pool on entry: carrying out an
      action keeps the id and group the unused filter reads. */
  lemma FillElementsAssembled(env: Env, els: seq<Element>, acts: seq<Action>, d: Draw)
    requires AllApplicable(els, acts) && PositiveSizes(d.pool)
    ensures Assembled(env.measure, d.pool, els, acts, FillElements(env, els, acts, d).0)
  {
    var mapped := Realise(env, els, acts, d).0;
    var keep := Kept(UnusedIds(els, acts), UnusedGroups(els, acts));
    forall i | 0 <= i < |els| ensures keep(els[i]) == keep(mapped[i]) {
      assert Carried(env.measure, els[i], acts[i], mapped[i]);
    }
    FilterIndicesAgree(els, keep, mapped, keep, |els|);
    FilterPicks(mapped, keep, |mapped|);
    assert mapped[..|mapped|] == mapped;
  }

  /** What was assembled from a pool was assembled from any pool holding it. */
  lemma AssembledWider(m: Measure, els: seq<Element>, acts: seq<Action>, out: seq<Element>,
                       pool: seq<ImgPoolItem>, wider: seq<ImgPoolItem>)
    requires |els| == |acts| && Assembled(m, pool, els, acts, out) && forall x :: x in pool ==> x in wider
    ensures Assembled(m, wider, els, acts, out)
  {
    var s := Survivors(els, acts);
    forall j | 0 <= j < |s| ensures RealisedAs(m, wider, els[s[j]], acts[s[j]], out[j]) {
      if acts[s[j]].FillImage? {
        FilledFromWider(els[s[j]], out[j], pool, wider);
      }
    }
  }

  /** Nothing of `el` is left in `out`: no element with its id, nor any element of its
      group. */
  predicate Gone(el: Element, out: seq<Element>) {
    forall x :: x in out ==> x.id != el.id && (el.groupId != "" ==> x.groupId != el.groupId)
  }

  /** What becomes of template slot `i` in the finished elements `out`: a surviving slot
      appears with its text or image action carried out, refilled from `pool` (or left as
      it was) when its action is `FillImage`, or as it was when kept; an
      unused slot leaves no element with its id, nor any element of its group. */
  predicate Shows(m: Measure, pool: seq<ImgPoolItem>, els: seq<Element>, acts: seq<Action>, i: int, out: seq<Element>)
    requires |els| == |acts| && 0 <= i < |els|
  {
    && (acts[i].Unused? ==> Gone(els[i], out))
    && (Survives(els, acts, i) && acts[i].Keep? ==> els[i] in out)
    && (Survives(els, acts, i) && acts[i].PutText? && HasMarkup(els[i]) ==>
          NewTextElement(m, els[i], acts[i].text, acts[i].maxLine, acts[i].longestText, acts[i].digitPadding) in out)
    && (Survives(els, acts, i) && acts[i].PutImage? && els[i].kind.ImageKind? ==>
          els[i].(kind := els[i].kind.(src := acts[i].src, clip := None)) in out)
    && (Survives(els, acts, i) && acts[i].FillImage? ==> exists x :: x in out && FilledFrom(els[i], x, pool))
  }

  /** A filled slide: the template's type, its elements with their actions carried out,
      minus the unused slots and their groups, in template order. */
  function FillSlide(env: Env, tpl: Slide, acts: seq<Action>, d: Draw): (r: (Slide, Draw))
    requires AllApplicable(tpl.elements, acts) && PositiveSizes(d.pool)
    ensures r.0.slideType == tpl.slideType
    ensures |r.0.elements| <= |tpl.elements|
    ensures forall i :: 0 <= i < |tpl.elements| ==> Shows(env.measure, d.pool, tpl.elements, acts, i, r.0.elements)
    ensures forall x :: x in r.0.elements ==> exists i :: 0 <= i < |tpl.elements| && x.id == tpl.elements[i].id
    ensures Consumes(d, r.1)
    ensures r.0.elements
         == DropUnused(Realise(env, tpl.elements, acts, d).0, UnusedIds(tpl.elements, acts), UnusedGroups(tpl.elements, acts))
    ensures Assembled(env.measure, d.pool, tpl.elements, acts, r.0.elements)
  {
    FillElementsShows(env, tpl.elements, acts, d);
    FillElementsAssembled(env, tpl.elements, acts, d);
    var (out, d1) := FillElements(env, tpl.elements, acts, d);
    (Slide(tpl.slideType, out), d1)
  }

  lemma FillElementsShows(env: Env, els: seq<Element>, acts: seq<Action>, d: Draw)
    requires AllApplicable(els, acts) && PositiveSizes(d.pool)
    ensures var out := FillElements(env, els, acts, d).0;
      && (forall i :: 0 <= i < |els| ==> Shows(env.measure, d.pool, els, acts, i, out))
      && (forall x :: x in out ==> exists i :: 0 <= i < |els| && x.id == els[i].id)
  {
    var out := FillElements(env, els, acts, d).0;
    var mapped := Realise(env, els, acts, d).0;
    FillElementsKeeps(env, els, acts, d);
    forall i | 0 <= i < |els| ensures Shows(env.measure, d.pool, els, acts, i, out) {
      assert Carried(env.measure, els[i], acts[i], mapped[i]);
      if Survives(els, acts, i) && acts[i].FillImage? {
        assert mapped[i] in out && FilledFrom(els[i], mapped[i], d.pool);
      }
    }
    forall x | x in out ensures exists i :: 0 <= i < |els| && x.id == els[i].id {
      var i :| 0 <= i < |mapped| && mapped[i] == x;
      assert Carried(env.measure, els[i], acts[i], mapped[i]);
    }
  }
}

=== FILE: common.dfy ===
/** Shared vocabulary of the model: an optional value and a few sequence facts. */
module Common {

  /** A value that may be missing; stands for JavaScript's `undefined`/`null` fields. */
  datatype Option<+T> = None | Some(value: T) {

    /** The carried value, or `default` when missing (JavaScript's `x || default` on a defined x). */
    function GetOr(default: T): T {
      match this
      case Some(v) => v
      case None => default
    }
  }

  /** Concatenation of a sequence of sequences. */
  function Flatten<T>(xss: seq<seq<T>>): seq<T>
  {
    if |xss| == 0 then [] else Flatten(xss[..|xss| - 1]) + xss[|xss| - 1]
  }

  lemma FlattenAppend<T>(xss: seq<seq<T>>, yss: seq<seq<T>>)
    ensures Flatten(xss + yss) == Flatten(xss) + Flatten(yss)
    decreases |yss|
  {
    if |yss| == 0 {
      assert xss + yss == xss;
    } else {
      var last := yss[|yss| - 1];
      assert (xss + yss)[..|xss + yss| - 1] == xss + yss[..|yss| - 1];
      FlattenAppend(xss, yss[..|yss| - 1]);
    }
  }

  /** JavaScript's `xs.filter(p)`: the elements satisfying `p`, in their original order. */
  function Filter<T(!new)>(xs: seq<T>, p: T -> bool): (r: seq<T>)
    ensures |r| <= |xs|
    ensures forall x :: x in r <==> x in xs && p(x)
  {
    if |xs| == 0 then []
    else
      var init := Filter(xs[..|xs| - 1], p);
      var last := xs[|xs| - 1];
      assert xs == xs[..|xs| - 1] + [last];
      if p(last) then init + [last] else init
  }

  lemma {:induction false} FilterAppend<T(!new)>(xs: seq<T>, ys: seq<T>, p: T -> bool)
    ensures Filter(xs + ys, p) == Filter(xs, p) + Filter(ys, p)
    decreases |ys|
  {
    if |ys| == 0 {
      assert xs + ys == xs;
    } else {
      assert (xs + ys)[..|xs + ys| - 1] == xs + ys[..|ys| - 1];
      FilterAppend(xs, ys[..|ys| - 1], p);
    }
  }

  /** A non-empty sequence is its front followed by its last element. */
  lemma LastSplit<T>(xs: seq<T>)
    requires |xs| > 0
    ensures xs == xs[..|xs| - 1] + [xs[|xs| - 1]]
  {
  }

  /** A sequence is its prefix followed by the rest. */
  lemma SplitAt<T>(xs: seq<T>, p: nat)
    requires p <= |xs|
    ensures xs[..p] + xs[p..] == xs
  {
  }

  lemma TakeAll<T>(xs: seq<T>)
    ensures xs[..|xs|] == xs
  {
  }

  lemma FilterSingle<T(!new)>(x: T, p: T -> bool)
    ensures Filter([x], p) == if p(x) then [x] else []
  {
    assert [x][..0] == [];
  }

  /** A filter that rejects nothing returns its input. */
  lemma {:induction false} FilterAll<T(!new)>(xs: seq<T>, p: T -> bool)
    requires forall x :: x in xs ==> p(x)
    ensures Filter(xs, p) == xs
    decreases |xs|
  {
    if |xs| > 0 {
      assert xs == xs[..|xs| - 1] + [xs[|xs| - 1]];
      assert forall x :: x in xs[..|xs| - 1] ==> x in xs;
      FilterAll(xs[..|xs| - 1], p);
    }
  }

  /** The positions below `n` of the elements satisfying `p`, in increasing order: where
      the elements `Filter` keeps stood. */
  function FilterIndices<T>(xs: seq<T>, p: T -> bool, n: nat): (r: seq<int>)
    requires n <= |xs|
    ensures forall j :: 0 <= j < |r| ==> 0 <= r[j] < n && p(xs[r[j]])
    ensures forall j, k :: 0 <= j < k < |r| ==> r[j] < r[k]
    ensures forall i :: 0 <= i < n && p(xs[i]) ==> i in r
  {
    if n == 0 then []
    else
      var init := FilterIndices(xs, p, n - 1);
      if p(xs[n - 1]) then init + [n - 1] else init
  }

  /** The filter of a prefix is its elements at the filtered positions, in order. */
  lemma {:induction false} FilterPicks<T(!new)>(xs: seq<T>, p: T -> bool, n: nat)
    requires n <= |xs|
    ensures |Filter(xs[..n], p)| == |FilterIndices(xs, p, n)|
    ensures forall j :: 0 <= j < |FilterIndices(xs, p, n)| ==> Filter(xs[..n], p)[j] == xs[FilterIndices(xs, p, n)[j]]
    decreases n
  {
    if n > 0 {
      FilterPicks(xs, p, n - 1);
      assert xs[..n][..n - 1] == xs[..n - 1];
      var r0, s0 := Filter(xs[..n - 1], p), FilterIndices(xs, p, n - 1);
      if p(xs[n - 1]) {
        var r, s := r0 + [xs[n - 1]], s0 + [n - 1];
        assert Filter(xs[..n], p) == r && FilterIndices(xs, p, n) == s;
        forall j | 0 <= j < |s| ensures r[j] == xs[s[j]] {
          if j < |s0| {
            assert r[j] == r0[j] && s[j] == s0[j];
          }
        }
      } else {
        assert Filter(xs[..n], p) == r0 && FilterIndices(xs, p, n) == s0;
      }
    }
  }

  /** Positions chosen by the same test on two sequences that agree on it coincide. */
  lemma {:induction false} FilterIndicesAgree<T, U>(xs: seq<T>, p: T -> bool, ys: seq<U>, q: U -> bool, n: nat)
    requires n <= |xs| == |ys|
    requires forall i :: 0 <= i < |xs| ==> p(xs[i]) == q(ys[i])
    ensures FilterIndices(xs, p, n) == FilterIndices(ys, q, n)
    decreases n
  {
    if n > 0 {
      FilterIndicesAgree(xs, p, ys, q, n - 1);
    }
  }

  /** `xs` has pairwise distinct elements. */
  predicate NoDuplicates<T(==)>(xs: seq<T>) {
    forall i, j :: 0 <= i < j < |xs| ==> xs[i] != xs[j]
  }

  function Max(a: int, b: int): int { if a >= b then a else b }

  function Min(a: int, b: int): int { if a <= b then a else b }
}

=== FILE: fences.dfy ===
/** Fence stripping (`getMdContent`, `getJSONContent`): the body of the first fenced block
    opened by "```" and a tag, or, when no block closes, the text with the opening fence
    and the first remaining "```" deleted. The regular expression `/```tag([^`]*)```/`
    is modelled exactly: a block's body is a maximal run of characters other than a
    backtick, and it only counts when "```" follows it. */
module Fences {
  import opened Common
  import opened Strings

  const Tick: string := "```"

  /** The opening fence of a block with the given tag. */
  function Open(tag: string): string {
    Tick + tag
  }

  /** The length of the longest run of characters other than '`' starting at `from`. */
  function TickFreeRun(s: string, from: nat): (n: nat)
    requires from <= |s|
    ensures from + n <= |s|
    ensures forall k :: from <= k < from + n ==> s[k] != '`'
    ensures from + n < |s| ==> s[from + n] == '`'
  {
    RunAvoiding(s, from, {'`'})
  }

  /** Where the body of a block opened at `i` starts. */
  function BodyStart(tag: string, i: nat): nat {
    i + |Open(tag)|
  }

  /** The regular expression matches at `i`: the opening fence, then the longest tick-free
      run, then "```". */
  predicate FenceAt(s: string, tag: string, i: nat) {
    && OccursAt(s, Open(tag), i)
    && OccursAt(s, Tick, BodyStart(tag, i) + TickFreeRun(s, BodyStart(tag, i)))
  }

  /** The leftmost match at or after `k`. */
  function FenceFrom(s: string, tag: string, k: nat): (r: Option<nat>)
    ensures r.Some? ==> k <= r.value && FenceAt(s, tag, r.value)
    ensures r.Some? ==> forall j :: k <= j < r.value ==> !FenceAt(s, tag, j)
    ensures r.None? ==> forall j :: k <= j ==> !FenceAt(s, tag, j)
    decreases |s| - k
  {
    if k > |s| then None
    else if FenceAt(s, tag, k) then Some(k)
    else FenceFrom(s, tag, k + 1)
  }

  /** The leftmost match of the block regular expression, if any. */
  function FirstFence(s: string, tag: string): Option<nat> {
    FenceFrom(s, tag, 0)
  }

  /** The captured group of a match at `i`. */
  function FenceBody(s: string, tag: string, i: nat): string
    requires FenceAt(s, tag, i)
  {
    var b := BodyStart(tag, i);
    s[b..b + TickFreeRun(s, b)]
  }

  /** The shared logic of `getMdContent` and `getJSONContent` for one tag. */
  function StripFence(s: string, tag: string): string {
    match FirstFence(s, tag)
    case Some(i) => Trim(FenceBody(s, tag, i))
    case None => ReplaceFirst(ReplaceFirst(s, Open(tag), ""), Tick, "")
  }

  /** `getMdContent` (src/hooks/useAIPPT.ts). */
  function MdContent(s: string): string {
    StripFence(s, "markdown")
  }

  /** `getJSONContent` (src/hooks/useAIPPT.ts). */
  function JsonContent(s: string): string {
    StripFence(s, "json")
  }

  /** Every match starts with a backtick, so none starts inside a tick-free prefix. */
  lemma NoFenceInTickFree(s: string, tag: string, n: nat)
    requires n <= |s| && forall k :: 0 <= k < n ==> s[k] != '`'
    ensures forall j :: 0 <= j < n ==> !OccursAt(s, Open(tag), j)
    ensures forall j :: 0 <= j < n ==> !FenceAt(s, tag, j)
  {
    forall j | 0 <= j < n ensures !OccursAt(s, Open(tag), j) {
      NotAtNonTick(s, Open(tag), j);
    }
  }

  /** A pattern starting with a backtick does not occur where there is no backtick. */
  lemma NotAtNonTick(s: string, pat: string, j: nat)
    requires |pat| > 0 && pat[0] == '`'
    requires j < |s| ==> s[j] != '`'
    ensures !OccursAt(s, pat, j)
  {
    if j + |pat| <= |s| {
      assert s[j..j + |pat|][0] == s[j];
    }
  }

  /** The match at `i` when the run after the opening fence has length `n` and is closed. */
  lemma MatchAt(s: string, tag: string, i: nat, n: nat)
    requires OccursAt(s, Open(tag), i)
    requires var b := BodyStart(tag, i);
      && OccursAt(s, Tick, b + n)
      && forall k :: b <= k < b + n ==> s[k] != '`'
    ensures FenceAt(s, tag, i)
    ensures FenceBody(s, tag, i) == s[BodyStart(tag, i)..BodyStart(tag, i) + n]
  {
    var b := BodyStart(tag, i);
    assert s[b + n] == s[b + n..b + n + 3][0];
    RunOverTickFree(s, b, n);
  }

  /** A run that starts with `n` tick-free characters followed by a tick has length `n`. */
  lemma {:induction false} RunOverTickFree(s: string, from: nat, n: nat)
    requires from + n < |s| && s[from + n] == '`'
    requires forall k :: from <= k < from + n ==> s[k] != '`'
    ensures TickFreeRun(s, from) == n
    decreases n
  {
    if n > 0 {
      RunOverTickFree(s, from + 1, n - 1);
      assert TickFreeRun(s, from) == 1 + TickFreeRun(s, from + 1);
    }
  }

  /** A match at `i` with no backtick before it is the leftmost one. */
  lemma FirstMatchAt(s: string, tag: string, i: nat, n: nat)
    requires i <= |s| && forall k :: 0 <= k < i ==> s[k] != '`'
    requires OccursAt(s, Open(tag), i)
    requires var b := BodyStart(tag, i);
      && OccursAt(s, Tick, b + n)
      && forall k :: b <= k < b + n ==> s[k] != '`'
    ensures FirstFence(s, tag) == Some(i)
    ensures FenceBody(s, tag, i) == s[BodyStart(tag, i)..BodyStart(tag, i) + n]
  {
    MatchAt(s, tag, i, n);
    NoFenceInTickFree(s, tag, i);
  }

  /** The layout of a text made of tick-free text, a block and anything after it. */
  lemma BlockLayout(pre: string, tag: string, body: string, post: string)
    requires '`' !in pre && '`' !in body
    ensures var s := pre + Open(tag) + body + Tick + post;
      var b := BodyStart(tag, |pre|);
      && (forall k :: 0 <= k < |pre| ==> s[k] != '`')
      && OccursAt(s, Open(tag), |pre|)
      && OccursAt(s, Tick, b + |body|)
      && (forall k :: b <= k < b + |body| ==> s[k] != '`')
      && s[b..b + |body|] == body
  {
    var s := pre + Open(tag) + body + Tick + post;
    var i := |pre|;
    var b := BodyStart(tag, i);
    assert s[i..b] == Open(tag);
    assert s[b..b + |body|] == body;
    assert s[b + |body|..b + |body| + 3] == Tick;
    assert forall k :: 0 <= k < i ==> s[k] == pre[k];
    assert forall k :: b <= k < b + |body| ==> s[k] == body[k - b];
  }

  /** A fenced block with a tick-free body after tick-free text yields the trimmed body,
      whatever follows the block. */
  lemma FenceRoundTrip(pre: string, tag: string, body: string, post: string)
    requires '`' !in pre && '`' !in body
    ensures StripFence(pre + Open(tag) + body + Tick + post, tag) == Trim(body)
  {
    var s := pre + Open(tag) + body + Tick + post;
    assert FirstFence(s, tag) == Some(|pre|) && FenceBody(s, tag, |pre|) == body by {
      BlockLayout(pre, tag, body, post);
      FirstMatchAt(s, tag, |pre|, |body|);
    }
  }

  /** A run over a tick-free suffix reaches the end. */
  lemma {:induction false} RunToEnd(s: string, from: nat)
    requires from <= |s| && forall k :: from <= k < |s| ==> s[k] != '`'
    ensures TickFreeRun(s, from) == |s| - from
    decreases |s| - from
  {
    if from < |s| {
      RunToEnd(s, from + 1);
      assert TickFreeRun(s, from) == 1 + TickFreeRun(s, from + 1);
    }
  }

  /** An opening fence that is never closed is deleted and the rest is kept. */
  lemma UnclosedFence(pre: string, tag: string, body: string)
    requires '`' !in pre && '`' !in tag && '`' !in body
    ensures StripFence(pre + Open(tag) + body, tag) == pre + body
  {
    var s := pre + Open(tag) + body;
    var i := |pre|;
    var b := BodyStart(tag, i);
    forall k | 0 <= k < i ensures s[k] != '`' {
      assert s[k] == pre[k];
    }
    NoFenceInTickFree(s, tag, i);
    forall k | i + 3 <= k < |s| ensures s[k] != '`' {
      if k < b {
        assert s[k] == tag[k - i - 3];
      } else {
        assert s[k] == body[k - b];
      }
    }
    RunToEnd(s, b);
    forall j | i <= j ensures !FenceAt(s, tag, j) {
      if j == i {
        NotAtNonTick(s, Tick, |s|);
      } else {
        NotAtOffset(s, Open(tag), j);
      }
    }
    assert s[i..i + |Open(tag)|] == Open(tag);
    assert OccursAt(s, Open(tag), i);
    assert IndexOf(s, Open(tag)) == i;
    var t := ReplaceFirst(s, Open(tag), "");
    assert s[..i] == pre && s[i + |Open(tag)|..] == body;
    assert t == pre + body;
    NoTickNoOccurrence(t);
  }

  /** A pattern starting with three backticks does not occur where the third would fall
      on a character other than a backtick. */
  lemma NotAtOffset(s: string, pat: string, j: nat)
    requires |pat| >= 3 && pat[2] == '`'
    requires j + 2 < |s| ==> s[j + 2] != '`'
    ensures !OccursAt(s, pat, j)
  {
    if j + |pat| <= |s| {
      assert s[j..j + |pat|][2] == s[j + 2];
    }
  }

  /** Text without a backtick holds no "```" to delete. */
  lemma NoTickNoOccurrence(t: string)
    requires '`' !in t
    ensures ReplaceFirst(t, Tick, "") == t
  {
    forall j | 0 <= j <= |t| - 3 ensures !OccursAt(t, Tick, j) {
      NotAtNonTick(t, Tick, j);
    }
  }

  /** Text without any "```" comes back unchanged. */
  lemma NoFenceUnchanged(s: string, tag: string)
    requires !Contains(s, Tick)
    ensures StripFence(s, tag) == s
  {
    forall j | 0 <= j ensures !OccursAt(s, Open(tag), j) {
      if j + |Open(tag)| <= |s| {
        assert IndexOf(s, Tick) == -1;
        assert !OccursAt(s, Tick, j);
        assert s[j..j + |Open(tag)|][..3] == s[j..j + 3];
        assert Open(tag)[..3] == Tick;
      }
    }
  }

  /** What a matched block yields never contains a backtick. */
  lemma BodyTickFree(s: string, tag: string)
    requires FirstFence(s, tag).Some?
    ensures '`' !in StripFence(s, tag)
  {
    var i := FirstFence(s, tag).value;
    var body := FenceBody(s, tag, i);
    assert forall k :: 0 <= k < |body| ==> body[k] != '`';
  }
}

=== FILE: generation.dfy ===
/** The slide run of `AIPPT` (src/hooks/useAIPPT.ts): the AI slides are paginated, then
    turned into slides one by one, in order, the image pool, the transition counter and
    the transition template carried from each slide to the next and from one call to
    the next. */
module Generation {
  import opened Common
  import opened Strings
  import opened Slides
  import opened Paginator
  import opened TemplateSelector
  import opened TextFitter
  import opened ImageAllocator
  import opened Assembler
  import opened SlideFill
  import opened ItemSlides

  /** What the hook keeps between calls (the image pool, the transition counter, the
      transition template), and the number of random values drawn so far. */
  datatype Session = Session(pool: seq<ImgPoolItem>, draws: nat, transitionIndex: int, transitionTemplate: Option<Slide>)

  /** Every slide of the list has templates to be made from; `transition` says whether a
      transition template is at hand. */
  predicate Supplied(templates: seq<Slide>, slides: seq<AISlide>, transition: bool) {
    forall a :: a in slides ==> Supplies(templates, a, transition)
  }

  /** There is a template to make `a` from. */
  predicate Supplies(templates: seq<Slide>, a: AISlide, transition: bool) {
    match a
    case AICover(_, _) => |Category(templates, CoverType)| > 0
    case AIContents(_, _) => |Category(templates, ContentsType)| > 0
    case AITransition(_, _) => transition
    case AIContent(_, _, _) => |Category(templates, ContentType)| > 0
    case AIEnd => |Category(templates, EndType)| > 0
  }

  /** The slots the slide made from `a` may refill from the pool have a positive size:
      in every template of its kind, or, for a transition, in the transition template
      `tt`. */
  predicate SizedFor(templates: seq<Slide>, a: AISlide, tt: Option<Slide>) {
    match a
    case AICover(_, _) => KindSized(templates, CoverType)
    case AIContents(_, _) => KindSized(templates, ContentsType)
    case AITransition(_, _) => tt.Some? ==> ImagesSized(tt.value, TransitionType)
    case AIContent(_, _, _) => KindSized(templates, ContentType)
    case AIEnd => KindSized(templates, EndType)
  }

  predicate Sized(templates: seq<Slide>, slides: seq<AISlide>, tt: Option<Slide>) {
    forall a :: a in slides ==> SizedFor(templates, a, tt)
  }

  /** Everything one step needs. */
  predicate ReadyFor(templates: seq<Slide>, a: AISlide, s: Session) {
    && Supplies(templates, a, s.transitionTemplate.Some?)
    && SizedFor(templates, a, s.transitionTemplate)
    && PositiveSizes(s.pool)
  }

  predicate Ready(templates: seq<Slide>, slides: seq<AISlide>, s: Session) {
    && Supplied(templates, slides, s.transitionTemplate.Some?)
    && Sized(templates, slides, s.transitionTemplate)
    && PositiveSizes(s.pool)
  }

  /** The random values drawn to choose templates: one per slide, except transitions,
      which reuse the session's template. */
  function Picks(slides: seq<AISlide>): nat {
    if |slides| == 0 then 0
    else Picks(slides[..|slides| - 1]) + (if slides[|slides| - 1].AITransition? then 0 else 1)
  }

  /** The type of the slide made from an AI slide. */
  function TypeOf(a: AISlide, transition: Option<Slide>): SlideType {
    match a
    case AICover(_, _) => CoverType
    case AIContents(_, _) => ContentsType
    case AITransition(_, _) => if transition.Some? then transition.value.slideType else Untyped
    case AIContent(_, _, _) => ContentType
    case AIEnd => EndType
  }

  /** The slide is the transition template, one element per template element, with
      `number` in every part-number slot. */
  predicate PartNumbered(m: Measure, tt: Slide, slide: Slide, number: int) {
    && |slide.elements| == |tt.elements|
    && forall j :: 0 <= j < |tt.elements| && HasTextType(tt.elements[j], PartNumber) ==>
         slide.elements[j] == NewTextElement(m, tt.elements[j], IntToString(number), 1, "", true)
  }

  /** What `slide` is, made from the AI slide `a`: a copy of a template of the kind the
      slide is chosen among (a cover, contents, content or end template fitting the data;
      for a transition, the transition template `tt`, numbered `number`), every slot
      filled as its slide kind says, refills taken from `pool`. */
  predicate Made(m: Measure, templates: seq<Slide>, tt: Option<Slide>, number: int, pool: seq<ImgPoolItem>,
                 a: AISlide, slide: Slide) {
    match a
    case AICover(title, text) =>
      exists tpl :: tpl in Category(templates, CoverType) && CoverMade(m, tpl, slide, title, text, pool)
    case AIContents(items, offset) =>
      exists tpl ::
        && tpl in UseableTemplates(Category(templates, ContentsType), |items|, Item)
        && ContentsMade(m, pool, tpl, items, offset, slide)
    case AITransition(title, text) =>
      tt.Some? && TransitionMade(m, tt.value, slide, title, text, number, pool)
    case AIContent(title, items, offset) =>
      exists tpl :: tpl in ContentCandidates(templates, items) && ContentMade(m, pool, tpl, title, items, offset, slide)
    case AIEnd =>
      exists tpl :: tpl in Category(templates, EndType) && EndMade(tpl, slide, pool)
  }

  /** A slide made with refills from a pool is made with refills from any pool holding it. */
  lemma MadeWider(m: Measure, templates: seq<Slide>, tt: Option<Slide>, number: int, pool: seq<ImgPoolItem>,
                  wider: seq<ImgPoolItem>, a: AISlide, slide: Slide)
    requires Made(m, templates, tt, number, pool, a, slide) && forall x :: x in pool ==> x in wider
    ensures Made(m, templates, tt, number, wider, a, slide)
  {
    match a
    case AICover(title, text) =>
      var tpl :| tpl in Category(templates, CoverType) && CoverMade(m, tpl, slide, title, text, pool);
      CoverMadeWider(m, tpl, slide, title, text, pool, wider);
    case AIContents(items, offset) =>
      var tpl :|
        && tpl in UseableTemplates(Category(templates, ContentsType), |items|, Item)
        && ContentsMade(m, pool, tpl, items, offset, slide);
      ContentsMadeWider(m, tpl, items, offset, slide, pool, wider);
    case AITransition(title, text) =>
      TransitionMadeWider(m, tt.value, slide, title, text, number, pool, wider);
    case AIContent(title, items, offset) =>
      var tpl :| tpl in ContentCandidates(templates, items) && ContentMade(m, pool, tpl, title, items, offset, slide);
      ContentMadeWider(m, tpl, title, items, offset, slide, pool, wider);
    case AIEnd =>
      var tpl :| tpl in Category(templates, EndType) && EndMade(tpl, slide, pool);
      EndMadeWider(tpl, slide, pool, wider);
  }

  /** One AI slide made into a slide: a transition advances the counter and shows its
      new value in every part-number slot of the session's transition template; any
      other slide takes one random value for its template. Either then consumes pool
      images one random value each. */
  method Step(env: Env, templates: seq<Slide>, a: AISlide, s: Session) returns (slide: Slide, next: Session)
    requires ReadyFor(templates, a, s)
    ensures next.transitionIndex == s.transitionIndex + (if a.AITransition? then 1 else 0)
    ensures next.transitionTemplate == s.transitionTemplate
    ensures PositiveSizes(next.pool)
    ensures Consumes(Draw(s.pool, s.draws + (if a.AITransition? then 0 else 1)), Draw(next.pool, next.draws))
    ensures slide.slideType == TypeOf(a, s.transitionTemplate)
    ensures a.AITransition? ==>
      (s.transitionTemplate.Some? && PartNumbered(env.measure, s.transitionTemplate.value, slide, s.transitionIndex + 1))
    ensures AllMade(env.measure, templates, s.transitionTemplate, s.transitionIndex, s.pool, [a], [slide])
  {
    var made: (Slide, Draw);
    if a.AITransition? {
      made := TransitionStep(env, a, s);
    } else {
      made := TemplateStep(env, templates, a, s);
    }
    slide := made.0;
    var index := s.transitionIndex + (if a.AITransition? then 1 else 0);
    next := s.(pool := made.1.pool, draws := made.1.draws, transitionIndex := index);
    assert [a][..0] == [] && [] + [slide] == [slide];
    MadeLast(env.measure, templates, s.transitionTemplate, s.transitionIndex, s.pool, [a], [], slide);
  }

  /** A transition slide from the session's template, numbered with the advanced
      counter; no random value goes to the template. */
  method TransitionStep(env: Env, a: AISlide, s: Session) returns (made: (Slide, Draw))
    requires a.AITransition? && s.transitionTemplate.Some?
    requires ImagesSized(s.transitionTemplate.value, TransitionType) && PositiveSizes(s.pool)
    ensures PositiveSizes(made.1.pool)
    ensures Consumes(Draw(s.pool, s.draws), made.1)
    ensures made.0.slideType == s.transitionTemplate.value.slideType
    ensures PartNumbered(env.measure, s.transitionTemplate.value, made.0, s.transitionIndex + 1)
    ensures TransitionMade(env.measure, s.transitionTemplate.value, made.0, a.title, a.text, s.transitionIndex + 1, s.pool)
  {
    var tt := s.transitionTemplate.value;
    made := TransitionSlide(env, tt, a.title, a.text, s.transitionIndex + 1, Draw(s.pool, s.draws));
    assert forall j :: 0 <= j < |tt.elements| ==>
      TransitionSlot(env.measure, tt.elements[j], made.0.elements[j], a.title, a.text, s.transitionIndex + 1, s.pool);
  }

  /** Any other slide, from a template of its kind chosen with one random value. */
  method TemplateStep(env: Env, templates: seq<Slide>, a: AISlide, s: Session) returns (made: (Slide, Draw))
    requires !a.AITransition? && ReadyFor(templates, a, s)
    ensures PositiveSizes(made.1.pool)
    ensures Consumes(Draw(s.pool, s.draws + 1), made.1)
    ensures made.0.slideType == TypeOf(a, s.transitionTemplate)
    ensures Made(env.measure, templates, s.transitionTemplate, s.transitionIndex + 1, s.pool, a, made.0)
  {
    var d := Draw(s.pool, s.draws);
    assert Draw(d.pool, d.draws + 1) == Draw(s.pool, s.draws + 1);
    if a.AICover? {
      made := CoverStep(env, templates, a, d);
    } else if a.AIContents? {
      made := ContentsStep(env, templates, a, d);
    } else if a.AIContent? {
      made := ContentStep(env, templates, a, d);
    } else {
      made := EndStep(env, templates, d);
    }
  }

  /** A cover slide. */
  method CoverStep(env: Env, templates: seq<Slide>, a: AISlide, d: Draw) returns (made: (Slide, Draw))
    requires a.AICover? && |Category(templates, CoverType)| > 0 && KindSized(templates, CoverType) && PositiveSizes(d.pool)
    ensures made.0.slideType == CoverType
    ensures Consumes(Draw(d.pool, d.draws + 1), made.1)
    ensures exists tpl :: tpl in Category(templates, CoverType) && CoverMade(env.measure, tpl, made.0, a.title, a.text, d.pool)
  {
    made := CoverSlide(env, templates, a.title, a.text, d);
  }

  /** A contents slide. */
  method ContentsStep(env: Env, templates: seq<Slide>, a: AISlide, d: Draw) returns (made: (Slide, Draw))
    requires a.AIContents? && |Category(templates, ContentsType)| > 0 && KindSized(templates, ContentsType) && PositiveSizes(d.pool)
    ensures made.0.slideType == ContentsType
    ensures Consumes(Draw(d.pool, d.draws + 1), made.1)
    ensures exists tpl ::
      && tpl in UseableTemplates(Category(templates, ContentsType), |a.items|, Item)
      && ContentsMade(env.measure, d.pool, tpl, a.items, a.offset, made.0)
  {
    var slide, next := ContentsSlide(env, templates, a.items, a.offset, d);
    made := (slide, next);
  }

  /** A content slide. */
  method ContentStep(env: Env, templates: seq<Slide>, a: AISlide, d: Draw) returns (made: (Slide, Draw))
    requires a.AIContent? && |Category(templates, ContentType)| > 0 && KindSized(templates, ContentType) && PositiveSizes(d.pool)
    ensures made.0.slideType == ContentType
    ensures Consumes(Draw(d.pool, d.draws + 1), made.1)
    ensures exists tpl ::
      && tpl in ContentCandidates(templates, a.contentItems)
      && ContentMade(env.measure, d.pool, tpl, a.title, a.contentItems, a.offset, made.0)
  {
    var slide, next := ContentSlide(env, templates, a.title, a.contentItems, a.offset, d);
    made := (slide, next);
  }

  /** An end slide. */
  method EndStep(env: Env, templates: seq<Slide>, d: Draw) returns (made: (Slide, Draw))
    requires |Category(templates, EndType)| > 0 && KindSized(templates, EndType) && PositiveSizes(d.pool)
    ensures made.0.slideType == EndType
    ensures Consumes(Draw(d.pool, d.draws + 1), made.1)
    ensures exists tpl :: tpl in Category(templates, EndType) && EndMade(tpl, made.0, d.pool)
  {
    made := EndSlide(env, templates, d);
  }

  /** The AI slides made into slides, in order: one slide per AI slide, of its kind; the
      `k`-th transition shows the counter's value on entry plus `k`, so numbering
      continues across the slides of a run and, through the session, across runs; one
      random value per non-transition slide chooses its template, and the pool loses one
      image per random value drawn for images. */
  method Generate(env: Env, templates: seq<Slide>, slides: seq<AISlide>, s: Session) returns (out: seq<Slide>, last: Session)
    requires Ready(templates, slides, s)
    ensures |out| == |slides|
    ensures last.transitionIndex == s.transitionIndex + NumTransitions(slides)
    ensures last.transitionTemplate == s.transitionTemplate
    ensures Consumes(Draw(s.pool, s.draws + Picks(slides)), Draw(last.pool, last.draws))
    ensures forall i :: 0 <= i < |slides| ==> out[i].slideType == TypeOf(slides[i], s.transitionTemplate)
    ensures TransitionsNumbered(env.measure, s.transitionTemplate, s.transitionIndex, slides, out)
    ensures AllMade(env.measure, templates, s.transitionTemplate, s.transitionIndex, s.pool, slides, out)
  {
    out := [];
    last := s;
    var i := 0;
    while i < |slides|
      invariant 0 <= i <= |slides| && |out| == i
      invariant Run(env.measure, templates, s, slides, out, last)
    {
      var a := slides[i];
      assert a in slides;
      var slide, next := Step(env, templates, a, last);
      Extend(env.measure, templates, s, slides, out, last, slide, next);
      out := out + [slide];
      last := next;
      i := i + 1;
    }
    TakeAll(slides);
    assert Typed(s.transitionTemplate, slides, out);
  }

  /** What holds of a run after the slides `out`, made from the first `|out|` AI slides,
      starting from `s` and ending in `last`. */
  predicate Run(m: Measure, templates: seq<Slide>, s: Session, slides: seq<AISlide>, out: seq<Slide>, last: Session) {
    && |out| <= |slides|
    && last.transitionIndex == s.transitionIndex + NumTransitions(slides[..|out|])
    && last.transitionTemplate == s.transitionTemplate
    && PositiveSizes(last.pool)
    && Consumes(Draw(s.pool, s.draws + Picks(slides[..|out|])), Draw(last.pool, last.draws))
    && Typed(s.transitionTemplate, slides, out)
    && TransitionsNumbered(m, s.transitionTemplate, s.transitionIndex, slides, out)
    && AllMade(m, templates, s.transitionTemplate, s.transitionIndex, s.pool, slides, out)
  }

  /** One more step keeps the run going. */
  lemma Extend(m: Measure, templates: seq<Slide>, s: Session, slides: seq<AISlide>, out: seq<Slide>, last: Session,
               slide: Slide, next: Session)
    requires |out| < |slides| && Run(m, templates, s, slides, out, last)
    requires var a := slides[|out|];
      && next.transitionIndex == last.transitionIndex + (if a.AITransition? then 1 else 0)
      && next.transitionTemplate == last.transitionTemplate
      && PositiveSizes(next.pool)
      && Consumes(Draw(last.pool, last.draws + (if a.AITransition? then 0 else 1)), Draw(next.pool, next.draws))
      && slide.slideType == TypeOf(a, last.transitionTemplate)
      && (a.AITransition? ==>
            last.transitionTemplate.Some? && PartNumbered(m, last.transitionTemplate.value, slide, last.transitionIndex + 1))
      && AllMade(m, templates, last.transitionTemplate, last.transitionIndex, last.pool, [a], [slide])
    ensures Run(m, templates, s, slides, out + [slide], next)
  {
    var i := |out|;
    var a := slides[i];
    PrefixStep(slides, i);
    var k := if a.AITransition? then 0 else 1;
    ConsumesShift(Draw(s.pool, s.draws + Picks(slides[..i])), Draw(last.pool, last.draws), k);
    ConsumesTrans(Draw(s.pool, s.draws + Picks(slides[..i + 1])), Draw(last.pool, last.draws + k), Draw(next.pool, next.draws));
    NumberedExtend(m, s.transitionTemplate, s.transitionIndex, slides, out, slide, last.transitionIndex);
    TypedExtend(s.transitionTemplate, slides, out, slide);
    MadeExtend(m, templates, s.transitionTemplate, s.transitionIndex, s.pool, slides, out, a, slide, last);
  }

  /** Slide `j` of `out` has the type of AI slide `j`. */
  predicate Typed(tt: Option<Slide>, slides: seq<AISlide>, out: seq<Slide>) {
    forall j :: 0 <= j < |out| && j < |slides| ==> out[j].slideType == TypeOf(slides[j], tt)
  }

  lemma TypedExtend(tt: Option<Slide>, slides: seq<AISlide>, out: seq<Slide>, slide: Slide)
    requires |out| < |slides| && Typed(tt, slides, out) && slide.slideType == TypeOf(slides[|out|], tt)
    ensures Typed(tt, slides, out + [slide])
  {
  }

  /** The `k`-th transition slide among `out`, made from `slides`, shows in every
      part-number slot of the session's transition template the counter's value on
      entry plus `k`. */
  predicate TransitionsNumbered(m: Measure, tt: Option<Slide>, index: int, slides: seq<AISlide>, out: seq<Slide>) {
    forall j :: 0 <= j < |out| && j < |slides| && slides[j].AITransition? ==>
      (tt.Some? && PartNumbered(m, tt.value, out[j], index + NumTransitions(slides[..j + 1])))
  }

  /** Slide `j` of `out` is made from AI slide `j`, with the transition template `tt`,
      the counter's value before it (counted from `index`) plus one as its part number,
      refills from `pool`, the pool on entry to the run. */
  predicate AllMade(m: Measure, templates: seq<Slide>, tt: Option<Slide>, index: int, pool: seq<ImgPoolItem>,
                    slides: seq<AISlide>, out: seq<Slide>) {
    forall j :: 0 <= j < |out| && j < |slides| ==> MadeAt(m, templates, tt, index, pool, slides, out, j)
  }

  predicate MadeAt(m: Measure, templates: seq<Slide>, tt: Option<Slide>, index: int, pool: seq<ImgPoolItem>,
                   slides: seq<AISlide>, out: seq<Slide>, j: int)
    requires 0 <= j < |out| && j < |slides|
  {
    Made(m, templates, tt, index + NumTransitions(slides[..j]) + 1, pool, slides[j], out[j])
  }

  /** Appending a slide keeps what was made before. */
  lemma MadeKept(m: Measure, templates: seq<Slide>, tt: Option<Slide>, index: int, pool: seq<ImgPoolItem>,
                 slides: seq<AISlide>, out: seq<Slide>, slide: Slide)
    requires |out| < |slides| && AllMade(m, templates, tt, index, pool, slides, out)
    ensures forall j :: 0 <= j < |out| ==> MadeAt(m, templates, tt, index, pool, slides, out + [slide], j)
  {
    forall j | 0 <= j < |out| ensures MadeAt(m, templates, tt, index, pool, slides, out + [slide], j) {
      assert MadeAt(m, templates, tt, index, pool, slides, out, j);
      assert (out + [slide])[j] == out[j];
    }
  }

  /** A slide made from the next AI slide, with refills from what is left of the pool,
      extends the run. */
  lemma MadeExtend(m: Measure, templates: seq<Slide>, tt: Option<Slide>, index: int, pool: seq<ImgPoolItem>,
                   slides: seq<AISlide>, out: seq<Slide>, a: AISlide, slide: Slide, before: Session)
    requires |out| < |slides| && AllMade(m, templates, tt, index, pool, slides, out) && a == slides[|out|]
    requires before.transitionTemplate == tt && before.transitionIndex == index + NumTransitions(slides[..|out|])
    requires forall x :: x in before.pool ==> x in pool
    requires AllMade(m, templates, before.transitionTemplate, before.transitionIndex, before.pool, [a], [slide])
    ensures AllMade(m, templates, tt, index, pool, slides, out + [slide])
  {
    MadeSingle(m, templates, tt, before.transitionIndex, before.pool, a, slide);
    MadeWider(m, templates, tt, before.transitionIndex + 1, before.pool, pool, a, slide);
    MadeKept(m, templates, tt, index, pool, slides, out, slide);
    MadeLast(m, templates, tt, index, pool, slides, out, slide);
  }

  /** A run of one slide made is that slide made. */
  lemma MadeSingle(m: Measure, templates: seq<Slide>, tt: Option<Slide>, index: int, pool: seq<ImgPoolItem>,
                   a: AISlide, slide: Slide)
    requires AllMade(m, templates, tt, index, pool, [a], [slide])
    ensures Made(m, templates, tt, index + 1, pool, a, slide)
  {
    assert MadeAt(m, templates, tt, index, pool, [a], [slide], 0);
    assert [a][..0] == [];
  }

  /** The slide made for the next AI slide joins the run made so far. */
  lemma MadeLast(m: Measure, templates: seq<Slide>, tt: Option<Slide>, index: int, pool: seq<ImgPoolItem>,
                 slides: seq<AISlide>, out: seq<Slide>, slide: Slide)
    requires |out| < |slides|
    requires forall j :: 0 <= j < |out| ==> MadeAt(m, templates, tt, index, pool, slides, out + [slide], j)
    requires Made(m, templates, tt, index + NumTransitions(slides[..|out|]) + 1, pool, slides[|out|], slide)
    ensures AllMade(m, templates, tt, index, pool, slides, out + [slide])
  {
    forall j | 0 <= j < |out| + 1 && j < |slides|
      ensures MadeAt(m, templates, tt, index, pool, slides, out + [slide], j)
    {
      if j == |out| {
        MadeAtLast(m, templates, tt, index, pool, slides, out, slide);
      }
    }
  }

  /** The last slide of the extended run is the slide made for the next AI slide. */
  lemma MadeAtLast(m: Measure, templates: seq<Slide>, tt: Option<Slide>, index: int, pool: seq<ImgPoolItem>,
                   slides: seq<AISlide>, out: seq<Slide>, slide: Slide)
    requires |out| < |slides|
    requires Made(m, templates, tt, index + NumTransitions(slides[..|out|]) + 1, pool, slides[|out|], slide)
    ensures MadeAt(m, templates, tt, index, pool, slides, out + [slide], |out|)
  {
    assert (out + [slide])[|out|] == slide;
  }

  /** A slide made with the counter at `before` keeps the numbering going. */
  lemma NumberedExtend(m: Measure, tt: Option<Slide>, index: int, slides: seq<AISlide>, out: seq<Slide>, slide: Slide,
                       before: int)
    requires |out| < |slides| && TransitionsNumbered(m, tt, index, slides, out)
    requires before == index + NumTransitions(slides[..|out|])
    requires slides[|out|].AITransition? ==> (tt.Some? && PartNumbered(m, tt.value, slide, before + 1))
    ensures TransitionsNumbered(m, tt, index, slides, out + [slide])
  {
    PrefixStep(slides, |out|);
    var r := out + [slide];
    forall j | 0 <= j < |r| && slides[j].AITransition?
      ensures tt.Some? && PartNumbered(m, tt.value, r[j], index + NumTransitions(slides[..j + 1]))
    {
      if j < |out| {
        assert r[j] == out[j];
      } else {
        assert r[j] == slide && slides[..j + 1] == slides[..|out| + 1];
      }
    }
  }

  /** One more slide of the prefix adds its transition and its template draw. */
  lemma PrefixStep(slides: seq<AISlide>, i: int)
    requires 0 <= i < |slides|
    ensures NumTransitions(slides[..i + 1]) == NumTransitions(slides[..i]) + (if slides[i].AITransition? then 1 else 0)
    ensures Picks(slides[..i + 1]) == Picks(slides[..i]) + (if slides[i].AITransition? then 0 else 1)
  {
    assert slides[..i + 1][..i] == slides[..i];
  }

  lemma SuppliedSubset(templates: seq<Slide>, xs: seq<AISlide>, ys: seq<AISlide>, transition: bool)
    requires Supplied(templates, ys, transition) && forall a :: a in xs ==> a in ys
    ensures Supplied(templates, xs, transition)
  {
    forall a | a in xs ensures a in ys {
    }
  }

  /** Pagination keeps the kinds of slides: every chunk is of the kind of the slide it
      comes from. */
  lemma {:induction false} PaginateSupplied(templates: seq<Slide>, slides: seq<AISlide>, transition: bool)
    requires Supplied(templates, slides, transition)
    ensures Supplied(templates, Paginate(slides), transition)
    decreases |slides|
  {
    if |slides| > 0 {
      var n := |slides|;
      var last := slides[n - 1];
      SuppliedSubset(templates, slides[..n - 1], slides, transition);
      assert last in slides;
      PaginateSupplied(templates, slides[..n - 1], transition);
      var chunks := SplitSlide(last);
      SplitKinds(last);
      assert Supplied(templates, chunks, transition);
      assert Paginate(slides) == Paginate(slides[..n - 1]) + chunks;
      assert forall c :: c in Paginate(slides) ==> c in Paginate(slides[..n - 1]) || c in chunks;
    }
  }

  /** Pagination keeps the sizes the slides need: every chunk is of the kind of the
      slide it comes from. */
  lemma {:induction false} PaginateSized(templates: seq<Slide>, slides: seq<AISlide>, tt: Option<Slide>)
    requires Sized(templates, slides, tt)
    ensures Sized(templates, Paginate(slides), tt)
    decreases |slides|
  {
    if |slides| > 0 {
      var n := |slides|;
      var last := slides[n - 1];
      assert last in slides;
      assert Sized(templates, slides[..n - 1], tt) by {
        forall a | a in slides[..n - 1] ensures a in slides {
        }
      }
      PaginateSized(templates, slides[..n - 1], tt);
      var chunks := SplitSlide(last);
      SplitKinds(last);
      assert Sized(templates, chunks, tt);
      assert Paginate(slides) == Paginate(slides[..n - 1]) + chunks;
      assert forall c :: c in Paginate(slides) ==> c in Paginate(slides[..n - 1]) || c in chunks;
    }
  }

  /** The chunks of a slide are of its kind; a slide that is not split is its own chunk. */
  lemma SplitKinds(a: AISlide)
    ensures forall c :: c in SplitSlide(a) ==>
      && c.AIContent? == a.AIContent? && c.AIContents? == a.AIContents?
      && (!a.AIContent? && !a.AIContents? ==> c == a)
  {
    var chunks := SplitSlide(a);
    forall c | c in chunks
      ensures c.AIContent? == a.AIContent? && c.AIContents? == a.AIContents?
      ensures !a.AIContent? && !a.AIContents? ==> c == a
    {
      var j :| 0 <= j < |chunks| && chunks[j] == c;
    }
  }

  /** The slides a call is given need, from its starting session, no more than the
      call's sizes: the session's transition template, or one of the transition
      templates when the session has none and a transition slide comes. */
  lemma StartSized(env: Env, templates: seq<Slide>, aiSlides: seq<AISlide>, imgs: Option<seq<ImgPoolItem>>, s: Session)
    requires Sized(templates, aiSlides, s.transitionTemplate)
    requires s.transitionTemplate.None? && (exists a :: a in aiSlides && a.AITransition?) ==>
      KindSized(templates, TransitionType)
    ensures Sized(templates, aiSlides, Start(env, templates, imgs, s).transitionTemplate)
  {
    var tt := Start(env, templates, imgs, s).transitionTemplate;
    forall a | a in aiSlides ensures SizedFor(templates, a, tt) {
      assert SizedFor(templates, a, s.transitionTemplate);
      if a.AITransition? && s.transitionTemplate.None? && tt.Some? {
        assert tt.value in Category(templates, TransitionType);
      }
    }
  }

  /** The session a run starts from: `imgs`, when given, replaces the pool; without a
      transition template, one is picked with one random value, which is drawn even when
      there is no transition template to pick (the template then stays unset). */
  function Start(env: Env, templates: seq<Slide>, imgs: Option<seq<ImgPoolItem>>, s: Session): (r: Session)
    ensures r.pool == imgs.GetOr(s.pool) && r.transitionIndex == s.transitionIndex
    ensures s.transitionTemplate.Some? ==> r.transitionTemplate == s.transitionTemplate && r.draws == s.draws
    ensures s.transitionTemplate.None? ==>
      && r.draws == s.draws + 1
      && (r.transitionTemplate.Some? <==> |Category(templates, TransitionType)| > 0)
      && (r.transitionTemplate.Some? ==>
            r.transitionTemplate.value in templates && r.transitionTemplate.value.slideType == TransitionType)
  {
    var transitions := Category(templates, TransitionType);
    var start := s.(pool := imgs.GetOr(s.pool));
    if s.transitionTemplate.Some? then start
    else if |transitions| > 0 then
      start.(draws := s.draws + 1, transitionTemplate := Some(Pick(transitions, env.rand(s.draws))))
    else start.(draws := s.draws + 1)
  }

  /** `AIPPT(templateSlides, AISlides, imgs)`: `imgs`, when given, replaces the pool; the
      transition template is chosen (one random value) unless the session has one; then
      the paginated slides are made in order. */
  method AIPPT(env: Env, templates: seq<Slide>, aiSlides: seq<AISlide>, imgs: Option<seq<ImgPoolItem>>, s: Session)
    returns (out: seq<Slide>, last: Session)
    requires PositiveSizes(imgs.GetOr(s.pool)) && Sized(templates, aiSlides, s.transitionTemplate)
    requires s.transitionTemplate.None? && (exists a :: a in aiSlides && a.AITransition?) ==>
      KindSized(templates, TransitionType)
    requires Supplied(templates, aiSlides, s.transitionTemplate.Some? || |Category(templates, TransitionType)| > 0)
    ensures |out| == |Paginate(aiSlides)|
    ensures forall i :: 0 <= i < |out| ==> out[i].slideType == TypeOf(Paginate(aiSlides)[i], last.transitionTemplate)
    ensures last.transitionIndex == s.transitionIndex + NumTransitions(aiSlides)
    ensures s.transitionTemplate.Some? ==> last.transitionTemplate == s.transitionTemplate
    ensures s.transitionTemplate.None? ==>
      && (last.transitionTemplate.Some? <==> |Category(templates, TransitionType)| > 0)
      && (last.transitionTemplate.Some? ==>
            last.transitionTemplate.value in templates && last.transitionTemplate.value.slideType == TransitionType)
    ensures forall x :: x in last.pool ==> x in imgs.GetOr(s.pool)
    ensures UniquePoolIds(imgs.GetOr(s.pool)) ==> UniquePoolIds(last.pool)
    ensures TransitionsNumbered(env.measure, last.transitionTemplate, s.transitionIndex, Paginate(aiSlides), out)
    ensures AllMade(env.measure, templates, last.transitionTemplate, s.transitionIndex, imgs.GetOr(s.pool), Paginate(aiSlides), out)
  {
    var start := Start(env, templates, imgs, s);
    PaginateSupplied(templates, aiSlides, start.transitionTemplate.Some?);
    StartSized(env, templates, aiSlides, imgs, s);
    PaginateSized(templates, aiSlides, start.transitionTemplate);
    PaginatePreserves(aiSlides);
    out, last := Generate(env, templates, Paginate(aiSlides), start);
    assert start.transitionIndex == s.transitionIndex && start.pool == imgs.GetOr(s.pool);
  }
}

=== FILE: imageallocator.dfy ===
/** The image allocator: `getUseableImage` takes an image of the slot's orientation class
    out of the pool, and `getNewImgElement` fills the slot with it, cropped to cover. */
module ImageAllocator {
  import opened Common
  import opened Slides

  /** A value of `Math.random()`: a real in [0, 1). */
  type Unit = r: real | 0.0 <= r < 1.0

  /** `Math.floor(Math.random() * len)`: an index into a non-empty list. */
  function PickIndex(u: Unit, len: nat): (i: nat)
    requires len > 0
    ensures i < len
  {
    assert u * (len as real) < len as real by {
      assert (len as real) - u * (len as real) == (1.0 - u) * (len as real);
    }
    (u * (len as real)).Floor
  }

  /** The pool image has the slot's orientation class: square for a square slot,
      landscape for a wide slot, and portrait or square for a tall one. */
  predicate SameClass(slotW: real, slotH: real, img: ImgPoolItem) {
    if slotW == slotH then img.width == img.height
    else if slotW > slotH then img.width > img.height
    else img.width <= img.height
  }

  /** The images the choice is made among: those of the slot's class, or the whole pool
      when the class is empty. */
  function Candidates(pool: seq<ImgPoolItem>, slotW: real, slotH: real): (r: seq<ImgPoolItem>)
    ensures |r| > 0 <==> |pool| > 0
    ensures forall x :: x in r ==> x in pool
    ensures (exists x :: x in pool && SameClass(slotW, slotH, x)) ==>
      forall x :: x in r <==> x in pool && SameClass(slotW, slotH, x)
    ensures !(exists x :: x in pool && SameClass(slotW, slotH, x)) ==> r == pool
  {
    var imgs := Filter(pool, img => SameClass(slotW, slotH, img));
    if |imgs| == 0 then pool
    else
      assert imgs[0] in imgs;
      imgs
  }

  /** The chosen image, if any, and the pool left after it. */
  datatype Allocation = Allocation(image: Option<ImgPoolItem>, pool: seq<ImgPoolItem>)

  /** `pool.filter(item => item.id !== id)`. */
  function WithoutId(pool: seq<ImgPoolItem>, id: string): (r: seq<ImgPoolItem>)
    ensures forall x :: x in r <==> x in pool && x.id != id
  {
    if |pool| == 0 then []
    else
      var rest := WithoutId(pool[..|pool| - 1], id);
      var last := pool[|pool| - 1];
      assert pool == pool[..|pool| - 1] + [last];
      if last.id != id then rest + [last] else rest
  }

  /** Without its last item, a pool with unique ids keeps them unique, and no earlier
      item shares the last one's id. */
  lemma UniqueInit(pool: seq<ImgPoolItem>)
    requires UniquePoolIds(pool) && |pool| > 0
    ensures UniquePoolIds(pool[..|pool| - 1])
    ensures forall x :: x in pool[..|pool| - 1] ==> x.id != pool[|pool| - 1].id
  {
    var init := pool[..|pool| - 1];
    forall x | x in init ensures x.id != pool[|pool| - 1].id {
      var k :| 0 <= k < |init| && init[k] == x;
      assert pool[k] == x;
    }
  }

  /** Removing by id from a pool with unique ids keeps the ids unique. */
  lemma {:induction false} WithoutIdUnique(pool: seq<ImgPoolItem>, id: string)
    requires UniquePoolIds(pool)
    ensures UniquePoolIds(WithoutId(pool, id))
    decreases |pool|
  {
    if |pool| > 0 {
      var init := pool[..|pool| - 1];
      var last := pool[|pool| - 1];
      var rest := WithoutId(init, id);
      UniqueInit(pool);
      WithoutIdUnique(init, id);
      if last.id != id {
        var r := rest + [last];
        forall i, j | 0 <= i < j < |r| ensures r[i].id != r[j].id {
          if j == |rest| {
            assert r[i] in rest;
          } else {
            assert r[i] == rest[i] && r[j] == rest[j];
          }
        }
      }
    }
  }

  /** From a pool with unique ids, removing by id removes exactly one item when the id
      occurs, and none when it does not. */
  lemma {:induction false} WithoutIdCount(pool: seq<ImgPoolItem>, id: string)
    requires UniquePoolIds(pool)
    ensures (exists x :: x in pool && x.id == id) ==> |WithoutId(pool, id)| == |pool| - 1
    ensures !(exists x :: x in pool && x.id == id) ==> WithoutId(pool, id) == pool
    decreases |pool|
  {
    if |pool| > 0 {
      var init := pool[..|pool| - 1];
      var last := pool[|pool| - 1];
      assert pool == init + [last];
      UniqueInit(pool);
      WithoutIdCount(init, id);
      if last.id != id && exists x :: x in pool && x.id == id {
        var x :| x in pool && x.id == id;
        assert x in init;
      }
    }
  }

  /** `getUseableImage` (src/hooks/useAIPPT.ts): an image of the slot's class (or any image
      when the class is empty), chosen by `u`, removed from the pool; nothing on an empty pool. */
  function UseableImage(pool: seq<ImgPoolItem>, slotW: real, slotH: real, u: Unit): (r: Allocation)
    ensures |pool| == 0 ==> r.image.None? && r.pool == pool
    ensures |pool| > 0 ==> r.image.Some? && r.image.value in pool
    ensures |pool| > 0 ==> forall x :: x in r.pool <==> x in pool && x.id != r.image.value.id
    ensures |pool| > 0 && (exists x :: x in pool && SameClass(slotW, slotH, x)) ==>
      SameClass(slotW, slotH, r.image.value)
    ensures UniquePoolIds(pool) ==> UniquePoolIds(r.pool)
    ensures |pool| > 0 && UniquePoolIds(pool) ==> |r.pool| == |pool| - 1 && r.image.value !in r.pool
  {
    var imgs := Candidates(pool, slotW, slotH);
    if |imgs| == 0 then Allocation(None, pool)
    else
      var img := imgs[PickIndex(u, |imgs|)];
      assert img in imgs;
      if UniquePoolIds(pool) then
        WithoutIdUnique(pool, img.id);
        WithoutIdCount(pool, img.id);
        Allocation(Some(img), WithoutId(pool, img.id))
      else
        Allocation(Some(img), WithoutId(pool, img.id))
  }

  /** Every image of the pool has a positive size. */
  predicate PositiveSizes(pool: seq<ImgPoolItem>) {
    forall x :: x in pool ==> x.width > 0.0 && x.height > 0.0
  }

  /** The cover-fit crop of `getNewImgElement`: the image is scaled to the slot's height
      (when relatively wider) or width (otherwise) and the overflow is cut off equally on
      both sides, as percentages of the image. */
  function CoverCrop(slotW: real, slotH: real, imgW: real, imgH: real): (c: CropRange)
    requires slotW > 0.0 && slotH > 0.0 && imgW > 0.0 && imgH > 0.0
    ensures imgW / imgH >= slotW / slotH ==>
      c.y0 == 0.0 && c.y1 == 100.0 && c.x0 + c.x1 == 100.0 && 0.0 <= c.x0 < 50.0
    ensures imgW / imgH < slotW / slotH ==>
      c.x0 == 0.0 && c.x1 == 100.0 && c.y0 + c.y1 == 100.0 && 0.0 <= c.y0 < 50.0
  {
    var radio := slotW / slotH;
    if imgW / imgH >= radio then
      var scale := imgH / slotH;
      var w := imgW / scale;
      WideFacts(slotW, slotH, imgW, imgH);
      var diff := (w - slotW) / 2.0 / w * 100.0;
      CropMargin(w, slotW);
      CropRange(diff, 0.0, 100.0 - diff, 100.0)
    else
      var scale := imgW / slotW;
      var h := imgH / scale;
      TallFacts(slotW, slotH, imgW, imgH);
      var diff := (h - slotH) / 2.0 / h * 100.0;
      CropMargin(h, slotH);
      CropRange(0.0, diff, 100.0, 100.0 - diff)
  }

  /** A relatively wider image, scaled to the slot's height, is at least as wide as the slot. */
  lemma WideFacts(slotW: real, slotH: real, imgW: real, imgH: real)
    requires slotW > 0.0 && slotH > 0.0 && imgW > 0.0 && imgH > 0.0
    requires imgW / imgH >= slotW / slotH
    ensures imgW / (imgH / slotH) >= slotW
  {
    assert imgW / (imgH / slotH) == (imgW / imgH) * slotH;
    assert (slotW / slotH) * slotH == slotW;
  }

  /** A relatively taller image, scaled to the slot's width, is taller than the slot. */
  lemma TallFacts(slotW: real, slotH: real, imgW: real, imgH: real)
    requires slotW > 0.0 && slotH > 0.0 && imgW > 0.0 && imgH > 0.0
    requires imgW / imgH < slotW / slotH
    ensures imgH / (imgW / slotW) > slotH
  {
    assert imgH / (imgW / slotW) == slotW / (imgW / imgH);
    assert (imgW / imgH) * slotH < slotW;
  }

  /** Cutting `scaled - slot` off a scaled length, half on each side, keeps under half. */
  lemma CropMargin(scaled: real, slot: real)
    requires slot > 0.0 && scaled >= slot
    ensures var d := (scaled - slot) / 2.0 / scaled * 100.0; 0.0 <= d < 50.0
  {
    var q := slot / scaled;
    assert q * scaled == slot;
    assert scaled / scaled == 1.0;
    assert (scaled - slot) / scaled == scaled / scaled - slot / scaled;
    assert q <= 1.0;
    assert 0.0 < q;
  }

  lemma DivHalf(x: real, s: real)
    requires s > 0.0
    ensures x / 2.0 / s == (x / s) / 2.0
  {
    var y := x / s;
    assert y * s == x;
    assert (y / 2.0) * s == x / 2.0;
  }

  lemma Distrib(a: real, b: real, c: real)
    ensures (a + b) * c == a * c + b * c
  {}

  lemma CancelPos(a: real, b: real, c: real)
    requires c > 0.0 && a * c == b * c
    ensures a == b
  {}

  /** What a symmetric crop of a scaled length keeps, in percent of that length. */
  lemma KeptFraction(scaled: real, slot: real)
    requires slot > 0.0 && scaled >= slot
    ensures 100.0 - 2.0 * ((scaled - slot) / 2.0 / scaled * 100.0) == 100.0 * slot / scaled
  {
    DivHalf(scaled - slot, scaled);
    var f := (scaled - slot) / scaled;
    var q := slot / scaled;
    assert f * scaled == scaled - slot;
    assert q * scaled == slot;
    Distrib(f, q, scaled);
    CancelPos(f + q, 1.0, scaled);
    assert 100.0 * slot / scaled == 100.0 * q;
  }

  /** A length `a` scaled by `b / s`, times `b`, is `a * s`. */
  lemma ScaledLength(a: real, b: real, s: real)
    requires a > 0.0 && b > 0.0 && s > 0.0
    ensures (a / (b / s)) * b == a * s
  {
    var k := b / s;
    assert k * s == b;
    var w := a / k;
    assert w * k == a;
    assert w * b == w * (k * s);
    assert w * (k * s) == (w * k) * s;
  }

  /** Keeping `100 * slot / w` percent of a side scaled to `w` keeps the slot's proportion. */
  lemma KeptAspect(slot: real, other: real, imgA: real, imgB: real, w: real)
    requires slot > 0.0 && w > 0.0 && w * imgB == imgA * other
    ensures (100.0 * slot / w) * imgA * other == 100.0 * slot * imgB
  {
    var k := 100.0 * slot / w;
    assert k * w == 100.0 * slot;
    assert k * imgA * other == k * (imgA * other);
    assert k * (w * imgB) == (k * w) * imgB;
  }

  /** The crop covers the slot: the part of the image it keeps has the slot's aspect ratio. */
  lemma CoverCropKeepsAspect(slotW: real, slotH: real, imgW: real, imgH: real)
    requires slotW > 0.0 && slotH > 0.0 && imgW > 0.0 && imgH > 0.0
    ensures var c := CoverCrop(slotW, slotH, imgW, imgH);
      (c.x1 - c.x0) * imgW * slotH == (c.y1 - c.y0) * imgH * slotW
  {
    if imgW / imgH >= slotW / slotH {
      var w := imgW / (imgH / slotH);
      WideFacts(slotW, slotH, imgW, imgH);
      ScaledLength(imgW, imgH, slotH);
      KeptFraction(w, slotW);
      KeptAspect(slotW, slotH, imgW, imgH, w);
    } else {
      var h := imgH / (imgW / slotW);
      TallFacts(slotW, slotH, imgW, imgH);
      ScaledLength(imgH, imgW, slotW);
      KeptFraction(h, slotH);
      KeptAspect(slotH, slotW, imgH, imgW, h);
    }
  }

  /** The clip shape kept for the slot: its own when it has a non-empty one, else a rectangle. */
  function ClipShape(clip: Option<Clip>): string {
    if clip.Some? && clip.value.shape != "" then clip.value.shape else "rect"
  }

  /** The image slot showing pool image `img`, cropped to cover the slot and clipped to the
      slot's shape; its place, size, id and group stay. */
  function CoverWith(el: Element, img: ImgPoolItem): (r: Element)
    requires el.kind.ImageKind? && el.width > 0.0 && el.height > 0.0 && img.width > 0.0 && img.height > 0.0
    ensures r.id == el.id && r.groupId == el.groupId && r.kind.ImageKind? && r.kind.src == img.src
    ensures r.kind.clip.Some? && r.kind.clip.value.shape == ClipShape(el.kind.clip)
    ensures var c := r.kind.clip.value.range;
      (c.x1 - c.x0) * img.width * el.height == (c.y1 - c.y0) * img.height * el.width
  {
    CoverCropKeepsAspect(el.width, el.height, img.width, img.height);
    var clip := Clip(CoverCrop(el.width, el.height, img.width, img.height), ClipShape(el.kind.clip));
    el.(kind := el.kind.(src := img.src, clip := Some(clip)))
  }

  /** The slot is left as it was, or shows some image of `pool` cropped to cover it. */
  predicate FilledFrom(el: Element, out: Element, pool: seq<ImgPoolItem>) {
    || out == el
    || (&& el.kind.ImageKind? && el.width > 0.0 && el.height > 0.0
        && exists img :: img in pool && img.width > 0.0 && img.height > 0.0 && out == CoverWith(el, img))
  }

  /** What comes from a pool comes from any pool holding it. */
  lemma FilledFromWider(el: Element, out: Element, pool: seq<ImgPoolItem>, wider: seq<ImgPoolItem>)
    requires FilledFrom(el, out, pool) && forall x :: x in pool ==> x in wider
    ensures FilledFrom(el, out, wider)
  {
    if out != el {
      var img :| img in pool && img.width > 0.0 && img.height > 0.0 && out == CoverWith(el, img);
      assert img in wider;
    }
  }

  /** `getNewImgElement` (src/hooks/useAIPPT.ts): the image slot filled with an image taken
      from the pool and cropped to cover the slot; unchanged (and the pool too) when the
      pool is empty. */
  function NewImgElement(el: Element, pool: seq<ImgPoolItem>, u: Unit): (r: (Element, seq<ImgPoolItem>))
    requires el.kind.ImageKind? && el.width > 0.0 && el.height > 0.0 && PositiveSizes(pool)
    ensures r.0.id == el.id && r.0.groupId == el.groupId && r.0.kind.ImageKind?
    ensures r.0.left == el.left && r.0.top == el.top && r.0.width == el.width && r.0.height == el.height
    ensures r.0.kind.imageType == el.kind.imageType
    ensures |pool| == 0 ==> r.0 == el && r.1 == pool
    ensures |pool| > 0 ==> exists img :: img in pool && r.0.kind.src == img.src
    ensures |pool| > 0 ==> r.0.kind.clip.Some? && r.0.kind.clip.value.shape == ClipShape(el.kind.clip)
    ensures |pool| > 0 ==> var c := r.0.kind.clip.value.range;
      (c.x0 + c.x1 == 100.0 && c.y0 == 0.0 && c.y1 == 100.0 && 0.0 <= c.x0 < 50.0)
      || (c.y0 + c.y1 == 100.0 && c.x0 == 0.0 && c.x1 == 100.0 && 0.0 <= c.y0 < 50.0)
    ensures forall x :: x in r.1 ==> x in pool
    ensures PositiveSizes(r.1)
    ensures |pool| > 0 && UniquePoolIds(pool) ==> |r.1| == |pool| - 1 && UniquePoolIds(r.1)
    ensures var a := UseableImage(pool, el.width, el.height, u);
      |pool| > 0 ==> r.0 == CoverWith(el, a.image.value) && r.1 == a.pool
    ensures FilledFrom(el, r.0, pool)
  {
    var a := UseableImage(pool, el.width, el.height, u);
    if a.image.None? then (el, pool)
    else
      var img := a.image.value;
      var range := CoverCrop(el.width, el.height, img.width, img.height);
      var clip := Clip(range, ClipShape(el.kind.clip));
      (el.(kind := el.kind.(src := img.src, clip := Some(clip))), a.pool)
  }
}

=== FILE: itemslides.dfy ===
/** The list slides of `AIPPT` (src/hooks/useAIPPT.ts): the contents slide, whose item
    slots receive the section names, and the content slide, whose item slots receive
    titled paragraphs, numbers and figures. A slot of either is handed the data item
    whose index is the slot's place in the order of its role; a slot no item reaches is
    dropped with its group. */
module ItemSlides {
  import opened Common
  import opened Strings
  import opened Slides
  import opened TemplateSelector
  import opened TextFitter
  import opened ImageAllocator
  import opened ReadingOrder
  import opened Assembler
  import opened SlideFill

  /** Every element of an ordered slot list has a place in its id list: the first
      position holding its id. */
  lemma PlaceOf(slots: seq<Element>, el: Element)
    requires el in slots
    ensures var p := IndexOfId(Ids(slots), el.id); 0 <= p < |slots| && slots[p].id == el.id
  {
    var k :| 0 <= k < |slots| && slots[k] == el;
    assert Ids(slots)[k] == el.id;
  }

  /** A slot of the role is in the role's ordered slot list. */
  lemma SortedMember(els: seq<Element>, i: int, keep: Element -> bool, cmp: Comparator)
    requires 0 <= i < |els| && keep(els[i])
    ensures els[i] in SortBy(Filter(els, keep), cmp)
  {
    assert els[i] in Filter(els, keep);
    SortPermutes(Filter(els, keep), cmp);
    assert els[i] in multiset(SortBy(Filter(els, keep), cmp));
  }

  // ---------------------------------------------------------------------------------
  // Contents slides

  function IsBadge(el: Element): bool { HasTextType(el, ItemNumber) }

  function IsItemSlot(el: Element): bool { HasTextType(el, Item) }

  /** The number badges of a contents template, in the order numbers are handed out:
      by the numbers they show when there are more than six, else in reading order. */
  function Badges(els: seq<Element>): seq<Element> {
    var xs := Filter(els, IsBadge);
    SortBy(xs, BadgeOrder(|xs|))
  }

  /** The item slots of a contents template, in the order items are handed out: by the
      numbers of their groups' badges when there are more than six, else in reading
      order. */
  function ItemSlots(els: seq<Element>): seq<Element> {
    var xs := Filter(els, IsItemSlot);
    SortBy(xs, ItemOrder(Badges(els), |xs|))
  }

  /** The contents slide: item slot `k` of the order gets section `k` on one line, sized
      for the longest section; a slot without a (non-empty) section is unused; badge `k`
      of the order gets the number `k + offset + 1`. */
  function ContentsAction(el: Element, items: seq<string>, slotIds: seq<string>, badgeIds: seq<string>,
                          offset: int, longest: string): (r: Action)
    ensures r.Unused? ==> HasTextType(el, Item)
    ensures r.FillImage? <==> IsTypedImage(el)
    ensures !r.PutImage? && (r.PutText? ==> HasMarkup(el))
    ensures HasTextType(el, ItemNumber) ==> r.PutText? && r.digitPadding
    ensures !IsTypedImage(el) && !HasTextType(el, Item) && !HasTextType(el, ItemNumber) ==> r == Keep
  {
    if el.kind.ImageKind? then TypedImage(el)
    else if !IsTextual(el) then Keep
    else if HasTextType(el, Item) then
      var k := IndexOfId(slotIds, el.id);
      if 0 <= k < |items| && items[k] != "" then PutText(items[k], 1, longest, false) else Unused
    else if HasTextType(el, ItemNumber) then
      PutText(IntToString(IndexOfId(badgeIds, el.id) + offset + 1), 1, "", true)
    else Keep
  }

  /** The actions of a contents template's elements; `offset || 0` for the offset. */
  function ContentsPlan(els: seq<Element>, items: seq<string>, offset: Option<int>): (r: seq<Action>)
    ensures |r| == |els|
    ensures forall i :: 0 <= i < |els| && r[i].Unused? ==> HasTextType(els[i], Item)
    ensures forall i :: 0 <= i < |els| ==> (r[i].FillImage? <==> IsTypedImage(els[i]))
    ensures forall i :: 0 <= i < |els| ==>
      (!IsTypedImage(els[i]) && !HasTextType(els[i], Item) && !HasTextType(els[i], ItemNumber) ==> r[i] == Keep)
  {
    var slotIds := Ids(ItemSlots(els));
    var badgeIds := Ids(Badges(els));
    var longest := Longest(items);
    Plan(els, el => ContentsAction(el, items, slotIds, badgeIds, offset.GetOr(0), longest))
  }

  lemma ContentsApplicable(tpl: Slide, items: seq<string>, offset: Option<int>)
    requires TypedSized(tpl)
    ensures AllApplicable(tpl.elements, ContentsPlan(tpl.elements, items, offset))
  {
    var acts := ContentsPlan(tpl.elements, items, offset);
    forall i | 0 <= i < |tpl.elements| ensures Applicable(tpl.elements[i], acts[i]) {
      var el := tpl.elements[i];
      assert el in tpl.elements;
      if HasTextType(el, Item) || HasTextType(el, ItemNumber) {
        assert HasMarkup(el);
      }
    }
  }

  /** The place of a slot in its role's order: the first position of its id. */
  function PlaceIn(slots: seq<Element>, el: Element): int {
    IndexOfId(Ids(slots), el.id)
  }

  lemma BadgePlace(els: seq<Element>, i: int)
    requires 0 <= i < |els| && HasTextType(els[i], ItemNumber)
    ensures var p := PlaceIn(Badges(els), els[i]); 0 <= p < |Badges(els)| && Badges(els)[p].id == els[i].id
  {
    SortedMember(els, i, IsBadge, BadgeOrder(|Filter(els, IsBadge)|));
    PlaceOf(Badges(els), els[i]);
  }

  lemma ItemSlotPlace(els: seq<Element>, i: int)
    requires 0 <= i < |els| && HasTextType(els[i], Item)
    ensures var k := PlaceIn(ItemSlots(els), els[i]); 0 <= k < |ItemSlots(els)| && ItemSlots(els)[k].id == els[i].id
  {
    SortedMember(els, i, IsItemSlot, ItemOrder(Badges(els), |Filter(els, IsItemSlot)|));
    PlaceOf(ItemSlots(els), els[i]);
  }

  /** The action of element `i` of a contents template. */
  lemma ContentsPlanAt(els: seq<Element>, items: seq<string>, offset: Option<int>, i: int)
    requires 0 <= i < |els|
    ensures ContentsPlan(els, items, offset)[i]
         == ContentsAction(els[i], items, Ids(ItemSlots(els)), Ids(Badges(els)), offset.GetOr(0), Longest(items))
  {
  }

  lemma BadgeAction(el: Element, items: seq<string>, slotIds: seq<string>, badgeIds: seq<string>, offset: int, longest: string)
    requires HasTextType(el, ItemNumber)
    ensures ContentsAction(el, items, slotIds, badgeIds, offset, longest)
         == PutText(IntToString(IndexOfId(badgeIds, el.id) + offset + 1), 1, "", true)
  {
  }

  lemma ItemAction(el: Element, items: seq<string>, slotIds: seq<string>, badgeIds: seq<string>, offset: int, longest: string)
    requires HasTextType(el, Item)
    ensures var k := IndexOfId(slotIds, el.id);
      ContentsAction(el, items, slotIds, badgeIds, offset, longest)
        == if 0 <= k < |items| && items[k] != "" then PutText(items[k], 1, longest, false) else Unused
  {
  }

  /** Badge `i` shows the number of its place in the numbering order, counted from one
      and continued from the chunk's offset. */
  lemma ContentsNumbering(els: seq<Element>, items: seq<string>, offset: Option<int>, i: int)
    requires 0 <= i < |els| && HasTextType(els[i], ItemNumber)
    ensures var p := PlaceIn(Badges(els), els[i]);
      && 0 <= p < |Badges(els)| && Badges(els)[p].id == els[i].id
      && ContentsPlan(els, items, offset)[i] == PutText(IntToString(p + offset.GetOr(0) + 1), 1, "", true)
  {
    BadgePlace(els, i);
    ContentsPlanAt(els, items, offset, i);
    BadgeAction(els[i], items, Ids(ItemSlots(els)), Ids(Badges(els)), offset.GetOr(0), Longest(items));
  }

  /** Item slot `i` shows the section of its place in the item order, or is unused when
      there is no such section or it is empty. */
  lemma ContentsItemSlot(els: seq<Element>, items: seq<string>, offset: Option<int>, i: int)
    requires 0 <= i < |els| && HasTextType(els[i], Item)
    ensures var k := PlaceIn(ItemSlots(els), els[i]);
      && 0 <= k < |ItemSlots(els)| && ItemSlots(els)[k].id == els[i].id
      && (k < |items| && items[k] != "" ==> ContentsPlan(els, items, offset)[i] == PutText(items[k], 1, Longest(items), false))
      && (!(k < |items| && items[k] != "") ==> ContentsPlan(els, items, offset)[i] == Unused)
  {
    ItemSlotPlace(els, i);
    ContentsPlanAt(els, items, offset, i);
    ItemAction(els[i], items, Ids(ItemSlots(els)), Ids(Badges(els)), offset.GetOr(0), Longest(items));
  }

  /** Distinct badges have distinct places, hence show distinct numbers. */
  lemma BadgePlacesDistinct(els: seq<Element>, i: int, j: int)
    requires 0 <= i < j < |els| && UniqueIds(els)
    requires HasTextType(els[i], ItemNumber) && HasTextType(els[j], ItemNumber)
    ensures PlaceIn(Badges(els), els[i]) != PlaceIn(Badges(els), els[j])
  {
    BadgePlace(els, i);
    BadgePlace(els, j);
  }

  /** The template of a contents slide: a random one among those fitting the number of
      sections. */
  function ContentsTemplate(templates: seq<Slide>, n: int, u: Unit): (r: Slide)
    requires |Category(templates, ContentsType)| > 0
    ensures r in UseableTemplates(Category(templates, ContentsType), n, Item)
    ensures r in templates && r.slideType == ContentsType
  {
    Pick(UseableTemplates(Category(templates, ContentsType), n, Item), u)
  }

  /** What a contents slide shows of slot `i` of its template: a surviving badge its
      number; an item slot reached by a section that section; and of an item slot no
      section reaches, no trace, neither of it nor of any element of its group. A surviving
      typed image slot is refilled from `pool`; any other surviving slot stays as it is. */
  predicate ContentsShown(m: Measure, pool: seq<ImgPoolItem>, els: seq<Element>, items: seq<string>, offset: Option<int>,
                          out: seq<Element>, i: int)
    requires 0 <= i < |els|
  {
    var acts := ContentsPlan(els, items, offset);
    && (IsTypedImage(els[i]) && Survives(els, acts, i) ==> exists x :: x in out && FilledFrom(els[i], x, pool))
    && (!IsTypedImage(els[i]) && !HasTextType(els[i], Item) && !HasTextType(els[i], ItemNumber) && Survives(els, acts, i) ==>
          els[i] in out)
    && (HasTextType(els[i], ItemNumber) && Survives(els, acts, i) ==>
          var p := PlaceIn(Badges(els), els[i]);
          NewTextElement(m, els[i], IntToString(p + offset.GetOr(0) + 1), 1, "", true) in out)
    && (HasTextType(els[i], Item) ==>
          var k := PlaceIn(ItemSlots(els), els[i]);
          && (0 <= k < |items| && items[k] != "" && Survives(els, acts, i) ==>
                NewTextElement(m, els[i], items[k], 1, Longest(items), false) in out)
          && (!(0 <= k < |items| && items[k] != "") ==> Gone(els[i], out)))
  }

  /** Carried out as the assembler does, the contents actions show what `ContentsShown`
      says. */
  lemma ContentsShows(m: Measure, pool: seq<ImgPoolItem>, els: seq<Element>, items: seq<string>, offset: Option<int>,
                      out: seq<Element>, i: int)
    requires 0 <= i < |els| && Shows(m, pool, els, ContentsPlan(els, items, offset), i, out)
    ensures ContentsShown(m, pool, els, items, offset, out, i)
  {
    if HasTextType(els[i], ItemNumber) {
      ContentsNumbering(els, items, offset, i);
    }
    if HasTextType(els[i], Item) {
      ContentsItemSlot(els, items, offset, i);
    }
  }

  /** A contents slide made from `tpl`: its elements are the surviving slots of the
      template with the contents actions carried out, in template order, and every slot
      of the template shows what `ContentsShown` says. */
  predicate ContentsMade(m: Measure, pool: seq<ImgPoolItem>, tpl: Slide, items: seq<string>, offset: Option<int>,
                         slide: Slide) {
    && slide.slideType == tpl.slideType
    && Assembled(m, pool, tpl.elements, ContentsPlan(tpl.elements, items, offset), slide.elements)
    && forall i :: 0 <= i < |tpl.elements| ==> ContentsShown(m, pool, tpl.elements, items, offset, slide.elements, i)
  }

  /** A contents slide whose refills came from a pool could have come from any pool
      holding it. */
  lemma ContentsMadeWider(m: Measure, tpl: Slide, items: seq<string>, offset: Option<int>, slide: Slide,
                          pool: seq<ImgPoolItem>, wider: seq<ImgPoolItem>)
    requires ContentsMade(m, pool, tpl, items, offset, slide) && forall x :: x in pool ==> x in wider
    ensures ContentsMade(m, wider, tpl, items, offset, slide)
  {
    var els := tpl.elements;
    var acts := ContentsPlan(els, items, offset);
    AssembledWider(m, els, acts, slide.elements, pool, wider);
    forall i | 0 <= i < |els| ensures ContentsShown(m, wider, els, items, offset, slide.elements, i) {
      assert ContentsShown(m, pool, els, items, offset, slide.elements, i);
      if IsTypedImage(els[i]) && Survives(els, acts, i) {
        var x :| x in slide.elements && FilledFrom(els[i], x, pool);
        FilledFromWider(els[i], x, pool, wider);
      }
    }
  }

  /** A contents slide: a template fitting the number of sections (one random value),
      filled, minus its unused slots and their groups, in template order; every slot of
      the template shows what `ContentsShown` says. */
  method ContentsSlide(env: Env, templates: seq<Slide>, items: seq<string>, offset: Option<int>, d: Draw)
    returns (slide: Slide, next: Draw)
    requires |Category(templates, ContentsType)| > 0 && PositiveSizes(d.pool)
    requires ImagesSized(ContentsTemplate(templates, |items|, env.rand(d.draws)), ContentsType)
    ensures slide.slideType == ContentsType
    ensures Consumes(Draw(d.pool, d.draws + 1), next)
    ensures ContentsMade(env.measure, d.pool, ContentsTemplate(templates, |items|, env.rand(d.draws)), items, offset, slide)
  {
    var tpl := ContentsTemplate(templates, |items|, env.rand(d.draws));
    var acts := ContentsPlan(tpl.elements, items, offset);
    ContentsApplicable(tpl, items, offset);
    var made := FillSlide(env, tpl, acts, Draw(d.pool, d.draws + 1));
    slide, next := made.0, made.1;
    forall i | 0 <= i < |tpl.elements|
      ensures ContentsShown(env.measure, d.pool, tpl.elements, items, offset, slide.elements, i)
    {
      ContentsShows(env.measure, d.pool, tpl.elements, items, offset, slide.elements, i);
    }
  }

  /** A number written with padding reads back as that number: the badge at place `p`
      of a chunk starting at `offset` shows `p + offset + 1`. */
  lemma NumberReadsBack(m: Measure, el: Element, n: int)
    requires HasMarkup(el) && |MarkupOf(el).runs| > 0 && n >= 0
    ensures ParseInt(MarkupOf(NewTextElement(m, el, IntToString(n), 1, "", true)).runs[0]) == Some(n)
  {
    PaddedNumber(MarkupOf(el).runs[0], n);
  }

  // ---------------------------------------------------------------------------------
  // Content slides

  function IsTitleSlot(el: Element): bool { HasTextType(el, ItemTitle) }

  function IsFigureSlot(el: Element): bool { IsImageOfType(el, ItemFigure) }

  /** The slots of one role of a content template, in reading order. */
  function ContentOrder(els: seq<Element>, role: Element -> bool): seq<Element> {
    SortBy(Filter(els, role), Geometric())
  }

  /** The slots of every role are handed items in reading order. */
  lemma ContentOrderReads(els: seq<Element>, role: Element -> bool)
    ensures SortedBy(ContentOrder(els, role), ReadingKey)
  {
    SortSorted(Filter(els, role), ReadingKey);
  }

  lemma ContentPlace(els: seq<Element>, role: Element -> bool, i: int)
    requires 0 <= i < |els| && role(els[i])
    ensures var k := PlaceIn(ContentOrder(els, role), els[i]);
      0 <= k < |ContentOrder(els, role)| && ContentOrder(els, role)[k].id == els[i].id
  {
    SortedMember(els, i, role, Geometric());
    PlaceOf(ContentOrder(els, role), els[i]);
  }

  /** The template has an item-figure image slot. */
  predicate HasItemFigure(s: Slide) {
    exists el :: el in s.elements && IsImageOfType(el, ItemFigure)
  }

  predicate HasImages(items: seq<ContentItem>) {
    exists it :: it in items && it.image != ""
  }

  /** The candidate templates of a content slide: those fitting the number of items,
      narrowed to the ones with item figures when some item has an image and some
      candidate has an item figure. */
  function ContentCandidates(templates: seq<Slide>, items: seq<ContentItem>): (r: seq<Slide>)
    ensures var fit := UseableTemplates(Category(templates, ContentType), |items|, Item);
      && (|r| > 0 <==> |Category(templates, ContentType)| > 0)
      && (forall s :: s in r ==> s in fit)
      && (HasImages(items) && (exists s :: s in fit && HasItemFigure(s)) ==>
            forall s :: s in r <==> s in fit && HasItemFigure(s))
      && (!(HasImages(items) && exists s :: s in fit && HasItemFigure(s)) ==> r == fit)
  {
    var fit := UseableTemplates(Category(templates, ContentType), |items|, Item);
    if HasImages(items) then
      var withFigures := Filter(fit, HasItemFigure);
      if |withFigures| > 0 then
        assert withFigures[0] in withFigures;
        withFigures
      else
        assert forall s :: s in fit ==> !HasItemFigure(s);
        fit
    else fit
  }

  /** The item titles, in item order. */
  function Titles(items: seq<ContentItem>): seq<string> {
    if |items| == 0 then [] else [items[0].title] + Titles(items[1..])
  }

  /** The item texts, in item order. */
  function Texts(items: seq<ContentItem>): seq<string> {
    if |items| == 0 then [] else [items[0].text] + Texts(items[1..])
  }

  /** The non-empty strings of `xs`, in order. */
  function NonEmpty(xs: seq<string>): seq<string> {
    if |xs| == 0 then [] else (if xs[0] != "" then [xs[0]] else []) + NonEmpty(xs[1..])
  }

  /** The slot orders of a content template, as id lists, and the longest item title and
      text (the sizing references of the title and text slots). */
  datatype ContentSlots = ContentSlots(
    titleIds: seq<string>, textIds: seq<string>, numberIds: seq<string>, figureIds: seq<string>,
    longestTitle: string, longestText: string)

  function ContentSlotsOf(els: seq<Element>, items: seq<ContentItem>): ContentSlots {
    ContentSlots(
      Ids(ContentOrder(els, IsTitleSlot)), Ids(ContentOrder(els, IsItemSlot)),
      Ids(ContentOrder(els, IsBadge)), Ids(ContentOrder(els, IsFigureSlot)),
      Longest(NonEmpty(Titles(items))), Longest(NonEmpty(Texts(items))))
  }

  /** Badge `k` of `count` items, numbered on from `offset`: its number as one line of
      text, or unused past the last item. */
  function BadgeNumber(k: int, count: int, offset: int): Action {
    if 0 <= k < count then PutText(IntToString(k + offset + 1), 1, "", true) else Unused
  }

  /** The content slide. Page figures are refilled from the pool. Item figure `k` of the
      reading order shows item `k`'s image uncropped, is unused when item `k` has a table
      instead, and is refilled from the pool otherwise. With a single item its text goes
      into the content slot (up to six lines); with any other number, title slot `k`,
      text slot `k` and badge `k` of the reading order receive item `k`'s title (one
      line), text (up to four lines) and number `k + offset + 1`, and are unused when
      item `k` is missing or the title or text is empty. The slide title goes into the
      title slot. */
  function ContentAction(el: Element, title: string, items: seq<ContentItem>, offset: int, c: ContentSlots): (r: Action)
    ensures r.Unused? ==>
      || IsImageOfType(el, ItemFigure)
      || (|items| != 1 && (HasTextType(el, ItemTitle) || HasTextType(el, Item) || HasTextType(el, ItemNumber)))
    ensures r.FillImage? ==> IsImageOfType(el, PageFigure) || IsImageOfType(el, ItemFigure)
    ensures IsImageOfType(el, PageFigure) ==> r == FillImage
    ensures r.PutImage? ==> IsImageOfType(el, ItemFigure) && exists k :: 0 <= k < |items| && items[k].image == r.src != ""
    ensures r.PutText? ==> HasMarkup(el)
    ensures !IsImageOfType(el, PageFigure) && !IsImageOfType(el, ItemFigure) && !IsTextual(el) ==> r == Keep
  {
    if IsImageOfType(el, PageFigure) then FillImage
    else if IsImageOfType(el, ItemFigure) then
      var k := IndexOfId(c.figureIds, el.id);
      if 0 <= k < |items| && items[k].image != "" then PutImage(items[k].image)
      else if 0 <= k < |items| && items[k].table != "" then Unused
      else FillImage
    else if !IsTextual(el) then Keep
    else if |items| == 1 && HasTextType(el, Content) && items[0].text != "" then PutText(items[0].text, 6, "", false)
    else if |items| != 1 && HasTextType(el, ItemTitle) then
      var k := IndexOfId(c.titleIds, el.id);
      if 0 <= k < |items| && items[k].title != "" then PutText(items[k].title, 1, c.longestTitle, false) else Unused
    else if |items| != 1 && HasTextType(el, Item) then
      var k := IndexOfId(c.textIds, el.id);
      if 0 <= k < |items| && items[k].text != "" then PutText(items[k].text, 4, c.longestText, false) else Unused
    else if |items| != 1 && HasTextType(el, ItemNumber) then
      var k := IndexOfId(c.numberIds, el.id);
      BadgeNumber(k, |items|, offset)
    else if HasTextType(el, Title) && title != "" then PutText(title, 1, "", false)
    else Keep
  }

  function ContentPlan(els: seq<Element>, title: string, items: seq<ContentItem>, offset: Option<int>): (r: seq<Action>)
    ensures |r| == |els|
    ensures forall i :: 0 <= i < |els| && r[i].Unused? ==>
      || IsImageOfType(els[i], ItemFigure)
      || (|items| != 1 && (HasTextType(els[i], ItemTitle) || HasTextType(els[i], Item) || HasTextType(els[i], ItemNumber)))
    ensures forall i :: 0 <= i < |els| && r[i].FillImage? ==>
      IsImageOfType(els[i], PageFigure) || IsImageOfType(els[i], ItemFigure)
    ensures forall i :: 0 <= i < |els| && IsImageOfType(els[i], PageFigure) ==> r[i] == FillImage
    ensures forall i :: 0 <= i < |els| ==>
      (!IsImageOfType(els[i], PageFigure) && !IsImageOfType(els[i], ItemFigure) && !IsTextual(els[i]) ==> r[i] == Keep)
  {
    var c := ContentSlotsOf(els, items);
    Plan(els, el => ContentAction(el, title, items, offset.GetOr(0), c))
  }

  lemma ContentActionAt(els: seq<Element>, title: string, items: seq<ContentItem>, offset: Option<int>, i: int)
    requires 0 <= i < |els|
    ensures |ContentPlan(els, title, items, offset)| == |els|
    ensures ContentPlan(els, title, items, offset)[i]
         == ContentAction(els[i], title, items, offset.GetOr(0), ContentSlotsOf(els, items))
  {
  }

  lemma ContentActionApplicable(el: Element, title: string, items: seq<ContentItem>, offset: int, c: ContentSlots)
    requires IsFigure(el) ==> el.width > 0.0 && el.height > 0.0
    ensures Applicable(el, ContentAction(el, title, items, offset, c))
  {
    if TextTypeOf(el).Some? {
      assert HasMarkup(el);
    }
  }

  lemma ContentApplicable(tpl: Slide, title: string, items: seq<ContentItem>, offset: Option<int>)
    requires FiguresSized(tpl)
    ensures AllApplicable(tpl.elements, ContentPlan(tpl.elements, title, items, offset))
  {
    var acts := ContentPlan(tpl.elements, title, items, offset);
    forall i | 0 <= i < |tpl.elements| ensures Applicable(tpl.elements[i], acts[i]) {
      assert tpl.elements[i] in tpl.elements;
      ContentActionAt(tpl.elements, title, items, offset, i);
      ContentActionApplicable(tpl.elements[i], title, items, offset.GetOr(0), ContentSlotsOf(tpl.elements, items));
    }
  }

  lemma NumberAction(el: Element, title: string, items: seq<ContentItem>, offset: int, c: ContentSlots, k: int)
    requires HasTextType(el, ItemNumber) && |items| != 1 && k == IndexOfId(c.numberIds, el.id)
    ensures ContentAction(el, title, items, offset, c) == BadgeNumber(k, |items|, offset)
  {
  }

  lemma TitleAction(el: Element, title: string, items: seq<ContentItem>, offset: int, c: ContentSlots)
    requires HasTextType(el, ItemTitle) && |items| != 1
    ensures var k := IndexOfId(c.titleIds, el.id);
      ContentAction(el, title, items, offset, c)
        == if 0 <= k < |items| && items[k].title != "" then PutText(items[k].title, 1, c.longestTitle, false) else Unused
  {
  }

  lemma TextAction(el: Element, title: string, items: seq<ContentItem>, offset: int, c: ContentSlots)
    requires HasTextType(el, Item) && |items| != 1
    ensures var k := IndexOfId(c.textIds, el.id);
      ContentAction(el, title, items, offset, c)
        == if 0 <= k < |items| && items[k].text != "" then PutText(items[k].text, 4, c.longestText, false) else Unused
  {
  }

  lemma FigureAction(el: Element, title: string, items: seq<ContentItem>, offset: int, c: ContentSlots)
    requires IsImageOfType(el, ItemFigure)
    ensures var k := IndexOfId(c.figureIds, el.id);
      ContentAction(el, title, items, offset, c)
        == if 0 <= k < |items| && items[k].image != "" then PutImage(items[k].image)
           else if 0 <= k < |items| && items[k].table != "" then Unused
           else FillImage
  {
  }

  /** Badge `i` of a content slide with other than one item shows the number of its place
      in reading order, continued from the offset, or is unused past the last item. */
  lemma ContentNumbering(els: seq<Element>, title: string, items: seq<ContentItem>, offset: Option<int>, i: int)
    requires 0 <= i < |els| && HasTextType(els[i], ItemNumber) && |items| != 1
    ensures var p := PlaceIn(ContentOrder(els, IsBadge), els[i]);
      && 0 <= p < |ContentOrder(els, IsBadge)| && ContentOrder(els, IsBadge)[p].id == els[i].id
      && ContentPlan(els, title, items, offset)[i]
           == if 0 <= p < |items| then PutText(IntToString(p + offset.GetOr(0) + 1), 1, "", true) else Unused
  {
    ContentPlace(els, IsBadge, i);
    ContentBadgeAction(els, title, items, offset, i);
  }

  /** The plan's action for badge `i`, by its place in the badge order. */
  lemma ContentBadgeAction(els: seq<Element>, title: string, items: seq<ContentItem>, offset: Option<int>, i: int)
    requires 0 <= i < |els| && HasTextType(els[i], ItemNumber) && |items| != 1
    ensures var p := PlaceIn(ContentOrder(els, IsBadge), els[i]);
      ContentPlan(els, title, items, offset)[i]
        == BadgeNumber(p, |items|, offset.GetOr(0))
  {
    var c := ContentSlotsOf(els, items);
    var p := PlaceIn(ContentOrder(els, IsBadge), els[i]);
    BadgeIds(els, items);
    NumberAction(els[i], title, items, offset.GetOr(0), c, p);
    ContentActionAt(els, title, items, offset, i);
  }

  /** The badge ids of the slot orders are the badges in reading order. */
  lemma BadgeIds(els: seq<Element>, items: seq<ContentItem>)
    ensures ContentSlotsOf(els, items).numberIds == Ids(ContentOrder(els, IsBadge))
  {
  }

  /** Title slot `i` shows the title of the item of its place in reading order, or is
      unused when that item is missing or untitled. */
  lemma ContentTitleSlot(els: seq<Element>, title: string, items: seq<ContentItem>, offset: Option<int>, i: int)
    requires 0 <= i < |els| && HasTextType(els[i], ItemTitle) && |items| != 1
    ensures var k := PlaceIn(ContentOrder(els, IsTitleSlot), els[i]);
      && 0 <= k < |ContentOrder(els, IsTitleSlot)| && ContentOrder(els, IsTitleSlot)[k].id == els[i].id
      && (k < |items| && items[k].title != "" ==>
            ContentPlan(els, title, items, offset)[i] == PutText(items[k].title, 1, Longest(NonEmpty(Titles(items))), false))
      && (!(k < |items| && items[k].title != "") ==> ContentPlan(els, title, items, offset)[i] == Unused)
  {
    ContentPlace(els, IsTitleSlot, i);
    ContentActionAt(els, title, items, offset, i);
    TitleAction(els[i], title, items, offset.GetOr(0), ContentSlotsOf(els, items));
  }

  /** Text slot `i` likewise shows the text of the item of its place. */
  lemma ContentTextSlot(els: seq<Element>, title: string, items: seq<ContentItem>, offset: Option<int>, i: int)
    requires 0 <= i < |els| && HasTextType(els[i], Item) && |items| != 1
    ensures var k := PlaceIn(ContentOrder(els, IsItemSlot), els[i]);
      && 0 <= k < |ContentOrder(els, IsItemSlot)| && ContentOrder(els, IsItemSlot)[k].id == els[i].id
      && (k < |items| && items[k].text != "" ==>
            ContentPlan(els, title, items, offset)[i] == PutText(items[k].text, 4, Longest(NonEmpty(Texts(items))), false))
      && (!(k < |items| && items[k].text != "") ==> ContentPlan(els, title, items, offset)[i] == Unused)
  {
    ContentPlace(els, IsItemSlot, i);
    ContentActionAt(els, title, items, offset, i);
    TextAction(els[i], title, items, offset.GetOr(0), ContentSlotsOf(els, items));
  }

  /** Item figure `i` shows the image of the item of its place in reading order; it is
      unused when that item has a table and no image, and refilled from the pool
      otherwise. */
  lemma ContentFigure(els: seq<Element>, title: string, items: seq<ContentItem>, offset: Option<int>, i: int)
    requires 0 <= i < |els| && IsImageOfType(els[i], ItemFigure)
    ensures var k := PlaceIn(ContentOrder(els, IsFigureSlot), els[i]);
      var a := ContentPlan(els, title, items, offset)[i];
      && 0 <= k < |ContentOrder(els, IsFigureSlot)| && ContentOrder(els, IsFigureSlot)[k].id == els[i].id
      && (k < |items| && items[k].image != "" ==> a == PutImage(items[k].image))
      && (k < |items| && items[k].image == "" && items[k].table != "" ==> a == Unused)
      && (!(k < |items| && (items[k].image != "" || items[k].table != "")) ==> a == FillImage)
  {
    ContentPlace(els, IsFigureSlot, i);
    ContentActionAt(els, title, items, offset, i);
    FigureAction(els[i], title, items, offset.GetOr(0), ContentSlotsOf(els, items));
  }

  /** The remaining text slots, for one element. */
  lemma ContentActionText(el: Element, title: string, items: seq<ContentItem>, offset: int, c: ContentSlots)
    ensures var a := ContentAction(el, title, items, offset, c);
      && (|items| == 1 && HasTextType(el, Content) && items[0].text != "" ==> a == PutText(items[0].text, 6, "", false))
      && (HasTextType(el, Title) && title != "" ==> a == PutText(title, 1, "", false))
      && (HasTextType(el, Title) && title == "" ==> a == Keep)
      && (|items| == 1 && (HasTextType(el, ItemTitle) || HasTextType(el, Item) || HasTextType(el, ItemNumber)) ==> a == Keep)
      && (ContentKept(el, title, items) ==> a == Keep)
  {
    if TextTypeOf(el).Some? {
      assert IsTextual(el) && !el.kind.ImageKind?;
    }
  }

  /** The remaining text slots: the single item's text into the content slot, the slide
      title into the title slot; with a single item the item slots keep their
      placeholders. */
  lemma ContentTextSlots(els: seq<Element>, title: string, items: seq<ContentItem>, offset: Option<int>, i: int)
    requires 0 <= i < |els|
    ensures var a := ContentPlan(els, title, items, offset)[i];
      && (|items| == 1 && HasTextType(els[i], Content) && items[0].text != "" ==> a == PutText(items[0].text, 6, "", false))
      && (HasTextType(els[i], Title) && title != "" ==> a == PutText(title, 1, "", false))
      && (HasTextType(els[i], Title) && title == "" ==> a == Keep)
      && (|items| == 1 && (HasTextType(els[i], ItemTitle) || HasTextType(els[i], Item) || HasTextType(els[i], ItemNumber)) ==> a == Keep)
      && (ContentKept(els[i], title, items) ==> a == Keep)
  {
    ContentActionAt(els, title, items, offset, i);
    ContentActionText(els[i], title, items, offset.GetOr(0), ContentSlotsOf(els, items));
  }

  /** The template of a content slide: a random candidate. */
  function ContentTemplate(templates: seq<Slide>, items: seq<ContentItem>, u: Unit): (r: Slide)
    requires |Category(templates, ContentType)| > 0
    ensures r in ContentCandidates(templates, items)
    ensures r in templates && r.slideType == ContentType
  {
    Pick(ContentCandidates(templates, items), u)
  }

  /** What a content slide shows of slot `i` of its template. With other than one item:
      a surviving badge the number of its place in reading order, title and text slots
      the title and text of the item of their place; a badge past the last item, and a
      title or text slot whose item is missing or has that part empty, leaves no trace,
      neither of it nor of its group. An item figure whose item has an image shows it
      uncropped; one whose item has a table but no image leaves no trace; any other
      surviving item figure is refilled from `pool`. */
  predicate ContentShown(m: Measure, pool: seq<ImgPoolItem>, els: seq<Element>, acts: seq<Action>, title: string,
                         items: seq<ContentItem>, offset: Option<int>, out: seq<Element>, i: int)
    requires |acts| == |els| && 0 <= i < |els|
  {
    && (|items| != 1 && HasTextType(els[i], ItemNumber) ==> NumberShown(m, els, acts, items, offset, out, i))
    && (|items| != 1 && HasTextType(els[i], ItemTitle) ==> TitleShown(m, els, acts, items, out, i))
    && (|items| != 1 && HasTextType(els[i], Item) ==> TextShown(m, els, acts, items, out, i))
    && (IsImageOfType(els[i], ItemFigure) ==> FigureShown(pool, els, acts, items, out, i))
    && PageShown(m, pool, els, acts, title, items, out, i)
    && (ContentKept(els[i], title, items) && Survives(els, acts, i) ==> els[i] in out)
  }

  /** A slot no data reaches, which a content slide keeps as it is: any element other than
      a typed image or a text, and any text or shape slot other than a title slot given a
      title, the content slot given the single item's text, and (with other than one item)
      the item title, text and number slots. */
  predicate ContentKept(el: Element, title: string, items: seq<ContentItem>) {
    && !IsImageOfType(el, PageFigure) && !IsImageOfType(el, ItemFigure)
    && !(HasTextType(el, Title) && title != "")
    && !(|items| == 1 && HasTextType(el, Content) && items[0].text != "")
    && !(|items| != 1 && (HasTextType(el, ItemTitle) || HasTextType(el, Item) || HasTextType(el, ItemNumber)))
  }

  /** The slots of the page itself: a surviving title slot shows the slide title on one
      line; with a single item, a surviving content slot shows its text on up to six
      lines; a surviving page figure is refilled from `pool`. */
  predicate PageShown(m: Measure, pool: seq<ImgPoolItem>, els: seq<Element>, acts: seq<Action>, title: string,
                      items: seq<ContentItem>, out: seq<Element>, i: int)
    requires |acts| == |els| && 0 <= i < |els|
  {
    && (HasTextType(els[i], Title) && title != "" && Survives(els, acts, i) ==>
          NewTextElement(m, els[i], title, 1, "", false) in out)
    && (|items| == 1 && HasTextType(els[i], Content) && items[0].text != "" && Survives(els, acts, i) ==>
          NewTextElement(m, els[i], items[0].text, 6, "", false) in out)
    && (IsImageOfType(els[i], PageFigure) && Survives(els, acts, i) ==>
          exists x :: x in out && FilledFrom(els[i], x, pool))
  }

  predicate NumberShown(m: Measure, els: seq<Element>, acts: seq<Action>, items: seq<ContentItem>, offset: Option<int>,
                        out: seq<Element>, i: int)
    requires |acts| == |els| && 0 <= i < |els| && HasTextType(els[i], ItemNumber)
  {
    var p := PlaceIn(ContentOrder(els, IsBadge), els[i]);
    && (p < |items| && Survives(els, acts, i) ==>
          NewTextElement(m, els[i], IntToString(p + offset.GetOr(0) + 1), 1, "", true) in out)
    && (p >= |items| ==> Gone(els[i], out))
  }

  predicate TitleShown(m: Measure, els: seq<Element>, acts: seq<Action>, items: seq<ContentItem>, out: seq<Element>, i: int)
    requires |acts| == |els| && 0 <= i < |els| && HasTextType(els[i], ItemTitle)
  {
    var k := PlaceIn(ContentOrder(els, IsTitleSlot), els[i]);
    && (0 <= k < |items| && items[k].title != "" && Survives(els, acts, i) ==>
          NewTextElement(m, els[i], items[k].title, 1, Longest(NonEmpty(Titles(items))), false) in out)
    && (!(0 <= k < |items| && items[k].title != "") ==> Gone(els[i], out))
  }

  predicate TextShown(m: Measure, els: seq<Element>, acts: seq<Action>, items: seq<ContentItem>, out: seq<Element>, i: int)
    requires |acts| == |els| && 0 <= i < |els| && HasTextType(els[i], Item)
  {
    var k := PlaceIn(ContentOrder(els, IsItemSlot), els[i]);
    && (0 <= k < |items| && items[k].text != "" && Survives(els, acts, i) ==>
          NewTextElement(m, els[i], items[k].text, 4, Longest(NonEmpty(Texts(items))), false) in out)
    && (!(0 <= k < |items| && items[k].text != "") ==> Gone(els[i], out))
  }

  predicate FigureShown(pool: seq<ImgPoolItem>, els: seq<Element>, acts: seq<Action>, items: seq<ContentItem>,
                        out: seq<Element>, i: int)
    requires |acts| == |els| && 0 <= i < |els| && els[i].kind.ImageKind?
  {
    var k := PlaceIn(ContentOrder(els, IsFigureSlot), els[i]);
    && (0 <= k < |items| && items[k].image != "" && Survives(els, acts, i) ==>
          els[i].(kind := els[i].kind.(src := items[k].image, clip := None)) in out)
    && (0 <= k < |items| && items[k].image == "" && items[k].table != "" ==> Gone(els[i], out))
    && (!(0 <= k < |items| && (items[k].image != "" || items[k].table != "")) && Survives(els, acts, i) ==>
          exists x :: x in out && FilledFrom(els[i], x, pool))
  }

  /** Carried out as the assembler does, the content actions show what `ContentShown`
      says. */
  lemma ContentShows(m: Measure, pool: seq<ImgPoolItem>, els: seq<Element>, title: string, items: seq<ContentItem>,
                     offset: Option<int>, out: seq<Element>, i: int)
    requires 0 <= i < |els| && |ContentPlan(els, title, items, offset)| == |els|
    requires Shows(m, pool, els, ContentPlan(els, title, items, offset), i, out)
    ensures ContentShown(m, pool, els, ContentPlan(els, title, items, offset), title, items, offset, out, i)
  {
    ContentTextSlots(els, title, items, offset, i);
    if |items| != 1 && HasTextType(els[i], ItemNumber) {
      ContentNumbering(els, title, items, offset, i);
    }
    if |items| != 1 && HasTextType(els[i], ItemTitle) {
      ContentTitleSlot(els, title, items, offset, i);
    }
    if |items| != 1 && HasTextType(els[i], Item) {
      ContentTextSlot(els, title, items, offset, i);
    }
    if IsImageOfType(els[i], ItemFigure) {
      ContentFigure(els, title, items, offset, i);
    }
  }

  /** A content slide made from `tpl`: its elements are the surviving slots of the
      template with the content actions carried out, in template order, and every slot of
      the template shows what `ContentShown` says. */
  predicate ContentMade(m: Measure, pool: seq<ImgPoolItem>, tpl: Slide, title: string, items: seq<ContentItem>,
                        offset: Option<int>, slide: Slide) {
    && slide.slideType == tpl.slideType
    && Assembled(m, pool, tpl.elements, ContentPlan(tpl.elements, title, items, offset), slide.elements)
    && forall i :: 0 <= i < |tpl.elements| ==> ContentSlotShown(m, pool, tpl.elements, title, items, offset, slide.elements, i)
  }

  /** Slot `i` of a content template shows what `ContentShown` says under the content plan. */
  predicate ContentSlotShown(m: Measure, pool: seq<ImgPoolItem>, els: seq<Element>, title: string, items: seq<ContentItem>,
                             offset: Option<int>, out: seq<Element>, i: int)
    requires 0 <= i < |els|
  {
    ContentShown(m, pool, els, ContentPlan(els, title, items, offset), title, items, offset, out, i)
  }

  /** A content slide whose refills came from a pool could have come from any pool
      holding it. */
  lemma ContentMadeWider(m: Measure, tpl: Slide, title: string, items: seq<ContentItem>, offset: Option<int>,
                         slide: Slide, pool: seq<ImgPoolItem>, wider: seq<ImgPoolItem>)
    requires ContentMade(m, pool, tpl, title, items, offset, slide) && forall x :: x in pool ==> x in wider
    ensures ContentMade(m, wider, tpl, title, items, offset, slide)
  {
    var els := tpl.elements;
    AssembledWider(m, els, ContentPlan(els, title, items, offset), slide.elements, pool, wider);
    forall i | 0 <= i < |els| ensures ContentSlotShown(m, wider, els, title, items, offset, slide.elements, i) {
      ContentSlotWider(m, els, title, items, offset, slide.elements, pool, wider, i);
    }
  }

  /** What slot `i` shows with refills from a pool it shows with refills from any pool
      holding it. */
  lemma ContentSlotWider(m: Measure, els: seq<Element>, title: string, items: seq<ContentItem>, offset: Option<int>,
                         out: seq<Element>, pool: seq<ImgPoolItem>, wider: seq<ImgPoolItem>, i: int)
    requires 0 <= i < |els| && ContentSlotShown(m, pool, els, title, items, offset, out, i)
    requires forall x :: x in pool ==> x in wider
    ensures ContentSlotShown(m, wider, els, title, items, offset, out, i)
  {
    var acts := ContentPlan(els, title, items, offset);
    if IsImageOfType(els[i], PageFigure) && Survives(els, acts, i) {
      var x :| x in out && FilledFrom(els[i], x, pool);
      FilledFromWider(els[i], x, pool, wider);
    }
    if IsImageOfType(els[i], ItemFigure) {
      var k := PlaceIn(ContentOrder(els, IsFigureSlot), els[i]);
      if !(0 <= k < |items| && (items[k].image != "" || items[k].table != "")) && Survives(els, acts, i) {
        var x :| x in out && FilledFrom(els[i], x, pool);
        FilledFromWider(els[i], x, pool, wider);
      }
    }
  }

  /** A content slide: a candidate template (one random value), filled, minus its unused
      slots and their groups, in template order; every slot of the template shows what
      `ContentShown` says. */
  method ContentSlide(env: Env, templates: seq<Slide>, title: string, items: seq<ContentItem>, offset: Option<int>, d: Draw)
    returns (slide: Slide, next: Draw)
    requires |Category(templates, ContentType)| > 0 && PositiveSizes(d.pool)
    requires ImagesSized(ContentTemplate(templates, items, env.rand(d.draws)), ContentType)
    ensures slide.slideType == ContentType
    ensures Consumes(Draw(d.pool, d.draws + 1), next)
    ensures ContentMade(env.measure, d.pool, ContentTemplate(templates, items, env.rand(d.draws)), title, items, offset, slide)
  {
    var tpl := ContentTemplate(templates, items, env.rand(d.draws));
    var acts := ContentPlan(tpl.elements, title, items, offset);
    ContentApplicable(tpl, title, items, offset);
    var made := FillSlide(env, tpl, acts, Draw(d.pool, d.draws + 1));
    slide, next := made.0, made.1;
    forall i | 0 <= i < |tpl.elements|
      ensures ContentSlotShown(env.measure, d.pool, tpl.elements, title, items, offset, slide.elements, i)
    {
      ContentShows(env.measure, d.pool, tpl.elements, title, items, offset, slide.elements, i);
    }
  }
}

=== FILE: paginator.dfy ===
/** The content paginator: AI slides with more items than a template holds are split
    into consecutive chunks, every chunk after the first carrying as `offset` the index
    of its first item so that numbering continues across the chunks. */
module Paginator {
  import opened Common
  import opened Slides

  /** The number of items of a contents or content slide; 0 for the other kinds. */
  function Count(s: AISlide): nat {
    match s
    case AIContents(items, _) => |items|
    case AIContent(_, items, _) => |items|
    case _ => 0
  }

  /** The chunk sizes the split is meant to produce, as a table over the item count. */
  function PlannedSizes(s: AISlide): seq<nat> {
    var n := Count(s);
    match s
    case AIContent(_, _, _) =>
      if n == 5 || n == 6 then [3, n - 3]
      else if n == 7 || n == 8 then [4, n - 4]
      else if n == 9 || n == 10 then [3, 3, n - 6]
      else if n > 10 then [4, 4, n - 8]
      else [n]
    case AIContents(_, _) =>
      if n == 11 then [6, 5]
      else if n > 11 then [10, n - 10]
      else [n]
    case _ => [n]
  }

  /** The index, in the original slide, of the first item of chunk `i`. */
  function Start(chunks: seq<AISlide>, i: nat): nat
    requires i <= |chunks|
  {
    if i == 0 then 0 else Start(chunks, i - 1) + Count(chunks[i - 1])
  }

  /** Concatenation of the items of a sequence of contents chunks. */
  function JoinContents(chunks: seq<AISlide>): seq<string>
    requires forall c :: c in chunks ==> c.AIContents?
  {
    if |chunks| == 0 then [] else JoinContents(chunks[..|chunks| - 1]) + chunks[|chunks| - 1].items
  }

  /** Concatenation of the items of a sequence of content chunks. */
  function JoinContent(chunks: seq<AISlide>): seq<ContentItem>
    requires forall c :: c in chunks ==> c.AIContent?
  {
    if |chunks| == 0 then [] else JoinContent(chunks[..|chunks| - 1]) + chunks[|chunks| - 1].contentItems
  }

  lemma JoinContent2(r: seq<AISlide>)
    requires |r| == 2 && r[0].AIContent? && r[1].AIContent?
    ensures JoinContent(r) == r[0].contentItems + r[1].contentItems
  {
    assert r[..1][..0] == [];
    assert r[..1][0] == r[0];
    assert JoinContent(r[..1]) == r[0].contentItems;
  }

  lemma JoinContent3(r: seq<AISlide>)
    requires |r| == 3 && r[0].AIContent? && r[1].AIContent? && r[2].AIContent?
    ensures JoinContent(r) == r[0].contentItems + r[1].contentItems + r[2].contentItems
  {
    JoinContent2(r[..2]);
    assert r[..2][0] == r[0] && r[..2][1] == r[1];
  }

  lemma JoinContents2(r: seq<AISlide>)
    requires |r| == 2 && r[0].AIContents? && r[1].AIContents?
    ensures JoinContents(r) == r[0].items + r[1].items
  {
    assert r[..1][..0] == [];
    assert r[..1][0] == r[0];
    assert JoinContents(r[..1]) == r[0].items;
  }

  /** Content items cut at `k` into two chunks, the second offset by `k`. */
  function ContentCut2(title: string, items: seq<ContentItem>, offset: Option<int>, k: nat): (r: seq<AISlide>)
    requires k <= |items|
    ensures |r| == 2 && Count(r[0]) == k && Count(r[1]) == |items| - k
    ensures forall c :: c in r ==> c.AIContent? && c.title == title
    ensures JoinContent(r) == items
    ensures r[0].offset == offset && r[1].offset == Some(Start(r, 1))
  {
    var r := [AIContent(title, items[..k], offset), AIContent(title, items[k..], Some(k))];
    JoinContent2(r);
    SplitAt(items, k);
    r
  }

  /** Content items cut at `k` and `k + k2` into three chunks, each offset by its first index. */
  function ContentCut3(title: string, items: seq<ContentItem>, offset: Option<int>, k: nat, k2: nat): (r: seq<AISlide>)
    requires k + k2 <= |items|
    ensures |r| == 3 && Count(r[0]) == k && Count(r[1]) == k2 && Count(r[2]) == |items| - k - k2
    ensures forall c :: c in r ==> c.AIContent? && c.title == title
    ensures JoinContent(r) == items
    ensures r[0].offset == offset && r[1].offset == Some(Start(r, 1)) && r[2].offset == Some(Start(r, 2))
  {
    var r := [AIContent(title, items[..k], offset), AIContent(title, items[k..k + k2], Some(k)),
              AIContent(title, items[k + k2..], Some(k + k2))];
    JoinContent3(r);
    ThreeWay(items, k, k + k2);
    r
  }

  lemma ThreeWay<T>(xs: seq<T>, p: nat, q: nat)
    requires p <= q <= |xs|
    ensures xs[..p] + xs[p..q] + xs[q..] == xs
  {
  }

  /** Contents items cut at `k` into two chunks, the second offset by `k`. */
  function ContentsCut2(items: seq<string>, offset: Option<int>, k: nat): (r: seq<AISlide>)
    requires k <= |items|
    ensures |r| == 2 && Count(r[0]) == k && Count(r[1]) == |items| - k
    ensures forall c :: c in r ==> c.AIContents?
    ensures JoinContents(r) == items
    ensures r[0].offset == offset && r[1].offset == Some(Start(r, 1))
  {
    var r := [AIContents(items[..k], offset), AIContents(items[k..], Some(k))];
    JoinContents2(r);
    SplitAt(items, k);
    r
  }

  /** The chunks of a content slide (src/hooks/useAIPPT.ts, the `content` branch of the
      first loop of `AIPPT`). */
  function SplitContent(title: string, items: seq<ContentItem>, offset: Option<int>): (r: seq<AISlide>)
    ensures var s := AIContent(title, items, offset);
      && |r| == |PlannedSizes(s)|
      && (forall i :: 0 <= i < |r| ==> Count(r[i]) == PlannedSizes(s)[i])
      && (|r| > 1 ==> forall i :: 0 <= i < |r| ==> Count(r[i]) > 0)
      && (forall c :: c in r ==> c.AIContent? && c.title == title)
      && JoinContent(r) == items
      && r[0].offset == offset
      && (forall i :: 1 <= i < |r| ==> r[i].offset == Some(Start(r, i)))
  {
    var n := |items|;
    if n == 5 || n == 6 then ContentCut2(title, items, offset, 3)
    else if n == 7 || n == 8 then ContentCut2(title, items, offset, 4)
    else if n == 9 || n == 10 then ContentCut3(title, items, offset, 3, 3)
    else if n > 10 then ContentCut3(title, items, offset, 4, 4)
    else
      var r := [AIContent(title, items, offset)];
      assert r[..0] == [];
      r
  }

  /** The chunks of a contents slide (src/hooks/useAIPPT.ts, the `contents` branch of the
      first loop of `AIPPT`). */
  function SplitContents(items: seq<string>, offset: Option<int>): (r: seq<AISlide>)
    ensures var s := AIContents(items, offset);
      && |r| == |PlannedSizes(s)|
      && (forall i :: 0 <= i < |r| ==> Count(r[i]) == PlannedSizes(s)[i])
      && (|r| > 1 ==> forall i :: 0 <= i < |r| ==> Count(r[i]) > 0)
      && (forall c :: c in r ==> c.AIContents?)
      && JoinContents(r) == items
      && r[0].offset == offset
      && (forall i :: 1 <= i < |r| ==> r[i].offset == Some(Start(r, i)))
  {
    var n := |items|;
    if n == 11 then ContentsCut2(items, offset, 6)
    else if n > 11 then ContentsCut2(items, offset, 10)
    else
      var r := [AIContents(items, offset)];
      assert r[..0] == [];
      r
  }

  /** One AI slide split into chunks: the sizes follow the table of `PlannedSizes`, the
      chunks' items concatenate back to the slide's items, and every chunk after the
      first is offset by the index of its first item. */
  function SplitSlide(s: AISlide): (r: seq<AISlide>)
    ensures |r| == |PlannedSizes(s)|
    ensures forall i :: 0 <= i < |r| ==> Count(r[i]) == PlannedSizes(s)[i]
    ensures |r| > 1 ==> forall i :: 0 <= i < |r| ==> Count(r[i]) > 0
    ensures forall i :: 0 <= i < |r| ==> r[i].AIContent? == s.AIContent? && r[i].AIContents? == s.AIContents?
    ensures s.AIContent? ==> forall c :: c in r ==> c.AIContent? && c.title == s.title
    ensures s.AIContent? ==> JoinContent(r) == s.contentItems
    ensures s.AIContents? ==> JoinContents(r) == s.items
    ensures r[0].AIContent? || r[0].AIContents? ==> r[0].offset == s.offset
    ensures forall i :: 1 <= i < |r| ==> r[i].offset == Some(Start(r, i))
    ensures !s.AIContent? && !s.AIContents? ==> r == [s]
  {
    match s
    case AIContent(title, items, offset) =>
      var r := SplitContent(title, items, offset);
      assert forall c :: c in r ==> c.AIContent?;
      r
    case AIContents(items, offset) => SplitContents(items, offset)
    case _ => [s]
  }

  /** The expanded AI slide list: every slide replaced by its chunks, in order. */
  function Paginate(slides: seq<AISlide>): seq<AISlide>
  {
    if |slides| == 0 then [] else Paginate(slides[..|slides| - 1]) + SplitSlide(slides[|slides| - 1])
  }

  function NumTransitions(slides: seq<AISlide>): nat
  {
    if |slides| == 0 then 0
    else NumTransitions(slides[..|slides| - 1]) + (if slides[|slides| - 1].AITransition? then 1 else 0)
  }

  function TotalItems(slides: seq<AISlide>): nat
  {
    if |slides| == 0 then 0 else TotalItems(slides[..|slides| - 1]) + Count(slides[|slides| - 1])
  }

  lemma {:induction false} NumTransitionsAppend(a: seq<AISlide>, b: seq<AISlide>)
    ensures NumTransitions(a + b) == NumTransitions(a) + NumTransitions(b)
    decreases |b|
  {
    if |b| == 0 {
      assert a + b == a;
    } else {
      assert (a + b)[..|a + b| - 1] == a + b[..|b| - 1];
      NumTransitionsAppend(a, b[..|b| - 1]);
    }
  }

  lemma {:induction false} TotalItemsAppend(a: seq<AISlide>, b: seq<AISlide>)
    ensures TotalItems(a + b) == TotalItems(a) + TotalItems(b)
    decreases |b|
  {
    if |b| == 0 {
      assert a + b == a;
    } else {
      assert (a + b)[..|a + b| - 1] == a + b[..|b| - 1];
      TotalItemsAppend(a, b[..|b| - 1]);
    }
  }

  lemma {:induction false} TotalItemsIsLastStart(r: seq<AISlide>)
    ensures TotalItems(r) == Start(r, |r|)
    decreases |r|
  {
    if |r| > 0 {
      TotalItemsIsLastStart(r[..|r| - 1]);
      StartPrefix(r, |r| - 1);
    }
  }

  lemma {:induction false} StartPrefix(r: seq<AISlide>, k: nat)
    requires k <= |r|
    ensures Start(r[..k], k) == Start(r, k)
    decreases k
  {
    if k > 0 {
      assert r[..k][..k - 1] == r[..k - 1];
      StartPrefix(r, k - 1);
      StartPrefix(r[..k], k - 1);
      assert r[..k][k - 1] == r[k - 1];
    }
  }

  /** Splitting neither adds nor loses transition slides or items. */
  lemma {:induction false} PaginatePreserves(slides: seq<AISlide>)
    ensures NumTransitions(Paginate(slides)) == NumTransitions(slides)
    ensures TotalItems(Paginate(slides)) == TotalItems(slides)
    decreases |slides|
  {
    if |slides| > 0 {
      var init := slides[..|slides| - 1];
      var last := slides[|slides| - 1];
      PaginatePreserves(init);
      var r := SplitSlide(last);
      NumTransitionsAppend(Paginate(init), r);
      TotalItemsAppend(Paginate(init), r);
      if last.AITransition? {
        assert r == [last];
        assert [last][..0] == [];
      } else {
        NoTransitionChunks(last);
      }
      SplitCountSum(last);
    }
  }

  lemma NoTransitionChunks(s: AISlide)
    requires !s.AITransition?
    ensures NumTransitions(SplitSlide(s)) == 0
  {
    var r := SplitSlide(s);
    if s.AIContent? || s.AIContents? {
      NoTransitionIn(r);
    } else {
      assert r == [s];
      assert [s][..0] == [];
    }
  }

  lemma {:induction false} NoTransitionIn(r: seq<AISlide>)
    requires forall c :: c in r ==> !c.AITransition?
    ensures NumTransitions(r) == 0
    decreases |r|
  {
    if |r| > 0 {
      assert r[|r| - 1] in r;
      assert forall c :: c in r[..|r| - 1] ==> c in r;
      NoTransitionIn(r[..|r| - 1]);
    }
  }

  /** The item total of at most three chunks, written out. */
  lemma TotalItemsSmall(r: seq<AISlide>)
    requires 1 <= |r| <= 3
    ensures TotalItems(r) == Count(r[0]) + (if |r| > 1 then Count(r[1]) else 0) + (if |r| > 2 then Count(r[2]) else 0)
  {
    TotalItemsIsLastStart(r);
    assert Start(r, 1) == Count(r[0]);
    if |r| > 1 {
      assert Start(r, 2) == Count(r[0]) + Count(r[1]);
    }
  }

  /** The chunks of a slide hold exactly its items: their counts sum to its count. */
  lemma SplitCountSum(s: AISlide)
    ensures TotalItems(SplitSlide(s)) == Count(s)
  {
    var r := SplitSlide(s);
    var p := PlannedSizes(s);
    TotalItemsSmall(r);
    assert Count(r[0]) == p[0];
    if |r| > 1 {
      assert Count(r[1]) == p[1];
    }
    if |r| > 2 {
      assert Count(r[2]) == p[2];
    }
  }
}

=== FILE: readingorder.dfy ===
/** Reading order: the order in which the slots of one role are matched with data items.
    `Array.prototype.sort` is stable, so it is modelled as insertion sort with the
    source's comparators; a comparator returns `None` where JavaScript computes `NaN`,
    which the sort treats like 0. */
module ReadingOrder {
  import opened Common
  import opened Strings
  import opened Slides

  type Comparator = (Element, Element) -> Option<real>

  /** The comparator puts its first argument after its second. */
  predicate After(c: Option<real>) {
    c.Some? && c.value > 0.0
  }

  /** Where linear insertion puts `x` into `s`: after the last element not after `x`. */
  function InsertPos(s: seq<Element>, x: Element, cmp: Comparator): (p: nat)
    ensures p <= |s|
    ensures forall k :: p <= k < |s| ==> After(cmp(s[k], x))
    ensures p > 0 ==> !After(cmp(s[p - 1], x))
  {
    if |s| == 0 then 0
    else if After(cmp(s[|s| - 1], x)) then InsertPos(s[..|s| - 1], x, cmp)
    else |s|
  }

  function Insert(s: seq<Element>, x: Element, cmp: Comparator): (r: seq<Element>)
    ensures |r| == |s| + 1
  {
    var p := InsertPos(s, x, cmp);
    s[..p] + [x] + s[p..]
  }

  lemma InsertPermutes(s: seq<Element>, x: Element, cmp: Comparator)
    ensures multiset(Insert(s, x, cmp)) == multiset(s) + multiset{x}
  {
    var p := InsertPos(s, x, cmp);
    assert s == s[..p] + s[p..];
  }

  /** `xs.sort(cmp)`. */
  function SortBy(xs: seq<Element>, cmp: Comparator): (r: seq<Element>)
    ensures |r| == |xs|
  {
    if |xs| == 0 then []
    else Insert(SortBy(xs[..|xs| - 1], cmp), xs[|xs| - 1], cmp)
  }

  /** Sorting permutes its input. */
  lemma {:induction false} SortPermutes(xs: seq<Element>, cmp: Comparator)
    ensures multiset(SortBy(xs, cmp)) == multiset(xs)
    decreases |xs|
  {
    if |xs| > 0 {
      SortPermutes(xs[..|xs| - 1], cmp);
      InsertPermutes(SortBy(xs[..|xs| - 1], cmp), xs[|xs| - 1], cmp);
      assert xs == xs[..|xs| - 1] + [xs[|xs| - 1]];
    }
  }

  /** The comparator `(a, b) => key(a) - key(b)`. */
  function KeyCmp(key: Element -> real): Comparator {
    (a: Element, b: Element) => Some(key(a) - key(b))
  }

  predicate SortedBy(xs: seq<Element>, key: Element -> real) {
    forall i, j :: 0 <= i < j < |xs| ==> key(xs[i]) <= key(xs[j])
  }

  /** `After` of a key comparator is "strictly greater key". */
  lemma KeyAfter(key: Element -> real, a: Element, b: Element)
    ensures After(KeyCmp(key)(a, b)) <==> key(a) > key(b)
  {
  }

  /** Where insertion by key puts `x`: every earlier element has a key at most `x`'s,
      every later one a greater key. */
  lemma KeyInsertPos(s: seq<Element>, x: Element, key: Element -> real)
    requires SortedBy(s, key)
    ensures var p := InsertPos(s, x, KeyCmp(key));
      && (forall k :: 0 <= k < p ==> key(s[k]) <= key(x))
      && (forall k :: p <= k < |s| ==> key(s[k]) > key(x))
  {
    var p := InsertPos(s, x, KeyCmp(key));
    forall k | p <= k < |s| ensures key(s[k]) > key(x) {
      KeyAfter(key, s[k], x);
    }
    if p > 0 {
      KeyAfter(key, s[p - 1], x);
      assert forall k :: 0 <= k < p ==> key(s[k]) <= key(s[p - 1]);
    }
  }

  /** Putting `x` between the elements with keys at most its own and those above keeps
      a sorted sequence sorted. */
  lemma SortedSplice(s: seq<Element>, x: Element, p: nat, key: Element -> real)
    requires SortedBy(s, key) && p <= |s|
    requires forall k :: 0 <= k < p ==> key(s[k]) <= key(x)
    requires forall k :: p <= k < |s| ==> key(s[k]) > key(x)
    ensures SortedBy(s[..p] + [x] + s[p..], key)
  {
    var r := s[..p] + [x] + s[p..];
    assert forall i :: 0 <= i < p ==> r[i] == s[i];
    assert forall i :: p < i < |r| ==> r[i] == s[i - 1];
  }

  lemma InsertSorted(s: seq<Element>, x: Element, key: Element -> real)
    requires SortedBy(s, key)
    ensures SortedBy(Insert(s, x, KeyCmp(key)), key)
  {
    KeyInsertPos(s, x, key);
    SortedSplice(s, x, InsertPos(s, x, KeyCmp(key)), key);
  }

  /** Sorting by a key difference orders by the key. */
  lemma {:induction false} SortSorted(xs: seq<Element>, key: Element -> real)
    ensures SortedBy(SortBy(xs, KeyCmp(key)), key)
    decreases |xs|
  {
    if |xs| > 0 {
      SortSorted(xs[..|xs| - 1], key);
      InsertSorted(SortBy(xs[..|xs| - 1], KeyCmp(key)), xs[|xs| - 1], key);
    }
  }

  function HasKey(key: Element -> real, k: real): Element -> bool {
    (el: Element) => key(el) == k
  }

  /** Filtering a sequence with one element spliced in. */
  lemma FilterSplice(s: seq<Element>, x: Element, p: nat, keep: Element -> bool)
    requires p <= |s|
    ensures Filter(s[..p] + [x] + s[p..], keep)
         == Filter(s[..p], keep) + (if keep(x) then [x] else []) + Filter(s[p..], keep)
    ensures Filter(s, keep) == Filter(s[..p], keep) + Filter(s[p..], keep)
  {
    FilterAppend(s[..p] + [x], s[p..], keep);
    FilterAppend(s[..p], [x], keep);
    FilterAppend(s[..p], s[p..], keep);
    SplitAt(s, p);
    FilterSingle(x, keep);
  }

  /** Nothing in a sequence of keys above `k` has key `k`. */
  lemma {:induction false} FilterNone(s: seq<Element>, key: Element -> real, k: real)
    requires forall i :: 0 <= i < |s| ==> key(s[i]) > k
    ensures Filter(s, HasKey(key, k)) == []
    decreases |s|
  {
    if |s| > 0 {
      FilterNone(s[..|s| - 1], key, k);
    }
  }

  /** No element after the insertion point shares the inserted element's key. */
  lemma SuffixFilterEmpty(s: seq<Element>, x: Element, p: nat, key: Element -> real)
    requires p <= |s| && forall i :: p <= i < |s| ==> key(s[i]) > key(x)
    ensures Filter(s[p..], HasKey(key, key(x))) == []
  {
    var t := s[p..];
    assert forall i :: 0 <= i < |t| ==> key(t[i]) > key(x) by {
      forall i | 0 <= i < |t| ensures key(t[i]) > key(x) {
        assert t[i] == s[p + i];
      }
    }
    FilterNone(t, key, key(x));
  }

  /** Splicing `x` in before elements of greater keys only adds `x` to its own key's
      elements, at their end. */
  lemma StableSplice(s: seq<Element>, x: Element, p: nat, key: Element -> real, k: real)
    requires p <= |s| && forall i :: p <= i < |s| ==> key(s[i]) > key(x)
    ensures Filter(s[..p] + [x] + s[p..], HasKey(key, k))
         == Filter(s, HasKey(key, k)) + if key(x) == k then [x] else []
  {
    var eq := HasKey(key, k);
    var a, b := Filter(s[..p], eq), Filter(s[p..], eq);
    assert Filter(s[..p] + [x] + s[p..], eq) == a + (if key(x) == k then [x] else []) + b
        && Filter(s, eq) == a + b by {
      FilterSplice(s, x, p, eq);
    }
    if key(x) == k {
      assert b == [] by {
        SuffixFilterEmpty(s, x, p, key);
      }
      assert a + b == a;
      assert a + [x] + b == a + [x];
    } else {
      assert a + [] == a;
    }
  }

  lemma InsertStable(s: seq<Element>, x: Element, key: Element -> real, k: real)
    requires SortedBy(s, key)
    ensures Filter(Insert(s, x, KeyCmp(key)), HasKey(key, k))
         == Filter(s, HasKey(key, k)) + if key(x) == k then [x] else []
  {
    KeyInsertPos(s, x, key);
    StableSplice(s, x, InsertPos(s, x, KeyCmp(key)), key, k);
  }

  /** One insertion step of a stable sort. */
  lemma StableStep(init: seq<Element>, sorted: seq<Element>, x: Element, key: Element -> real, k: real)
    requires SortedBy(sorted, key)
    requires Filter(sorted, HasKey(key, k)) == Filter(init, HasKey(key, k))
    ensures Filter(Insert(sorted, x, KeyCmp(key)), HasKey(key, k)) == Filter(init + [x], HasKey(key, k))
  {
    var eq := HasKey(key, k);
    var tail: seq<Element> := if key(x) == k then [x] else [];
    InsertStable(sorted, x, key, k);
    assert Filter(init + [x], eq) == Filter(init, eq) + tail by {
      FilterAppend(init, [x], eq);
      FilterSingle(x, eq);
    }
  }

  /** Sorting is stable: the elements of any one key keep their original order. */
  lemma {:induction false} SortStable(xs: seq<Element>, key: Element -> real, k: real)
    ensures Filter(SortBy(xs, KeyCmp(key)), HasKey(key, k)) == Filter(xs, HasKey(key, k))
    decreases |xs|
  {
    if |xs| > 0 {
      var init := xs[..|xs| - 1];
      SortStable(init, key, k);
      SortSorted(init, key);
      StableStep(init, SortBy(init, KeyCmp(key)), xs[|xs| - 1], key, k);
      LastSplit(xs);
    }
  }

  /** No element is ever after a later one. */
  predicate NoneAfter(xs: seq<Element>, cmp: Comparator) {
    forall i, j :: 0 <= i < j < |xs| ==> !After(cmp(xs[i], xs[j]))
  }

  /** A sort that finds nothing out of order leaves its input as it is. */
  lemma {:induction false} SortKeepsOrder(xs: seq<Element>, cmp: Comparator)
    requires NoneAfter(xs, cmp)
    ensures SortBy(xs, cmp) == xs
    decreases |xs|
  {
    if |xs| > 0 {
      var init := xs[..|xs| - 1];
      assert NoneAfter(init, cmp);
      SortKeepsOrder(init, cmp);
      var x := xs[|xs| - 1];
      assert InsertPos(init, x, cmp) == |init| by {
        if |init| > 0 {
          assert !After(cmp(init[|init| - 1], x));
        }
      }
      assert xs == init + [x];
    }
  }

  /** Two comparators that agree on the elements sorted give the same order. */
  predicate AgreeOn(xs: seq<Element>, c1: Comparator, c2: Comparator) {
    forall a, b :: a in xs && b in xs ==> c1(a, b) == c2(a, b)
  }

  lemma {:induction false} InsertPosCongruent(s: seq<Element>, x: Element, xs: seq<Element>, c1: Comparator, c2: Comparator)
    requires AgreeOn(xs, c1, c2) && x in xs && forall y :: y in s ==> y in xs
    ensures InsertPos(s, x, c1) == InsertPos(s, x, c2)
    decreases |s|
  {
    if |s| > 0 {
      assert s[|s| - 1] in s;
      InsertPosCongruent(s[..|s| - 1], x, xs, c1, c2);
    }
  }

  lemma {:induction false} SortCongruent(xs: seq<Element>, c1: Comparator, c2: Comparator)
    requires AgreeOn(xs, c1, c2)
    ensures SortBy(xs, c1) == SortBy(xs, c2)
    decreases |xs|
  {
    if |xs| > 0 {
      var init := xs[..|xs| - 1];
      var x := xs[|xs| - 1];
      assert AgreeOn(init, c1, c2);
      SortCongruent(init, c1, c2);
      var s := SortBy(init, c1);
      assert forall y :: y in s ==> y in xs by {
        SortPermutes(init, c1);
        forall y | y in s ensures y in xs {
          assert y in multiset(s);
          assert y in init;
        }
      }
      InsertPosCongruent(s, x, xs, c1, c2);
    }
  }

  /** The reading key of a slot: left edge plus twice the top edge. */
  function ReadingKey(el: Element): real {
    el.left + el.top * 2.0
  }

  /** The geometric comparator `a.left + a.top * 2 - (b.left + b.top * 2)`. */
  function Geometric(): Comparator {
    KeyCmp(ReadingKey)
  }

  /** `.map(el => el.id)`. */
  function Ids(els: seq<Element>): (r: seq<string>)
    ensures |r| == |els| && forall i :: 0 <= i < |els| ==> r[i] == els[i].id
  {
    seq(|els|, i requires 0 <= i < |els| => els[i].id)
  }

  /** `ids.findIndex(x => x === id)`: the first position of `id`, or -1. */
  function IndexOfId(ids: seq<string>, id: string): (r: int)
    ensures -1 <= r < |ids|
    ensures r >= 0 ==> ids[r] == id && forall k :: 0 <= k < r ==> ids[k] != id
    ensures r == -1 <==> id !in ids
  {
    if |ids| == 0 then -1
    else if ids[0] == id then 0
    else
      var r := IndexOfId(ids[1..], id);
      assert id in ids[1..] ==> id in ids;
      assert id in ids && ids[0] != id ==> id in ids[1..] by {
        if id in ids && ids[0] != id {
          var k :| 0 <= k < |ids| && ids[k] == id;
          assert ids[1..][k - 1] == id;
        }
      }
      if r == -1 then -1 else r + 1
  }

  /** The slots of one text type in the template, in reading order. */
  function SortedSlots(els: seq<Element>, t: TextType): seq<Element> {
    SortBy(Filter(els, el => HasTextType(el, t)), Geometric())
  }

  /** The reading order of a role's slots: by reading key, ties in template order, and
      every slot exactly once. */
  lemma SortedSlotsOrder(els: seq<Element>, t: TextType)
    ensures var s := SortedSlots(els, t);
      && SortedBy(s, ReadingKey)
      && multiset(s) == multiset(Filter(els, el => HasTextType(el, t)))
      && forall k :: Filter(s, HasKey(ReadingKey, k)) == Filter(Filter(els, el => HasTextType(el, t)), HasKey(ReadingKey, k))
  {
    var xs := Filter(els, el => HasTextType(el, t));
    SortSorted(xs, ReadingKey);
    SortPermutes(xs, Geometric());
    forall k ensures Filter(SortBy(xs, Geometric()), HasKey(ReadingKey, k)) == Filter(xs, HasKey(ReadingKey, k)) {
      SortStable(xs, ReadingKey, k);
    }
  }

  // ---------------------------------------------------------------------------------
  // Number badges of contents slides with more than six items

  /** `aContent`: the markup of a text or shape element, when it has one. */
  function Markup(el: Element): Option<RichText> {
    if HasMarkup(el) then Some(MarkupOf(el)) else None
  }

  /** The markup string is non-empty (truthy). */
  predicate HasLabelText(el: Element) {
    Markup(el).Some? && !IsEmptyMarkup(Markup(el).value)
  }

  /** `parseInt(content)` applied to the markup string, as the source does: markup that
      starts with a tag is not a number. */
  function MarkupNumber(el: Element): Option<int> {
    match Markup(el)
    case None => None
    case Some(rt) => if rt.leadsWithTag || |rt.runs| == 0 then None else ParseInt(rt.runs[0])
  }

  /** The number the badge shows: `parseInt` of its text. */
  function LabelNumber(el: Element): Option<int> {
    match Markup(el)
    case None => None
    case Some(rt) => ParseInt(Flatten(rt.runs))
  }

  /** The badge comparator as written: with more than six badges and two non-empty
      markups, the difference of `parseInt` of the markups (`NaN` when either fails);
      otherwise the reading key. */
  function BadgeOrderAsWritten(count: nat): Comparator {
    (a: Element, b: Element) =>
      if count > 6 && HasLabelText(a) && HasLabelText(b) then
        var la := MarkupNumber(a);
        var lb := MarkupNumber(b);
        if la.Some? && lb.Some? then Some((la.value - lb.value) as real) else None
      else Some(ReadingKey(a) - ReadingKey(b))
  }

  /** The badge comparator as intended: with more than six badges whose numbers both
      read, the difference of the numbers shown; otherwise the reading key. */
  function BadgeOrder(count: nat): Comparator {
    (a: Element, b: Element) =>
      if count > 6 && LabelNumber(a).Some? && LabelNumber(b).Some? then
        Some((LabelNumber(a).value - LabelNumber(b).value) as real)
      else Some(ReadingKey(a) - ReadingKey(b))
  }

  /** The number a badge shows, as a sort key (0 when it shows none). */
  function LabelKey(el: Element): real {
    LabelNumber(el).GetOr(0) as real
  }

  /** Every badge's markup starts with a tag, as rich-text markup does. */
  predicate AllTagged(xs: seq<Element>) {
    forall x :: x in xs ==> HasLabelText(x) && Markup(x).value.leadsWithTag
  }

  /** As written, more than six tagged badges compare as all equal, so the sort keeps
      template order whatever the badges show and wherever they stand. */
  lemma BadgesAsWrittenKeepTemplateOrder(xs: seq<Element>)
    requires |xs| > 6 && AllTagged(xs)
    ensures SortBy(xs, BadgeOrderAsWritten(|xs|)) == xs
  {
    assert forall i :: 0 <= i < |xs| ==> xs[i] in xs;
    SortKeepsOrder(xs, BadgeOrderAsWritten(|xs|));
  }

  /** As intended, more than six badges that all show numbers are ordered by those
      numbers, badges showing the same number staying in template order. */
  lemma BadgesByNumber(xs: seq<Element>)
    requires |xs| > 6 && forall x :: x in xs ==> LabelNumber(x).Some?
    ensures SortBy(xs, BadgeOrder(|xs|)) == SortBy(xs, KeyCmp(LabelKey))
    ensures SortedBy(SortBy(xs, BadgeOrder(|xs|)), LabelKey)
    ensures forall k :: Filter(SortBy(xs, BadgeOrder(|xs|)), HasKey(LabelKey, k)) == Filter(xs, HasKey(LabelKey, k))
  {
    assert AgreeOn(xs, BadgeOrder(|xs|), KeyCmp(LabelKey)) by {
      forall a, b | a in xs && b in xs ensures BadgeOrder(|xs|)(a, b) == KeyCmp(LabelKey)(a, b) {
        BadgePair(|xs|, a, b);
      }
    }
    OrderedByKey(xs, BadgeOrder(|xs|), LabelKey);
  }

  /** Two badges that both show numbers compare by those numbers. */
  lemma BadgePair(count: nat, a: Element, b: Element)
    requires count > 6 && LabelNumber(a).Some? && LabelNumber(b).Some?
    ensures BadgeOrder(count)(a, b) == KeyCmp(LabelKey)(a, b)
  {
    assert (LabelNumber(a).value - LabelNumber(b).value) as real == LabelKey(a) - LabelKey(b);
  }

  /** With at most six badges both comparators are the reading order. */
  lemma FewBadgesByReadingKey(xs: seq<Element>)
    requires |xs| <= 6
    ensures SortBy(xs, BadgeOrderAsWritten(|xs|)) == SortBy(xs, Geometric())
    ensures SortBy(xs, BadgeOrder(|xs|)) == SortBy(xs, Geometric())
  {
    SortCongruent(xs, BadgeOrderAsWritten(|xs|), Geometric());
    SortCongruent(xs, BadgeOrder(|xs|), Geometric());
  }

  /** A comparator that agrees with a key difference sorts by that key, stably. */
  lemma OrderedByKey(xs: seq<Element>, cmp: Comparator, key: Element -> real)
    requires AgreeOn(xs, cmp, KeyCmp(key))
    ensures SortBy(xs, cmp) == SortBy(xs, KeyCmp(key))
    ensures SortedBy(SortBy(xs, cmp), key)
    ensures forall k :: Filter(SortBy(xs, cmp), HasKey(key, k)) == Filter(xs, HasKey(key, k))
  {
    SortCongruent(xs, cmp, KeyCmp(key));
    SortSorted(xs, key);
    forall k ensures Filter(SortBy(xs, KeyCmp(key)), HasKey(key, k)) == Filter(xs, HasKey(key, k)) {
      SortStable(xs, key, k);
    }
  }

  /** `sortedNumberItems.find(item => item.groupId === el.groupId)`: the first badge of
      the element's group (an empty group id stands for none, and matches likewise). */
  function GroupBadge(badges: seq<Element>, groupId: string): (r: Option<Element>)
    ensures r.Some? ==> r.value in badges && r.value.groupId == groupId
    ensures r.None? ==> forall b :: b in badges ==> b.groupId != groupId
  {
    if |badges| == 0 then None
    else if badges[0].groupId == groupId then Some(badges[0])
    else
      var r := GroupBadge(badges[1..], groupId);
      assert forall b :: b in badges ==> b == badges[0] || b in badges[1..];
      r
  }

  /** The item comparator as written: with more than six items whose groups both have a
      badge with non-empty markup, the difference of `parseInt` of the badges' markups;
      otherwise the items' reading keys. */
  function ItemOrderAsWritten(badges: seq<Element>, count: nat): Comparator {
    (a: Element, b: Element) =>
      var ba := GroupBadge(badges, a.groupId);
      var bb := GroupBadge(badges, b.groupId);
      if count > 6 && ba.Some? && bb.Some? && HasLabelText(ba.value) && HasLabelText(bb.value) then
        var la := MarkupNumber(ba.value);
        var lb := MarkupNumber(bb.value);
        if la.Some? && lb.Some? then Some((la.value - lb.value) as real) else None
      else Some(ReadingKey(a) - ReadingKey(b))
  }

  /** The number shown by the badge of an item's group, when there is one and it reads. */
  function BadgeNumberOf(badges: seq<Element>, el: Element): Option<int> {
    match GroupBadge(badges, el.groupId)
    case None => None
    case Some(b) => LabelNumber(b)
  }

  /** The item comparator as intended: by the numbers of the items' badges when both
      read, otherwise by reading key. */
  function ItemOrder(badges: seq<Element>, count: nat): Comparator {
    (a: Element, b: Element) =>
      if count > 6 && BadgeNumberOf(badges, a).Some? && BadgeNumberOf(badges, b).Some? then
        Some((BadgeNumberOf(badges, a).value - BadgeNumberOf(badges, b).value) as real)
      else Some(ReadingKey(a) - ReadingKey(b))
  }

  function ItemKey(badges: seq<Element>): Element -> real {
    (el: Element) => BadgeNumberOf(badges, el).GetOr(0) as real
  }

  /** As written, items whose badges are all tagged markup keep template order. */
  lemma ItemsAsWrittenKeepTemplateOrder(badges: seq<Element>, xs: seq<Element>)
    requires |xs| > 6 && AllTagged(badges)
    requires forall x :: x in xs ==> GroupBadge(badges, x.groupId).Some?
    ensures SortBy(xs, ItemOrderAsWritten(badges, |xs|)) == xs
  {
    forall i, j | 0 <= i < j < |xs| ensures !After(ItemOrderAsWritten(badges, |xs|)(xs[i], xs[j])) {
      assert xs[i] in xs && xs[j] in xs;
    }
    SortKeepsOrder(xs, ItemOrderAsWritten(badges, |xs|));
  }

  /** As intended, more than six items whose badges all read are ordered by their badges'
      numbers, ties in template order. */
  lemma ItemsByBadgeNumber(badges: seq<Element>, xs: seq<Element>)
    requires |xs| > 6 && forall x :: x in xs ==> BadgeNumberOf(badges, x).Some?
    ensures SortedBy(SortBy(xs, ItemOrder(badges, |xs|)), ItemKey(badges))
    ensures forall k :: Filter(SortBy(xs, ItemOrder(badges, |xs|)), HasKey(ItemKey(badges), k))
                     == Filter(xs, HasKey(ItemKey(badges), k))
  {
    assert AgreeOn(xs, ItemOrder(badges, |xs|), KeyCmp(ItemKey(badges))) by {
      forall a, b | a in xs && b in xs ensures ItemOrder(badges, |xs|)(a, b) == KeyCmp(ItemKey(badges))(a, b) {
        ItemPair(badges, |xs|, a, b);
      }
    }
    OrderedByKey(xs, ItemOrder(badges, |xs|), ItemKey(badges));
  }

  lemma ItemPair(badges: seq<Element>, count: nat, a: Element, b: Element)
    requires count > 6 && BadgeNumberOf(badges, a).Some? && BadgeNumberOf(badges, b).Some?
    ensures ItemOrder(badges, count)(a, b) == KeyCmp(ItemKey(badges))(a, b)
  {
    var na := BadgeNumberOf(badges, a).value;
    var nb := BadgeNumberOf(badges, b).value;
    assert ItemOrder(badges, count)(a, b) == Some((na - nb) as real);
    assert ItemKey(badges)(a) == na as real && ItemKey(badges)(b) == nb as real;
    assert KeyCmp(ItemKey(badges))(a, b) == Some(ItemKey(badges)(a) - ItemKey(badges)(b));
  }

  /** A badge shaped like the ones rich-text templates carry: a paragraph around the
      zero-padded number `d`, placed `d - 1` steps from the left. */
  function Badge(d: nat): Element
    requires 1 <= d <= 9
  {
    var shown := "0" + [DigitChar(d)];
    Element("n" + shown, (d - 1) as real * 100.0, 0.0, 40.0, 40.0, "",
            TextKind(RichText([shown], Some(16.0), None, true, true), Some(ItemNumber), None))
  }

  /** Seven badges laid out 01 to 07 from left to right but stored from 07 to 01. */
  function ReversedBadges(): (xs: seq<Element>)
    ensures |xs| == 7 && forall i :: 0 <= i < 7 ==> xs[i] == Badge(7 - i)
  {
    seq(7, i requires 0 <= i < 7 => Badge(7 - i))
  }

  /** A badge shows its number, in markup that starts with a tag. */
  lemma BadgeShows(d: nat)
    requires 1 <= d <= 9
    ensures LabelNumber(Badge(d)) == Some(d)
    ensures HasLabelText(Badge(d)) && Markup(Badge(d)).value.leadsWithTag
  {
    var shown := "0" + [DigitChar(d)];
    assert [shown][..0] == [];
    assert Flatten([shown]) == shown;
    assert shown == "0" + NatToString(d);
    ParseIntZeroPadded(d);
  }

  /** The badges show `n` down to 1, in template order. */
  predicate Countdown(xs: seq<Element>, n: nat) {
    |xs| == n && forall i :: 0 <= i < n ==> LabelNumber(xs[i]) == Some(n - i)
  }

  lemma ReversedBadgesShow()
    ensures AllTagged(ReversedBadges())
    ensures Countdown(ReversedBadges(), 7)
  {
    var xs := ReversedBadges();
    forall i | 0 <= i < 7
      ensures LabelNumber(xs[i]) == Some(7 - i)
      ensures HasLabelText(xs[i]) && Markup(xs[i]).value.leadsWithTag
    {
      BadgeShows(7 - i);
    }
  }

  /** The discrepancy on a concrete template: as written, the badge showing 07 stays
      first; as intended, the badge showing 01 comes first. */
  lemma ReversedBadgesCounterexample()
    ensures SortBy(ReversedBadges(), BadgeOrderAsWritten(7))[0] == Badge(7)
    ensures LabelNumber(SortBy(ReversedBadges(), BadgeOrder(7))[0]) == Some(1)
  {
    ReversedAsWrittenFirst();
    ReversedIntendedFirst();
  }

  lemma ReversedAsWrittenFirst()
    ensures SortBy(ReversedBadges(), BadgeOrderAsWritten(7))[0] == Badge(7)
  {
    var xs := ReversedBadges();
    ReversedBadgesShow();
    BadgesAsWrittenKeepTemplateOrder(xs);
  }

  lemma ReversedIntendedFirst()
    ensures LabelNumber(SortBy(ReversedBadges(), BadgeOrder(7))[0]) == Some(1)
  {
    ReversedBadgesShow();
    CountdownSortsToOne(ReversedBadges(), 7);
  }

  /** Sorted as intended, badges labelled n down to 1 start with the badge labelled 1. */
  lemma CountdownSortsToOne(xs: seq<Element>, n: nat)
    requires n > 6 && Countdown(xs, n)
    ensures LabelNumber(SortBy(xs, BadgeOrder(n))[0]) == Some(1)
  {
    forall x | x in xs ensures LabelNumber(x).Some? {
      var i :| 0 <= i < n && xs[i] == x;
    }
    BadgesByNumber(xs);
    SortPermutes(xs, BadgeOrder(n));
    LeastLabelFirst(xs, SortBy(xs, BadgeOrder(n)), n);
  }

  /** Sorted by label, a permutation of badges labelled n down to 1 starts with label 1. */
  lemma LeastLabelFirst(xs: seq<Element>, s: seq<Element>, n: nat)
    requires n > 0 && Countdown(xs, n)
    requires SortedBy(s, LabelKey) && multiset(s) == multiset(xs)
    ensures |s| == n && LabelNumber(s[0]) == Some(1)
  {
    assert |s| == |multiset(s)| == |multiset(xs)| == n;
    assert s[0] in multiset(xs) && xs[n - 1] in multiset(s) by {
      assert s[0] in multiset(s);
      assert xs[n - 1] in multiset(xs);
    }
    var j :| 0 <= j < n && xs[j] == s[0];
    var k :| 0 <= k < |s| && s[k] == xs[n - 1];
    assert LabelKey(s[0]) <= LabelKey(s[k]);
    assert LabelKey(s[k]) == 1.0;
    assert LabelKey(s[0]) == (n - j) as real;
  }
}

=== FILE: slidefill.dfy ===
/** The five slide kinds of `AIPPT` (src/hooks/useAIPPT.ts): for each, the choice of a
    template and the action every template element receives. Cover, transition and end
    slides keep all their elements; contents and content slides drop the slots no data
    reaches, together with their groups. */
module SlideFill {
  import opened Common
  import opened Strings
  import opened Slides
  import opened TemplateSelector
  import opened TextFitter
  import opened ImageAllocator
  import opened ReadingOrder
  import opened Assembler

  /** The slots a slide of kind `k` refills from template `s` have a positive size (the
      refill crops the image to the slot's aspect ratio, which an empty slot lacks): the
      page and item figures of a content slide, every image slot with an image type on
      the others. The other slots may have any size. */
  predicate ImagesSized(s: Slide, k: SlideType) {
    if k == ContentType then FiguresSized(s) else TypedSized(s)
  }

  /** Every image slot with an image type has a positive size. */
  predicate TypedSized(s: Slide) {
    forall el :: el in s.elements && IsTypedImage(el) ==> el.width > 0.0 && el.height > 0.0
  }

  /** Every page and item figure has a positive size. */
  predicate FiguresSized(s: Slide) {
    forall el :: el in s.elements && IsFigure(el) ==> el.width > 0.0 && el.height > 0.0
  }

  /** A page or an item figure. */
  predicate IsFigure(el: Element) {
    IsImageOfType(el, PageFigure) || IsImageOfType(el, ItemFigure)
  }

  /** A slot that slides of kind `k` never refill (an image without an image type, or the
      background of a content slide) may have any size: adding it to a template changes
      nothing about whether the template is sized. */
  lemma UnrefilledSlotsFree(s: Slide, k: SlideType, el: Element)
    requires el.kind.ImageKind?
    requires el.kind.imageType.None? || (k == ContentType && el.kind.imageType == Some(Background))
    ensures ImagesSized(Slide(s.slideType, s.elements + [el]), k) <==> ImagesSized(s, k)
  {
    var t := Slide(s.slideType, s.elements + [el]);
    assert forall x :: x in t.elements <==> x in s.elements || x == el;
  }

  /** Every template of kind `k` has the slots its slides refill sized. */
  predicate KindSized(templates: seq<Slide>, k: SlideType) {
    forall t :: t in Category(templates, k) ==> ImagesSized(t, k)
  }

  /** `ts[Math.floor(Math.random() * ts.length)]`. */
  function Pick(ts: seq<Slide>, u: Unit): (r: Slide)
    requires |ts| > 0
    ensures r in ts
  {
    ts[PickIndex(u, |ts|)]
  }

  /** `templateSlides.filter(slide => slide.type === t)`. */
  function Category(templates: seq<Slide>, t: SlideType): (r: seq<Slide>)
    ensures forall s :: s in r <==> s in templates && s.slideType == t
  {
    Filter(templates, (s: Slide) => s.slideType == t)
  }

  /** The action of every element, in template order. */
  function Plan(els: seq<Element>, f: Element -> Action): (acts: seq<Action>)
    ensures |acts| == |els| && forall i :: 0 <= i < |els| ==> acts[i] == f(els[i])
  {
    seq(|els|, i requires 0 <= i < |els| => f(els[i]))
  }

  /** `xs.reduce((longest, s) => s.length > longest.length ? s : longest, '')`. */
  function Longest(xs: seq<string>): (r: string)
    ensures r == "" || r in xs
    ensures forall x :: x in xs ==> |x| <= |r|
  {
    if |xs| == 0 then ""
    else
      var l := Longest(xs[..|xs| - 1]);
      var x := xs[|xs| - 1];
      assert forall y :: y in xs ==> y in xs[..|xs| - 1] || y == x;
      if |x| > |l| then x else l
  }

  /** Ties go to the earliest: a non-empty result is the first string of its length,
      every string before it being strictly shorter. */
  lemma {:induction false} LongestFirst(xs: seq<string>)
    ensures var r := Longest(xs);
      r != "" ==> exists k :: 0 <= k < |xs| && xs[k] == r && forall j :: 0 <= j < k ==> |xs[j]| < |r|
    decreases |xs|
  {
    if |xs| > 0 {
      var init := xs[..|xs| - 1];
      var l := Longest(init);
      var x := xs[|xs| - 1];
      LongestFirst(init);
      if |x| > |l| {
        forall j | 0 <= j < |xs| - 1 ensures |xs[j]| < |x| {
          assert xs[j] in init;
        }
        assert xs[|xs| - 1] == x;
      } else if l != "" {
        var k :| 0 <= k < |init| && init[k] == l && forall j :: 0 <= j < k ==> |init[j]| < |l|;
        forall j | 0 <= j <= k ensures xs[j] == init[j] {
        }
      }
    }
  }

  // ---------------------------------------------------------------------------------
  // Cover, transition and end slides

  /** Image slots with an image type are refilled from the pool; the others stay. */
  function TypedImage(el: Element): Action {
    if IsTypedImage(el) then FillImage else Keep
  }

  /** The cover slide: the title into the title slot (one line), the text into the
      content slot (up to three lines). */
  function CoverAction(el: Element, title: string, text: string): Action {
    if el.kind.ImageKind? then TypedImage(el)
    else if !IsTextual(el) then Keep
    else if HasTextType(el, Title) && title != "" then PutText(title, 1, "", false)
    else if HasTextType(el, Content) && text != "" then PutText(text, 3, "", false)
    else Keep
  }

  /** A transition slide: as a cover, and the part number, zero-padded, into the
      part-number slot. */
  function TransitionAction(el: Element, title: string, text: string, number: int): Action {
    if HasTextType(el, PartNumber) then PutText(IntToString(number), 1, "", true)
    else CoverAction(el, title, text)
  }

  function EndAction(el: Element): Action {
    if el.kind.ImageKind? then TypedImage(el) else Keep
  }

  lemma CoverApplicable(tpl: Slide, title: string, text: string)
    requires TypedSized(tpl)
    ensures AllApplicable(tpl.elements, Plan(tpl.elements, el => CoverAction(el, title, text)))
  {
    forall el | el in tpl.elements ensures Applicable(el, CoverAction(el, title, text)) {
      if HasTextType(el, Title) || HasTextType(el, Content) {
        assert HasMarkup(el);
      }
    }
  }

  lemma TransitionApplicable(tpl: Slide, title: string, text: string, number: int)
    requires TypedSized(tpl)
    ensures AllApplicable(tpl.elements, Plan(tpl.elements, el => TransitionAction(el, title, text, number)))
  {
    forall el | el in tpl.elements ensures Applicable(el, TransitionAction(el, title, text, number)) {
      if HasTextType(el, Title) || HasTextType(el, Content) || HasTextType(el, PartNumber) {
        assert HasMarkup(el);
      }
    }
  }

  lemma EndApplicable(tpl: Slide)
    requires TypedSized(tpl)
    ensures AllApplicable(tpl.elements, Plan(tpl.elements, EndAction))
  {
  }

  /** A text slot that neither data item nor part number reaches. */
  predicate Untouched(el: Element, title: string, text: string) {
    && IsTextual(el)
    && !(HasTextType(el, Title) && title != "")
    && !(HasTextType(el, Content) && text != "")
    && !HasTextType(el, PartNumber)
  }

  /** An image slot with an image type. */
  predicate IsTypedImage(el: Element) {
    el.kind.ImageKind? && el.kind.imageType.Some?
  }

  /** What a cover or transition slide does to the element in slot `i` of its template;
      `pool` is the pool on entry to the slide. */
  predicate CoverSlot(m: Measure, el: Element, out: Element, title: string, text: string, pool: seq<ImgPoolItem>) {
    && out.id == el.id
    && (HasTextType(el, Title) && title != "" ==> out == NewTextElement(m, el, title, 1, "", false))
    && (HasTextType(el, Content) && text != "" ==> out == NewTextElement(m, el, text, 3, "", false))
    && (Untouched(el, title, text) ==> out == el)
    && (!IsTextual(el) && !IsTypedImage(el) ==> out == el)
    && (IsTypedImage(el) ==> FilledFrom(el, out, pool))
  }

  /** Carried out, the cover actions put the title and the text in their slots, refill
      the typed image slots from the pool and leave every other slot alone. */
  lemma CoverSlots(m: Measure, els: seq<Element>, outs: seq<Element>, title: string, text: string, pool: seq<ImgPoolItem>)
    requires |outs| == |els|
    requires forall i :: 0 <= i < |els| ==> Carried(m, els[i], CoverAction(els[i], title, text), outs[i])
    requires forall i :: 0 <= i < |els| && CoverAction(els[i], title, text).FillImage? ==> FilledFrom(els[i], outs[i], pool)
    ensures forall i :: 0 <= i < |els| ==> CoverSlot(m, els[i], outs[i], title, text, pool)
  {
    forall i | 0 <= i < |els| ensures CoverSlot(m, els[i], outs[i], title, text, pool) {
      assert Carried(m, els[i], CoverAction(els[i], title, text), outs[i]);
    }
  }

  /** What a transition slide does to a slot: what a cover slide does, and the part
      number, zero-padded, in a part-number slot. */
  predicate TransitionSlot(m: Measure, el: Element, out: Element, title: string, text: string, number: int,
                           pool: seq<ImgPoolItem>) {
    && CoverSlot(m, el, out, title, text, pool)
    && (HasTextType(el, PartNumber) ==> out == NewTextElement(m, el, IntToString(number), 1, "", true))
  }

  /** The transition actions do the same, and write the part number into every
      part-number slot. */
  lemma TransitionSlots(m: Measure, els: seq<Element>, outs: seq<Element>, title: string, text: string, number: int,
                        pool: seq<ImgPoolItem>)
    requires |outs| == |els|
    requires forall i :: 0 <= i < |els| ==> Carried(m, els[i], TransitionAction(els[i], title, text, number), outs[i])
    requires forall i :: 0 <= i < |els| && TransitionAction(els[i], title, text, number).FillImage? ==>
      FilledFrom(els[i], outs[i], pool)
    ensures forall i :: 0 <= i < |els| ==> TransitionSlot(m, els[i], outs[i], title, text, number, pool)
  {
    forall i | 0 <= i < |els| ensures TransitionSlot(m, els[i], outs[i], title, text, number, pool) {
      assert Carried(m, els[i], TransitionAction(els[i], title, text, number), outs[i]);
    }
  }

  /** What an end slide does to a slot: a typed image slot is refilled from the pool,
      every other slot stays as it is. */
  predicate EndSlot(el: Element, out: Element, pool: seq<ImgPoolItem>) {
    && out.id == el.id
    && (!IsTypedImage(el) ==> out == el)
    && (IsTypedImage(el) ==> FilledFrom(el, out, pool))
  }

  /** Carried out, the end actions refill the typed image slots and leave every other
      slot alone. */
  lemma EndSlots(m: Measure, els: seq<Element>, outs: seq<Element>, pool: seq<ImgPoolItem>)
    requires |outs| == |els|
    requires forall i :: 0 <= i < |els| ==> Carried(m, els[i], EndAction(els[i]), outs[i])
    requires forall i :: 0 <= i < |els| && EndAction(els[i]).FillImage? ==> FilledFrom(els[i], outs[i], pool)
    ensures forall i :: 0 <= i < |els| ==> EndSlot(els[i], outs[i], pool)
  {
    forall i | 0 <= i < |els| ensures EndSlot(els[i], outs[i], pool) {
      assert Carried(m, els[i], EndAction(els[i]), outs[i]);
    }
  }

  /** A cover slide made from `tpl`: one element per template element, each as
      `CoverSlot` says. */
  predicate CoverMade(m: Measure, tpl: Slide, slide: Slide, title: string, text: string, pool: seq<ImgPoolItem>) {
    && slide.slideType == tpl.slideType
    && |slide.elements| == |tpl.elements|
    && forall i :: 0 <= i < |tpl.elements| ==> CoverSlot(m, tpl.elements[i], slide.elements[i], title, text, pool)
  }

  /** A transition slide made from `tpl` with part number `number`. */
  predicate TransitionMade(m: Measure, tpl: Slide, slide: Slide, title: string, text: string, number: int,
                           pool: seq<ImgPoolItem>) {
    && slide.slideType == tpl.slideType
    && |slide.elements| == |tpl.elements|
    && forall i :: 0 <= i < |tpl.elements| ==>
         TransitionSlot(m, tpl.elements[i], slide.elements[i], title, text, number, pool)
  }

  /** An end slide made from `tpl`. */
  predicate EndMade(tpl: Slide, slide: Slide, pool: seq<ImgPoolItem>) {
    && slide.slideType == tpl.slideType
    && |slide.elements| == |tpl.elements|
    && forall i :: 0 <= i < |tpl.elements| ==> EndSlot(tpl.elements[i], slide.elements[i], pool)
  }

  /** A typed image slot refilled from a pool is refilled from any pool holding it. */
  lemma TypedFillsWider(tpl: Slide, slide: Slide, pool: seq<ImgPoolItem>, wider: seq<ImgPoolItem>)
    requires forall x :: x in pool ==> x in wider
    ensures forall i :: 0 <= i < |tpl.elements| && i < |slide.elements| && IsTypedImage(tpl.elements[i]) ==>
      (FilledFrom(tpl.elements[i], slide.elements[i], pool) ==> FilledFrom(tpl.elements[i], slide.elements[i], wider))
  {
    forall i | 0 <= i < |tpl.elements| && i < |slide.elements| && IsTypedImage(tpl.elements[i])
      ensures FilledFrom(tpl.elements[i], slide.elements[i], pool) ==> FilledFrom(tpl.elements[i], slide.elements[i], wider)
    {
      if FilledFrom(tpl.elements[i], slide.elements[i], pool) {
        FilledFromWider(tpl.elements[i], slide.elements[i], pool, wider);
      }
    }
  }

  /** A cover slide whose refills came from a pool could have come from any pool holding it. */
  lemma CoverMadeWider(m: Measure, tpl: Slide, slide: Slide, title: string, text: string,
                       pool: seq<ImgPoolItem>, wider: seq<ImgPoolItem>)
    requires CoverMade(m, tpl, slide, title, text, pool) && forall x :: x in pool ==> x in wider
    ensures CoverMade(m, tpl, slide, title, text, wider)
  {
    TypedFillsWider(tpl, slide, pool, wider);
  }

  /** So could a transition slide. */
  lemma TransitionMadeWider(m: Measure, tpl: Slide, slide: Slide, title: string, text: string, number: int,
                            pool: seq<ImgPoolItem>, wider: seq<ImgPoolItem>)
    requires TransitionMade(m, tpl, slide, title, text, number, pool) && forall x :: x in pool ==> x in wider
    ensures TransitionMade(m, tpl, slide, title, text, number, wider)
  {
    TypedFillsWider(tpl, slide, pool, wider);
  }

  /** And an end slide. */
  lemma EndMadeWider(tpl: Slide, slide: Slide, pool: seq<ImgPoolItem>, wider: seq<ImgPoolItem>)
    requires EndMade(tpl, slide, pool) && forall x :: x in pool ==> x in wider
    ensures EndMade(tpl, slide, wider)
  {
    TypedFillsWider(tpl, slide, pool, wider);
  }

  /** A cover slide: a random cover template (one random value), every element kept in
      template order, the title and the text written into their slots, typed image slots
      refilled from the pool. */
  function CoverSlide(env: Env, templates: seq<Slide>, title: string, text: string, d: Draw): (r: (Slide, Draw))
    requires |Category(templates, CoverType)| > 0 && PositiveSizes(d.pool)
    requires ImagesSized(Pick(Category(templates, CoverType), env.rand(d.draws)), CoverType)
    ensures var tpl := Pick(Category(templates, CoverType), env.rand(d.draws));
      && r.0.slideType == CoverType
      && CoverMade(env.measure, tpl, r.0, title, text, d.pool)
      && Consumes(Draw(d.pool, d.draws + 1), r.1)
  {
    var tpl := Pick(Category(templates, CoverType), env.rand(d.draws));
    var d1 := Draw(d.pool, d.draws + 1);
    CoverFill(env, tpl, title, text, d1);
    var (els, d2) := FillElements(env, tpl.elements, Plan(tpl.elements, el => CoverAction(el, title, text)), d1);
    (Slide(tpl.slideType, els), d2)
  }

  /** Filling a cover template keeps every slot and fills each as `CoverSlot` says. */
  lemma CoverFill(env: Env, tpl: Slide, title: string, text: string, d: Draw)
    requires TypedSized(tpl) && PositiveSizes(d.pool)
    ensures var acts := Plan(tpl.elements, el => CoverAction(el, title, text));
      && AllApplicable(tpl.elements, acts)
      && var r := FillElements(env, tpl.elements, acts, d);
         && CoverMade(env.measure, tpl, Slide(tpl.slideType, r.0), title, text, d.pool)
         && Consumes(d, r.1)
  {
    var acts := Plan(tpl.elements, el => CoverAction(el, title, text));
    CoverApplicable(tpl, title, text);
    CoverFillBy(env, tpl, title, text, d, acts);
  }

  /** The same, for the cover plan given entry by entry. */
  lemma CoverFillBy(env: Env, tpl: Slide, title: string, text: string, d: Draw, acts: seq<Action>)
    requires AllApplicable(tpl.elements, acts) && PositiveSizes(d.pool)
    requires forall i :: 0 <= i < |acts| ==> acts[i] == CoverAction(tpl.elements[i], title, text)
    ensures var r := FillElements(env, tpl.elements, acts, d);
      && CoverMade(env.measure, tpl, Slide(tpl.slideType, r.0), title, text, d.pool)
      && Consumes(d, r.1)
  {
    NothingDropped(env, tpl.elements, acts, d);
    var els := FillElements(env, tpl.elements, acts, d).0;
    CoverSlots(env.measure, tpl.elements, els, title, text, d.pool);
  }

  /** A transition slide: the given template, every element kept in template order, the
      part number written into every part-number slot; no random value is drawn except
      those the image slots take. */
  function TransitionSlide(env: Env, tpl: Slide, title: string, text: string, number: int, d: Draw): (r: (Slide, Draw))
    requires TypedSized(tpl) && PositiveSizes(d.pool)
    ensures TransitionMade(env.measure, tpl, r.0, title, text, number, d.pool)
    ensures Consumes(d, r.1)
  {
    TransitionFill(env, tpl, title, text, number, d);
    var (els, d1) := FillElements(env, tpl.elements, Plan(tpl.elements, el => TransitionAction(el, title, text, number)), d);
    (Slide(tpl.slideType, els), d1)
  }

  /** Filling a transition template keeps every slot and fills each as `TransitionSlot`
      says. */
  lemma TransitionFill(env: Env, tpl: Slide, title: string, text: string, number: int, d: Draw)
    requires TypedSized(tpl) && PositiveSizes(d.pool)
    ensures var acts := Plan(tpl.elements, el => TransitionAction(el, title, text, number));
      && AllApplicable(tpl.elements, acts)
      && var r := FillElements(env, tpl.elements, acts, d);
         && TransitionMade(env.measure, tpl, Slide(tpl.slideType, r.0), title, text, number, d.pool)
         && Consumes(d, r.1)
  {
    var acts := Plan(tpl.elements, el => TransitionAction(el, title, text, number));
    TransitionApplicable(tpl, title, text, number);
    TransitionFillBy(env, tpl, title, text, number, d, acts);
  }

  /** The same, for the transition plan given entry by entry. */
  lemma TransitionFillBy(env: Env, tpl: Slide, title: string, text: string, number: int, d: Draw, acts: seq<Action>)
    requires AllApplicable(tpl.elements, acts) && PositiveSizes(d.pool)
    requires forall i :: 0 <= i < |acts| ==> acts[i] == TransitionAction(tpl.elements[i], title, text, number)
    ensures var r := FillElements(env, tpl.elements, acts, d);
      && TransitionMade(env.measure, tpl, Slide(tpl.slideType, r.0), title, text, number, d.pool)
      && Consumes(d, r.1)
  {
    NothingDropped(env, tpl.elements, acts, d);
    var els := FillElements(env, tpl.elements, acts, d).0;
    TransitionSlots(env.measure, tpl.elements, els, title, text, number, d.pool);
  }

  /** An end slide: a random end template, every element kept, only typed image slots
      refilled. */
  function EndSlide(env: Env, templates: seq<Slide>, d: Draw): (r: (Slide, Draw))
    requires |Category(templates, EndType)| > 0 && PositiveSizes(d.pool)
    requires ImagesSized(Pick(Category(templates, EndType), env.rand(d.draws)), EndType)
    ensures var tpl := Pick(Category(templates, EndType), env.rand(d.draws));
      && r.0.slideType == EndType
      && EndMade(tpl, r.0, d.pool)
      && Consumes(Draw(d.pool, d.draws + 1), r.1)
  {
    var tpl := Pick(Category(templates, EndType), env.rand(d.draws));
    var d1 := Draw(d.pool, d.draws + 1);
    EndFill(env, tpl, d1);
    var (els, d2) := FillElements(env, tpl.elements, Plan(tpl.elements, EndAction), d1);
    (Slide(tpl.slideType, els), d2)
  }

  /** Filling an end template keeps every slot and refills only typed image slots. */
  lemma EndFill(env: Env, tpl: Slide, d: Draw)
    requires TypedSized(tpl) && PositiveSizes(d.pool)
    ensures var acts := Plan(tpl.elements, EndAction);
      && AllApplicable(tpl.elements, acts)
      && var r := FillElements(env, tpl.elements, acts, d);
         && EndMade(tpl, Slide(tpl.slideType, r.0), d.pool)
         && Consumes(d, r.1)
  {
    var acts := Plan(tpl.elements, EndAction);
    EndApplicable(tpl);
    EndFillBy(env, tpl, d, acts);
  }

  /** The same, for the end plan given entry by entry. */
  lemma EndFillBy(env: Env, tpl: Slide, d: Draw, acts: seq<Action>)
    requires AllApplicable(tpl.elements, acts) && PositiveSizes(d.pool)
    requires forall i :: 0 <= i < |acts| ==> acts[i] == EndAction(tpl.elements[i])
    ensures var r := FillElements(env, tpl.elements, acts, d);
      && EndMade(tpl, Slide(tpl.slideType, r.0), d.pool)
      && Consumes(d, r.1)
  {
    NothingDropped(env, tpl.elements, acts, d);
    var els := FillElements(env, tpl.elements, acts, d).0;
    EndSlots(env.measure, tpl.elements, els, d.pool);
  }
}

=== FILE: slides.dfy ===
/** The data the engine reads and produces: template slides and their elements, the
    AI slide descriptors (src/types/AIPPT.ts) and the image pool items. */
module Slides {
  import opened Common

  /** The `textType` tag a template's text or shape element carries. */
  datatype TextType =
    | Title | Subtitle | Content | Item | ItemTitle | Notes | Header | Footer | PartNumber | ItemNumber

  /** The `imageType` tag a template's image element may carry. */
  datatype ImageType = PageFigure | ItemFigure | Background

  /** Rich-text markup reduced to what the engine reads from it and writes into it:
      `runs` are the text nodes in document order; `fontSize` and `fontFamily` are the
      first `font-size: Npx` and `font-family` declarations; `hasParagraph` says whether
      there is a `<p>` to receive a default size; `leadsWithTag` says whether the markup
      text starts with a tag rather than with the first text run. */
  datatype RichText = RichText(
    runs: seq<string>,
    fontSize: Option<real>,
    fontFamily: Option<string>,
    hasParagraph: bool,
    leadsWithTag: bool)

  /** The markup string is empty (falsy). */
  predicate IsEmptyMarkup(rt: RichText) {
    !rt.leadsWithTag && |rt.runs| == 0
  }

  datatype ShapeText = ShapeText(content: RichText, textType: Option<TextType>)

  /** A crop rectangle in percentages, `[[x0, y0], [x1, y1]]`. */
  datatype CropRange = CropRange(x0: real, y0: real, x1: real, y1: real)

  datatype Clip = Clip(range: CropRange, shape: string)

  datatype Kind =
    | TextKind(content: RichText, textType: Option<TextType>, lineHeight: Option<real>)
    | ShapeKind(text: Option<ShapeText>)
    | ImageKind(src: string, imageType: Option<ImageType>, clip: Option<Clip>)
    | OtherKind(name: string)

  /** A slide element; an empty `groupId` stands for an element outside every group. */
  datatype Element = Element(
    id: string, left: real, top: real, width: real, height: real, groupId: string, kind: Kind)

  datatype SlideType = CoverType | ContentsType | TransitionType | ContentType | EndType | Untyped

  /** A slide (template or generated); background and size metadata are not modelled. */
  datatype Slide = Slide(slideType: SlideType, elements: seq<Element>)

  datatype ImgPoolItem = ImgPoolItem(id: string, src: string, width: real, height: real)

  /** One item of an AI content slide; an empty `table` or `image` stands for an absent one. */
  datatype ContentItem = ContentItem(title: string, text: string, table: string, image: string)

  /** The AI slide descriptors of src/types/AIPPT.ts. */
  datatype AISlide =
    | AICover(title: string, text: string)
    | AIContents(items: seq<string>, offset: Option<int>)
    | AITransition(title: string, text: string)
    | AIContent(title: string, contentItems: seq<ContentItem>, offset: Option<int>)
    | AIEnd

  /** The text type of a text element, or of the text embedded in a shape. */
  function TextTypeOf(el: Element): Option<TextType> {
    match el.kind
    case TextKind(_, t, _) => t
    case ShapeKind(Some(st)) => st.textType
    case _ => None
  }

  /** `checkTextType(el, type)`: a text element of that type, or a shape whose text has it. */
  predicate HasTextType(el: Element, t: TextType) {
    TextTypeOf(el) == Some(t)
  }

  /** The element is a text or a shape (the only kinds whose text is ever replaced). */
  predicate IsTextual(el: Element) {
    el.kind.TextKind? || el.kind.ShapeKind?
  }

  /** The element carries markup: a text element, or a shape with embedded text. */
  predicate HasMarkup(el: Element) {
    el.kind.TextKind? || (el.kind.ShapeKind? && el.kind.text.Some?)
  }

  function MarkupOf(el: Element): RichText
    requires HasMarkup(el)
  {
    if el.kind.TextKind? then el.kind.content else el.kind.text.value.content
  }

  predicate IsImageOfType(el: Element, t: ImageType) {
    el.kind.ImageKind? && el.kind.imageType == Some(t)
  }

  /** Element ids are pairwise distinct. */
  predicate UniqueIds(els: seq<Element>) {
    forall i, j :: 0 <= i < j < |els| ==> els[i].id != els[j].id
  }

  predicate UniquePoolIds(pool: seq<ImgPoolItem>) {
    forall i, j :: 0 <= i < j < |pool| ==> pool[i].id != pool[j].id
  }
}

=== FILE: strings.dfy ===
/** The JavaScript string primitives the engine relies on: `trim`, `includes`,
    `indexOf`, `replace` with a literal pattern, `parseInt` and `n + ''`. */
module Strings {
  import opened Common

  /** WhiteSpace and LineTerminator code points of ECMA-262, which `String.prototype.trim`
      and `parseInt` skip. */
  predicate IsSpace(c: char) {
    || c == ' ' || c == '\t' || c == '\n' || c == '\r' || c == '\U{000B}' || c == '\U{000C}'
    || c == '\U{00A0}' || c == '\U{1680}' || ('\U{2000}' <= c <= '\U{200A}')
    || c == '\U{2028}' || c == '\U{2029}' || c == '\U{202F}' || c == '\U{205F}'
    || c == '\U{3000}' || c == '\U{FEFF}'
  }

  /** Every character of `s` is white space (so `s.trim() === ''`). */
  predicate IsBlank(s: string) {
    forall i :: 0 <= i < |s| ==> IsSpace(s[i])
  }

  lemma BlankJoin(a: string, b: string)
    requires IsBlank(a) && IsBlank(b)
    ensures IsBlank(a + b)
  {
  }

  /** `s` without its leading white space. */
  function TrimStart(s: string): (r: string)
    ensures |r| <= |s| && r == s[|s| - |r|..]
    ensures IsBlank(s[..|s| - |r|])
    ensures |r| > 0 ==> !IsSpace(r[0])
  {
    if |s| > 0 && IsSpace(s[0]) then
      var r := TrimStart(s[1..]);
      TrimStartStep(s, r);
      r
    else s
  }

  /** One step of `TrimStart`: what holds of the rest of `s` holds of `s` once the leading
      white-space character is added back. */
  lemma TrimStartStep(s: string, r: string)
    requires |s| > 0 && IsSpace(s[0])
    requires |r| <= |s| - 1 && r == s[1..][|s| - 1 - |r|..]
    requires IsBlank(s[1..][..|s| - 1 - |r|])
    ensures r == s[|s| - |r|..] && IsBlank(s[..|s| - |r|])
  {
    assert s[1..][|s| - 1 - |r|..] == s[|s| - |r|..];
    assert s[..|s| - |r|] == [s[0]] + s[1..][..|s| - 1 - |r|];
    BlankJoin([s[0]], s[1..][..|s| - 1 - |r|]);
  }

  /** `s` without its trailing white space. */
  function TrimEnd(s: string): (r: string)
    ensures |r| <= |s| && r == s[..|r|]
    ensures IsBlank(s[|r|..])
    ensures |r| > 0 ==> !IsSpace(r[|r| - 1])
  {
    if |s| > 0 && IsSpace(s[|s| - 1]) then
      var r := TrimEnd(s[..|s| - 1]);
      TrimEndStep(s, r);
      r
    else s
  }

  /** One step of `TrimEnd`, the mirror image of `TrimStartStep`. */
  lemma TrimEndStep(s: string, r: string)
    requires |s| > 0 && IsSpace(s[|s| - 1])
    requires |r| <= |s| - 1 && r == s[..|s| - 1][..|r|]
    requires IsBlank(s[..|s| - 1][|r|..])
    ensures r == s[..|r|] && IsBlank(s[|r|..])
  {
    assert s[|r|..] == s[..|s| - 1][|r|..] + [s[|s| - 1]];
    BlankJoin(s[..|s| - 1][|r|..], [s[|s| - 1]]);
  }

  /** JavaScript's `s.trim()`: the middle slice of `s` that neither starts nor ends with
      white space, all removed characters being white space. */
  function Trim(s: string): (r: string)
    ensures |r| <= |s|
    ensures |r| > 0 ==> !IsSpace(r[0]) && !IsSpace(r[|r| - 1])
    ensures r == "" <==> IsBlank(s)
    ensures |s| > 0 && !IsSpace(s[0]) && !IsSpace(s[|s| - 1]) ==> r == s
    ensures forall c :: c in r ==> c in s
  {
    var a := TrimStart(s);
    var r := TrimEnd(a);
    if r == "" then
      assert s == s[..|s| - |a|] + a;
      BlankJoin(s[..|s| - |a|], a);
      r
    else
      assert a[0] == s[|s| - |a|];
      r
  }

  /** The length of the longest run of characters outside `stops` starting at `from`: what
      a regular-expression class `[^...]*` matches there. */
  function RunAvoiding(s: string, from: nat, stops: set<char>): (n: nat)
    requires from <= |s|
    ensures from + n <= |s|
    ensures forall k :: from <= k < from + n ==> s[k] !in stops
    ensures from + n < |s| ==> s[from + n] in stops
    decreases |s| - from
  {
    if from == |s| || s[from] in stops then 0 else 1 + RunAvoiding(s, from + 1, stops)
  }

  /** `sub` occurs in `s` at position `i`. */
  predicate OccursAt(s: string, sub: string, i: int) {
    0 <= i && i + |sub| <= |s| && s[i..i + |sub|] == sub
  }

  /** JavaScript's `s.indexOf(sub)`: the first position where `sub` occurs, or -1. */
  function IndexOf(s: string, sub: string): (r: int)
    ensures r == -1 || OccursAt(s, sub, r)
    ensures r == -1 ==> forall i :: 0 <= i <= |s| - |sub| ==> !OccursAt(s, sub, i)
    ensures r >= 0 ==> forall i :: 0 <= i < r ==> !OccursAt(s, sub, i)
  {
    IndexFrom(s, sub, 0)
  }

  function IndexFrom(s: string, sub: string, k: nat): (r: int)
    requires forall i :: 0 <= i < k ==> !OccursAt(s, sub, i)
    ensures r == -1 || (k <= r && OccursAt(s, sub, r))
    ensures r == -1 ==> forall i :: 0 <= i <= |s| - |sub| ==> !OccursAt(s, sub, i)
    ensures r >= 0 ==> forall i :: 0 <= i < r ==> !OccursAt(s, sub, i)
    decreases |s| - k
  {
    if k + |sub| > |s| then -1
    else if s[k..k + |sub|] == sub then k
    else IndexFrom(s, sub, k + 1)
  }

  /** JavaScript's `s.includes(sub)`. */
  predicate Contains(s: string, sub: string) {
    IndexOf(s, sub) >= 0
  }

  /** JavaScript's `s.replace(pat, rep)` with a literal string pattern: only the first
      occurrence is replaced. */
  function ReplaceFirst(s: string, pat: string, rep: string): (r: string)
    ensures IndexOf(s, pat) == -1 ==> r == s
    ensures IndexOf(s, pat) >= 0 ==>
      var i := IndexOf(s, pat);
      r == s[..i] + rep + s[i + |pat|..]
  {
    var i := IndexOf(s, pat);
    if i < 0 then s else s[..i] + rep + s[i + |pat|..]
  }

  predicate IsDigit(c: char) { '0' <= c <= '9' }

  function DigitValue(c: char): nat
    requires IsDigit(c)
  {
    (c as int) - ('0' as int)
  }

  function DigitChar(d: nat): (c: char)
    requires d < 10
    ensures IsDigit(c) && DigitValue(c) == d
  {
    (('0' as int) + d) as char
  }

  predicate AllDigits(s: string) {
    forall i :: 0 <= i < |s| ==> IsDigit(s[i])
  }

  /** The decimal value of a string of digits. */
  function DigitsValue(s: string): nat
    requires AllDigits(s)
  {
    if |s| == 0 then 0 else DigitsValue(s[..|s| - 1]) * 10 + DigitValue(s[|s| - 1])
  }

  /** The longest prefix of `s` made of digits. */
  function DigitPrefix(s: string): (r: string)
    ensures AllDigits(r) && |r| <= |s| && r == s[..|r|]
    ensures |r| < |s| ==> !IsDigit(s[|r|])
  {
    if |s| > 0 && IsDigit(s[0]) then
      var t := DigitPrefix(s[1..]);
      assert [s[0]] + t == s[..|t| + 1];
      [s[0]] + t
    else ""
  }

  /** The value of `parseInt(s)` (radix 10): leading white space skipped, an optional
      sign, then the longest run of digits; `None` stands for `NaN`. */
  function ParseInt(s: string): Option<int>
  {
    var t := TrimStart(s);
    if |t| > 0 && (t[0] == '-' || t[0] == '+') then
      var d := DigitPrefix(t[1..]);
      if |d| == 0 then None
      else if t[0] == '-' then Some(0 - DigitsValue(d))
      else Some(DigitsValue(d))
    else
      var d := DigitPrefix(t);
      if |d| == 0 then None else Some(DigitsValue(d))
  }

  /** The decimal text of a natural number, without leading zeros. */
  function NatToString(n: nat): (r: string)
    ensures |r| > 0 && AllDigits(r)
    ensures |r| == 1 <==> n < 10
  {
    if n < 10 then [DigitChar(n)] else NatToString(n / 10) + [DigitChar(n % 10)]
  }

  /** JavaScript's `n + ''` for an integer `n`. */
  function IntToString(n: int): (r: string)
    ensures |r| > 0
  {
    if n < 0 then "-" + NatToString(-n) else NatToString(n)
  }

  lemma {:induction false} NatToStringValue(n: nat)
    ensures DigitsValue(NatToString(n)) == n
  {
    if n >= 10 {
      var s := NatToString(n);
      assert s[..|s| - 1] == NatToString(n / 10);
      NatToStringValue(n / 10);
    }
  }

  lemma DigitPrefixOfDigits(s: string)
    requires AllDigits(s)
    ensures DigitPrefix(s) == s
  {
  }

  /** Reading back the text of a number gives the number: `parseInt(n + '') === n`. */
  lemma ParseIntRoundTrip(n: int)
    ensures ParseInt(IntToString(n)) == Some(n)
  {
    if n < 0 {
      var m := NatToString(-n);
      var s := "-" + m;
      assert s[1..] == m;
      TrimStartNoSpace(s);
      DigitPrefixOfDigits(m);
      NatToStringValue(-n);
    } else {
      ParseIntDigits(NatToString(n));
      NatToStringValue(n);
    }
  }

  lemma TrimStartNoSpace(s: string)
    requires |s| > 0 && !IsSpace(s[0])
    ensures TrimStart(s) == s
  {
  }

  /** A non-empty run of digits parses to its decimal value. */
  lemma ParseIntDigits(s: string)
    requires |s| > 0 && AllDigits(s)
    ensures ParseInt(s) == Some(DigitsValue(s))
  {
    assert IsDigit(s[0]);
    TrimStartNoSpace(s);
    DigitPrefixOfDigits(s);
  }

  lemma {:induction false} LeadingZeroValue(s: string)
    requires AllDigits(s)
    ensures AllDigits("0" + s) && DigitsValue("0" + s) == DigitsValue(s)
    decreases |s|
  {
    if |s| > 0 {
      var t := "0" + s;
      assert t[..|t| - 1] == "0" + s[..|s| - 1];
      LeadingZeroValue(s[..|s| - 1]);
    }
  }

  /** A zero-padded number reads back as the number: `parseInt('0' + n) === n`. */
  lemma ParseIntZeroPadded(n: nat)
    ensures ParseInt("0" + NatToString(n)) == Some(n)
  {
    LeadingZeroValue(NatToString(n));
    ParseIntDigits("0" + NatToString(n));
    NatToStringValue(n);
  }

  /** Different integers are written differently. */
  lemma IntToStringInjective(a: int, b: int)
    requires a != b
    ensures IntToString(a) != IntToString(b)
  {
    ParseIntRoundTrip(a);
    ParseIntRoundTrip(b);
  }
}

=== FILE: tablebuilder.dfy ===
/** The table builder `parseHTMLTable` on a tokenised table: the first pass lays the cells
    out in an occupancy matrix, honouring row and column spans, and the second pass turns
    the matrix into a rectangular grid, filling every gap with an empty cell. The layout
    also records, in document order, where each cell landed; the grid is characterised
    in terms of that record. */
module TableBuilder {
  import opened Common
  import opened Strings
  import opened TableStyle

  /** The `colspan`/`rowspan` of a cell are JavaScript numbers: `None` stands for NaN. */
  datatype TableCell = TableCell(colspan: Option<int>, rowspan: Option<int>, text: string, style: CellStyle)

  /** The empty cell written into spanned positions and gaps: span 1, no text, and only the
      default alignment of its column. */
  function FillerCell(col: nat): TableCell {
    TableCell(Some(1), Some(1), "", FillerStyle(col))
  }

  /** The cell built from a source cell that lands in column `col`. */
  function MakeCell(src: CellSource, col: nat, ptToPx: string -> string): TableCell {
    TableCell(Span(src.colspan), Span(src.rowspan), CellText(src), ParseCellStyle(src.style, col, ptToPx))
  }

  /** How a source cell is read once its column is known; the layout depends only on the
      spans of what it returns. */
  type CellReader = (CellSource, nat) -> TableCell

  /** Where one source cell landed, and the cell built for it. */
  datatype Placement = Placement(row: nat, col: nat, cell: TableCell)

  predicate Positive(span: Option<int>) {
    span.Some? && span.value > 0
  }

  /** Only a cell with two positive spans is written into the matrix; the loops that write
      it do not run otherwise (a NaN bound compares false). */
  predicate IsPlaced(p: Placement) {
    Positive(p.cell.rowspan) && Positive(p.cell.colspan)
  }

  /** The rectangle a placed cell spans contains position (r, c). */
  predicate Covers(p: Placement, r: nat, c: nat) {
    && IsPlaced(p)
    && p.row <= r < p.row + p.cell.rowspan.value
    && p.col <= c < p.col + p.cell.colspan.value
  }

  /** Some recorded cell spans position (r, c). */
  predicate Covered(log: seq<Placement>, r: nat, c: nat) {
    exists j :: 0 <= j < |log| && Covers(log[j], r, c)
  }

  /** What the grid holds at (r, c) according to the record: the latest placed cell whose
      origin is (r, c), else an empty cell. */
  function RefCell(log: seq<Placement>, r: nat, c: nat): TableCell {
    if |log| == 0 then FillerCell(c)
    else
      var p := log[|log| - 1];
      if IsPlaced(p) && p.row == r && p.col == c then p.cell else RefCell(log[..|log| - 1], r, c)
  }

  /** The number of rows the recorded spans reach down to. */
  function RowsNeeded(log: seq<Placement>): nat {
    if |log| == 0 then 0
    else
      var p := log[|log| - 1];
      Max(RowsNeeded(log[..|log| - 1]), if Positive(p.cell.rowspan) then p.row + p.cell.rowspan.value else 0)
  }

  /** `maxCols`: the largest `col + colspan` over the record, at least 0; NaN (`None`) as
      soon as one colspan is NaN, since `Math.max` propagates NaN. */
  function ColsNeeded(log: seq<Placement>): Option<int> {
    if |log| == 0 then Some(0)
    else
      var p := log[|log| - 1];
      match (ColsNeeded(log[..|log| - 1]), p.cell.colspan)
      case (Some(m), Some(cs)) => Some(Max(m, p.col + cs))
      case _ => None
  }

  /** The state of the first pass: the occupancy matrix as a partial map (JavaScript's
      sparse rows), its row count, `maxCols`, a column bound of the occupied positions,
      and the record of placements so far. */
  datatype Pass = Pass(occ: map<(nat, nat), TableCell>, nrows: nat, maxCols: Option<int>, extent: nat, log: seq<Placement>)

  ghost predicate KeysBounded(st: Pass) {
    forall r: nat, c: nat :: (r, c) in st.occ ==> r < st.nrows && c < st.extent
  }

  /** The first free column of row `r` at or after `c`. */
  function NextFree(occ: map<(nat, nat), TableCell>, extent: nat, r: nat, c: nat): (n: nat)
    requires forall r': nat, c': nat :: (r', c') in occ ==> c' < extent
    ensures c <= n && (r, n) !in occ
    ensures forall c' :: c <= c' < n ==> (r, c') in occ
    decreases extent - c
  {
    if (r, c) !in occ then c else NextFree(occ, extent, r, c + 1)
  }

  /** The positions a placed cell spans: its own cell at its origin, empty cells elsewhere. */
  function Stamp(occ: map<(nat, nat), TableCell>, p: Placement): (m: map<(nat, nat), TableCell>)
    requires IsPlaced(p)
    ensures forall r: nat, c: nat :: (r, c) in m <==> (r, c) in occ || Covers(p, r, c)
    ensures forall r: nat, c: nat :: Covers(p, r, c) ==>
      m[(r, c)] == if r == p.row && c == p.col then p.cell else FillerCell(c)
    ensures forall r: nat, c: nat :: (r, c) in occ && !Covers(p, r, c) ==> m[(r, c)] == occ[(r, c)]
  {
    occ + Rect(p)
  }

  /** The rectangle a placed cell covers: its own cell at its origin, fillers elsewhere. */
  function Rect(p: Placement): (m: map<(nat, nat), TableCell>)
    requires IsPlaced(p)
    ensures forall r: nat, c: nat :: (r, c) in m <==> Covers(p, r, c)
    ensures forall r: nat, c: nat :: Covers(p, r, c) ==>
      m[(r, c)] == if r == p.row && c == p.col then p.cell else FillerCell(c)
  {
    map r: nat, c: nat | p.row <= r < p.row + p.cell.rowspan.value && p.col <= c < p.col + p.cell.colspan.value
      :: (r, c) := if r == p.row && c == p.col then p.cell else FillerCell(c)
  }

  /** Writing a cell that landed at `p`: the matrix gets its rectangle if both spans are
      positive, the row count grows with a positive rowspan, and `maxCols` with the span. */
  function Place(st: Pass, p: Placement): (res: Pass)
    requires KeysBounded(st) && p.row < st.nrows
    ensures KeysBounded(res) && st.nrows <= res.nrows
    ensures res.log == st.log + [p]
  {
    var cell := p.cell;
    var occ := if IsPlaced(p) then Stamp(st.occ, p) else st.occ;
    var nrows := if Positive(cell.rowspan) then Max(st.nrows, p.row + cell.rowspan.value) else st.nrows;
    var maxCols := match (st.maxCols, cell.colspan)
      case (Some(m), Some(cs)) => Some(Max(m, p.col + cs))
      case _ => None;
    var extent := if IsPlaced(p) then Max(st.extent, p.col + cell.colspan.value) else st.extent;
    assert forall r': nat, c': nat :: (r', c') in occ ==> r' < nrows && c' < extent by {
      if IsPlaced(p) {
        forall r': nat, c': nat | (r', c') in occ ensures r' < nrows && c' < extent {
          if !Covers(p, r', c') {
            assert (r', c') in st.occ;
          }
        }
      }
    }
    Pass(occ, nrows, maxCols, extent, st.log + [p])
  }

  /** One cell of row `r`, with the column cursor at `colIndex`: the cursor moves to the
      first free column and the cell is built for that column and written there. Returns
      the new state and the new cursor. */
  function PlaceCell(st: Pass, r: nat, colIndex: nat, src: CellSource, mk: CellReader): (res: (Pass, nat))
    requires KeysBounded(st) && r < st.nrows
    ensures KeysBounded(res.0) && r < res.0.nrows
    ensures res.0 == Place(st, Placement(r, res.1, mk(src, res.1)))
    ensures colIndex <= res.1 && (r, res.1) !in st.occ
    ensures forall c :: colIndex <= c < res.1 ==> (r, c) in st.occ
  {
    var col := NextFree(st.occ, st.extent, r, colIndex);
    (Place(st, Placement(r, col, mk(src, col))), col)
  }

  /** The cells of row `r`, in document order. */
  function PlaceCells(st: Pass, r: nat, colIndex: nat, cells: seq<CellSource>, mk: CellReader): (res: Pass)
    requires KeysBounded(st) && r < st.nrows
    ensures KeysBounded(res) && r < res.nrows
    decreases |cells|
  {
    if |cells| == 0 then st
    else
      var (st', col) := PlaceCell(st, r, colIndex, cells[0], mk);
      PlaceCells(st', r, col, cells[1..], mk)
  }

  /** Rows `i..` of the table; the matrix gets a row for each before its cells are placed. */
  function PlaceRows(st: Pass, rows: seq<seq<CellSource>>, i: nat, mk: CellReader): (res: Pass)
    requires KeysBounded(st) && i <= |rows|
    ensures KeysBounded(res)
    decreases |rows| - i
  {
    if i == |rows| then st
    else
      var entered := st.(nrows := Max(st.nrows, i + 1));
      PlaceRows(PlaceCells(entered, i, 0, rows[i], mk), rows, i + 1, mk)
  }

  /** The first pass over all rows. */
  function Layout(rows: seq<seq<CellSource>>, mk: CellReader): Pass {
    PlaceRows(Pass(map[], 0, Some(0), 0, []), rows, 0, mk)
  }

  /** Every occupied position is spanned by a recorded cell, and every spanned one is
      occupied. */
  ghost predicate KeysCovered(st: Pass) {
    forall r: nat, c: nat :: (r, c) in st.occ <==> Covered(st.log, r, c)
  }

  /** Every occupied position holds what the record says it holds. */
  ghost predicate ValuesRef(st: Pass) {
    forall r: nat, c: nat :: (r, c) in st.occ ==> st.occ[(r, c)] == RefCell(st.log, r, c)
  }

  /** Every recorded cell landed in a row before `r`, or in row `r` at or before `col`. */
  predicate Cursor(log: seq<Placement>, r: nat, col: nat) {
    forall j :: 0 <= j < |log| ==> log[j].row < r || (log[j].row == r && log[j].col <= col)
  }

  /** No cell landed on a position an earlier cell spans. */
  predicate OriginsFree(log: seq<Placement>) {
    forall i, j :: 0 <= i < j < |log| ==> !Covers(log[i], log[j].row, log[j].col)
  }

  /** Cells land row by row, and left to right within a row. */
  predicate Ordered(log: seq<Placement>) {
    forall i, j :: 0 <= i < j < |log| ==>
      log[i].row < log[j].row || (log[i].row == log[j].row && log[i].col <= log[j].col)
  }

  /** The invariant of the first pass, apart from the cursor and the row count. */
  ghost predicate Shape(st: Pass) {
    && KeysBounded(st) && KeysCovered(st) && ValuesRef(st)
    && OriginsFree(st.log) && Ordered(st.log)
    && st.maxCols == ColsNeeded(st.log)
  }

  /** The invariant while the cursor is at column `col` of row `r`. */
  ghost predicate InRow(st: Pass, r: nat, col: nat) {
    Shape(st) && Cursor(st.log, r, col) && st.nrows == Max(r + 1, RowsNeeded(st.log))
  }

  /** The invariant before row `i` is entered. */
  ghost predicate BeforeRow(st: Pass, i: nat) {
    Shape(st) && Cursor(st.log, i, 0) && st.nrows == Max(i, RowsNeeded(st.log))
  }

  lemma CoveredAppend(log: seq<Placement>, p: Placement, r: nat, c: nat)
    ensures Covered(log + [p], r, c) <==> Covered(log, r, c) || Covers(p, r, c)
  {
    if Covered(log, r, c) {
      var j :| 0 <= j < |log| && Covers(log[j], r, c);
      assert (log + [p])[j] == log[j];
    }
    if Covers(p, r, c) {
      assert (log + [p])[|log|] == p;
    }
    if Covered(log + [p], r, c) {
      var j :| 0 <= j < |log + [p]| && Covers((log + [p])[j], r, c);
      if j < |log| {
        assert (log + [p])[j] == log[j];
      }
    }
  }

  /** With no recorded origin at (r, c), the record says the position is empty. */
  lemma {:induction false} NoOriginFiller(log: seq<Placement>, r: nat, c: nat)
    requires forall j :: 0 <= j < |log| && IsPlaced(log[j]) ==> log[j].row != r || log[j].col != c
    ensures RefCell(log, r, c) == FillerCell(c)
    decreases |log|
  {
    if |log| > 0 {
      var init := log[..|log| - 1];
      assert forall j :: 0 <= j < |init| ==> init[j] == log[j];
      NoOriginFiller(init, r, c);
    }
  }

  lemma PlaceKeysCovered(st: Pass, p: Placement)
    requires KeysBounded(st) && p.row < st.nrows && KeysCovered(st)
    ensures KeysCovered(Place(st, p))
  {
    var res := Place(st, p);
    forall r: nat, c: nat ensures (r, c) in res.occ <==> Covered(res.log, r, c) {
      CoveredAppend(st.log, p, r, c);
    }
  }

  lemma PlaceValuesRef(st: Pass, p: Placement, colIndex: nat)
    requires KeysBounded(st) && p.row < st.nrows && ValuesRef(st)
    requires Cursor(st.log, p.row, colIndex) && colIndex <= p.col
    ensures ValuesRef(Place(st, p))
  {
    var res := Place(st, p);
    var log := st.log + [p];
    assert log[..|st.log|] == st.log;
    forall r: nat, c: nat | (r, c) in res.occ ensures res.occ[(r, c)] == RefCell(log, r, c) {
      if IsPlaced(p) && Covers(p, r, c) {
        if r != p.row || c != p.col {
          forall j | 0 <= j < |st.log| && IsPlaced(st.log[j]) ensures st.log[j].row != r || st.log[j].col != c {
          }
          NoOriginFiller(st.log, r, c);
        }
      }
    }
  }

  lemma PlaceOrder(st: Pass, p: Placement, colIndex: nat)
    requires KeysBounded(st) && p.row < st.nrows && KeysCovered(st)
    requires OriginsFree(st.log) && Ordered(st.log)
    requires Cursor(st.log, p.row, colIndex) && colIndex <= p.col && (p.row, p.col) !in st.occ
    ensures OriginsFree(st.log + [p]) && Ordered(st.log + [p]) && Cursor(st.log + [p], p.row, p.col)
  {
    var log := st.log + [p];
    assert !Covered(st.log, p.row, p.col);
    forall i, j | 0 <= i < j < |log| ensures !Covers(log[i], log[j].row, log[j].col) {
      if j < |st.log| {
        assert log[i] == st.log[i] && log[j] == st.log[j];
      } else {
        assert log[i] == st.log[i] && log[j] == p;
      }
    }
  }

  lemma PlaceCounts(st: Pass, p: Placement)
    requires KeysBounded(st) && p.row < st.nrows
    ensures var res := Place(st, p);
      && (st.maxCols == ColsNeeded(st.log) ==> res.maxCols == ColsNeeded(res.log))
      && (forall n: nat :: st.nrows == Max(n, RowsNeeded(st.log)) ==> res.nrows == Max(n, RowsNeeded(res.log)))
  {
    var log := st.log + [p];
    assert log[..|st.log|] == st.log;
  }

  /** Placing a cell at the first free column keeps the invariant of the row. */
  lemma PlaceKeepsInRow(st: Pass, r: nat, colIndex: nat, p: Placement)
    requires InRow(st, r, colIndex) && p.row == r && colIndex <= p.col && (r, p.col) !in st.occ
    ensures InRow(Place(st, p), r, p.col)
  {
    PlaceKeysCovered(st, p);
    PlaceValuesRef(st, p, colIndex);
    PlaceOrder(st, p, colIndex);
    PlaceCounts(st, p);
  }

  /** The record a run over `cells` appends: one placement per cell, in order, in row `r`,
      each holding the cell built for the column it landed in. */
  ghost predicate Records(before: seq<Placement>, after: seq<Placement>, cells: seq<CellSource>, mk: CellReader) {
    && |after| == |before| + |cells|
    && after[..|before|] == before
    && forall k :: 0 <= k < |cells| ==>
         after[|before| + k].cell == mk(cells[k], after[|before| + k].col)
  }

  lemma {:induction false} PlaceCellsInv(st: Pass, r: nat, colIndex: nat, cells: seq<CellSource>, mk: CellReader)
    requires InRow(st, r, colIndex)
    ensures var res := PlaceCells(st, r, colIndex, cells, mk);
      Shape(res) && Cursor(res.log, r + 1, 0) && res.nrows == Max(r + 1, RowsNeeded(res.log))
    decreases |cells|
  {
    if |cells| > 0 {
      var (st', col) := PlaceCell(st, r, colIndex, cells[0], mk);
      PlaceKeepsInRow(st, r, colIndex, Placement(r, col, mk(cells[0], col)));
      PlaceCellsInv(st', r, col, cells[1..], mk);
    }
  }

  lemma {:induction false} PlaceCellsRecords(st: Pass, r: nat, colIndex: nat, cells: seq<CellSource>, mk: CellReader)
    requires KeysBounded(st) && r < st.nrows
    ensures Records(st.log, PlaceCells(st, r, colIndex, cells, mk).log, cells, mk)
    decreases |cells|
  {
    if |cells| == 0 {
      assert st.log[..|st.log|] == st.log;
    } else {
      var (st', col) := PlaceCell(st, r, colIndex, cells[0], mk);
      PlaceCellsRecords(st', r, col, cells[1..], mk);
      var res := PlaceCells(st', r, col, cells[1..], mk);
      assert st'.log == st.log + [Placement(r, col, mk(cells[0], col))];
      assert Records(st.log, st'.log, [cells[0]], mk);
      assert [cells[0]] + cells[1..] == cells;
      RecordsCompose(st.log, st'.log, res.log, [cells[0]], cells[1..], mk);
    }
  }

  lemma FlattenCons<T>(x: seq<T>, rest: seq<seq<T>>)
    ensures Flatten([x] + rest) == x + Flatten(rest)
  {
    FlattenAppend([x], rest);
    assert [x][..0] == [];
  }

  lemma {:induction false} PlaceRowsShape(st: Pass, rows: seq<seq<CellSource>>, i: nat, mk: CellReader)
    requires i <= |rows| && BeforeRow(st, i)
    ensures BeforeRow(PlaceRows(st, rows, i, mk), |rows|)
    decreases |rows| - i
  {
    if i < |rows| {
      var entered := st.(nrows := Max(st.nrows, i + 1));
      EnterRow(st, i);
      PlaceCellsInv(entered, i, 0, rows[i], mk);
      PlaceRowsShape(PlaceCells(entered, i, 0, rows[i], mk), rows, i + 1, mk);
    }
  }

  /** Entering row `i` (the row count grows to include it) starts the row's invariant. */
  lemma EnterRow(st: Pass, i: nat)
    requires BeforeRow(st, i)
    ensures InRow(st.(nrows := Max(st.nrows, i + 1)), i, 0)
  {
  }

  lemma {:induction false} PlaceRowsRecords(st: Pass, rows: seq<seq<CellSource>>, i: nat, mk: CellReader)
    requires i <= |rows| && KeysBounded(st)
    ensures Records(st.log, PlaceRows(st, rows, i, mk).log, Flatten(rows[i..]), mk)
    decreases |rows| - i
  {
    if i == |rows| {
      assert rows[i..] == [];
      assert st.log[..|st.log|] == st.log;
    } else {
      var entered := st.(nrows := Max(st.nrows, i + 1));
      var mid := PlaceCells(entered, i, 0, rows[i], mk);
      PlaceCellsRecords(entered, i, 0, rows[i], mk);
      PlaceRowsRecords(mid, rows, i + 1, mk);
      var res := PlaceRows(mid, rows, i + 1, mk);
      assert Flatten(rows[i..]) == rows[i] + Flatten(rows[i + 1..]) by {
        assert rows[i..] == [rows[i]] + rows[i + 1..];
        FlattenCons(rows[i], rows[i + 1..]);
      }
      RecordsCompose(st.log, mid.log, res.log, rows[i], Flatten(rows[i + 1..]), mk);
    }
  }

  lemma RecordsCompose(a: seq<Placement>, b: seq<Placement>, c: seq<Placement>, xs: seq<CellSource>, ys: seq<CellSource>, mk: CellReader)
    requires Records(a, b, xs, mk) && Records(b, c, ys, mk)
    ensures Records(a, c, xs + ys, mk)
  {
    assert c[..|a|] == b[..|a|];
    forall k | 0 <= k < |xs + ys| ensures c[|a| + k].cell == mk((xs + ys)[k], c[|a| + k].col) {
      if k < |xs| {
        assert c[|a| + k] == b[|a| + k];
      } else {
        assert c[|a| + k] == c[|b| + (k - |xs|)];
      }
    }
  }

  /** The first pass keeps its invariant, ends with a row for every table row (or more,
      where rowspans reach further), and records one placement per source cell, in
      document order. */
  lemma LayoutInv(rows: seq<seq<CellSource>>, mk: CellReader)
    ensures var st := Layout(rows, mk);
      && Shape(st)
      && st.nrows == Max(|rows|, RowsNeeded(st.log))
      && |st.log| == |Flatten(rows)|
      && forall j :: 0 <= j < |st.log| ==> st.log[j].cell == mk(Flatten(rows)[j], st.log[j].col)
  {
    var init := Pass(map[], 0, Some(0), 0, []);
    assert BeforeRow(init, 0);
    PlaceRowsShape(init, rows, 0, mk);
    PlaceRowsRecords(init, rows, 0, mk);
    assert rows[0..] == rows;
    var st := Layout(rows, mk);
    forall j | 0 <= j < |st.log| ensures st.log[j].cell == mk(Flatten(rows)[j], st.log[j].col) {
      assert st.log[0 + j] == st.log[j];
    }
  }

  /** Every recorded cell's origin lies inside its own rectangle. */
  lemma OriginCovered(p: Placement)
    requires IsPlaced(p)
    ensures Covers(p, p.row, p.col)
  {
  }

  /** A position no recorded cell spans holds no recorded origin either. */
  lemma UncoveredNoOrigin(log: seq<Placement>, r: nat, c: nat)
    requires !Covered(log, r, c)
    ensures RefCell(log, r, c) == FillerCell(c)
  {
    forall j | 0 <= j < |log| && IsPlaced(log[j]) ensures log[j].row != r || log[j].col != c {
      OriginCovered(log[j]);
    }
    NoOriginFiller(log, r, c);
  }

  /** A placed cell is never overwritten: the record's value at its origin is the cell. */
  lemma {:induction false} OriginSurvives(log: seq<Placement>, j: nat)
    requires OriginsFree(log) && j < |log| && IsPlaced(log[j])
    ensures RefCell(log, log[j].row, log[j].col) == log[j].cell
    decreases |log|
  {
    var last := |log| - 1;
    if j < last {
      OriginCovered(log[j]);
      assert !Covers(log[j], log[last].row, log[last].col);
      var init := log[..last];
      assert forall a, b :: 0 <= a < b < |init| ==> init[a] == log[a] && init[b] == log[b];
      OriginSurvives(init, j);
    }
  }

  /** Every cell with a positive rowspan is within the rows counted. */
  lemma {:induction false} RowsNeededBound(log: seq<Placement>, j: nat)
    requires j < |log| && Positive(log[j].cell.rowspan)
    ensures log[j].row + log[j].cell.rowspan.value <= RowsNeeded(log)
    decreases |log|
  {
    if j < |log| - 1 {
      RowsNeededBound(log[..|log| - 1], j);
    }
  }

  /** `maxCols` is NaN exactly when some cell's colspan is NaN; otherwise it is at least
      0 and at least every cell's `col + colspan`. */
  lemma {:induction false} ColsNeededFacts(log: seq<Placement>)
    ensures ColsNeeded(log).None? <==> exists j :: 0 <= j < |log| && log[j].cell.colspan.None?
    ensures ColsNeeded(log).Some? ==> ColsNeeded(log).value >= 0
    ensures ColsNeeded(log).Some? ==>
      forall j :: 0 <= j < |log| ==> log[j].col + log[j].cell.colspan.value <= ColsNeeded(log).value
    decreases |log|
  {
    if |log| > 0 {
      var init := log[..|log| - 1];
      ColsNeededFacts(init);
      assert forall j :: 0 <= j < |init| ==> init[j] == log[j];
      if ColsNeeded(init).None? {
        var j :| 0 <= j < |init| && init[j].cell.colspan.None?;
        assert log[j].cell.colspan.None?;
      }
    }
  }

  /** The matrix read as a grid of `nrows` rows of `m` cells; a position nothing was
      written to becomes an empty cell. */
  function Grid(occ: map<(nat, nat), TableCell>, nrows: nat, m: nat): (g: seq<seq<TableCell>>)
    ensures |g| == nrows && forall r :: 0 <= r < nrows ==> |g[r]| == m
    ensures forall r: nat, c: nat :: r < nrows && c < m ==>
      g[r][c] == if (r, c) in occ then occ[(r, c)] else FillerCell(c)
  {
    seq(nrows, r requires 0 <= r < nrows => seq(m, c requires 0 <= c < m => CellAt(occ, r, c)))
  }

  function CellAt(occ: map<(nat, nat), TableCell>, r: nat, c: nat): TableCell {
    if (r, c) in occ then occ[(r, c)] else FillerCell(c)
  }

  /** The grid of a pass that keeps the invariant is exactly what the record says. */
  lemma GridIsRecord(st: Pass, m: nat)
    requires Shape(st)
    ensures var g := Grid(st.occ, st.nrows, m);
      forall r: nat, c: nat :: r < st.nrows && c < m ==> g[r][c] == RefCell(st.log, r, c)
  {
    forall r: nat, c: nat | r < st.nrows && c < m && (r, c) !in st.occ
      ensures RefCell(st.log, r, c) == FillerCell(c)
    {
      UncoveredNoOrigin(st.log, r, c);
    }
  }

  /** JavaScript truthiness of an optional string. */
  predicate Truthy(o: Option<string>) {
    o.Some? && o.value != ""
  }

  /** A header-looking cell: a background, bold text, or a colour other than the body
      text colour. */
  predicate Emphasised(cell: TableCell) {
    || Truthy(cell.style.backcolor)
    || cell.style.bold == Some(true)
    || (Truthy(cell.style.color) && cell.style.color.value != "rgb(51, 51, 51)")
  }

  /** `cell.text.trim() !== ''`: the text is not all white space (`Strings.Trim` is empty
      exactly on blank text). */
  predicate HasContent(cell: TableCell) {
    !IsBlank(cell.text)
  }

  /** The first row is a column header when one of its non-empty cells is emphasised. */
  function ColHeader(data: seq<seq<TableCell>>): (b: bool)
    ensures b <==> |data| > 0 && exists i :: 0 <= i < |data[0]| && HasContent(data[0][i]) && Emphasised(data[0][i])
  {
    if |data| > 0 && |data[0]| > 0 then
      var contentCells := Filter(data[0], HasContent);
      var b := exists c :: c in contentCells && Emphasised(c);
      assert b ==> exists i :: 0 <= i < |data[0]| && HasContent(data[0][i]) && Emphasised(data[0][i]) by {
        if b {
          var c :| c in contentCells && Emphasised(c);
          assert c in data[0];
        }
      }
      assert (exists i :: 0 <= i < |data[0]| && HasContent(data[0][i]) && Emphasised(data[0][i])) ==> b by {
        if exists i :: 0 <= i < |data[0]| && HasContent(data[0][i]) && Emphasised(data[0][i]) {
          var i :| 0 <= i < |data[0]| && HasContent(data[0][i]) && Emphasised(data[0][i]);
          assert data[0][i] in contentCells;
        }
      }
      b
    else false
  }

  /** The first cell of every non-empty row. */
  function FirstColumn(data: seq<seq<TableCell>>): (col: seq<TableCell>)
    ensures |col| <= |data|
    ensures forall c :: c in col ==> exists r :: 0 <= r < |data| && |data[r]| > 0 && data[r][0] == c
  {
    if |data| == 0 then []
    else
      var init := FirstColumn(data[..|data| - 1]);
      var last := data[|data| - 1];
      assert forall r :: 0 <= r < |data| - 1 ==> data[..|data| - 1][r] == data[r];
      if |last| > 0 then init + [last[0]] else init
  }

  /** Every non-empty row gives its first cell to the first column. */
  lemma {:induction false} InFirstColumn(data: seq<seq<TableCell>>, r: int)
    requires 0 <= r < |data| && |data[r]| > 0
    ensures data[r][0] in FirstColumn(data)
    decreases |data|
  {
    var n := |data| - 1;
    if r < n {
      assert data[..n][r] == data[r];
      InFirstColumn(data[..n], r);
    }
  }

  lemma AddOne(s: set<int>, n: int)
    requires n !in s
    ensures |s + {n}| == |s| + 1
  {
  }

  /** The rows whose first cell exists and has content. */
  function ContentRows(data: seq<seq<TableCell>>): set<int> {
    set r | 0 <= r < |data| && LeadsWithContent(data[r])
  }

  predicate LeadsWithContent(row: seq<TableCell>) {
    |row| > 0 && HasContent(row[0])
  }

  /** The non-empty cells of the first column are one per row of `ContentRows`. */
  lemma {:induction false} FirstColumnContent(data: seq<seq<TableCell>>)
    ensures |Filter(FirstColumn(data), HasContent)| == |ContentRows(data)|
    decreases |data|
  {
    if |data| > 0 {
      var n := |data| - 1;
      var init := data[..n];
      FirstColumnContent(init);
      CellsCountLast(data);
      RowsCountLast(data);
    } else {
      assert ContentRows(data) == {};
    }
  }

  lemma CellsCountLast(data: seq<seq<TableCell>>)
    requires |data| > 0
    ensures var n := |data| - 1;
      |Filter(FirstColumn(data), HasContent)|
        == |Filter(FirstColumn(data[..n]), HasContent)| + (if LeadsWithContent(data[n]) then 1 else 0)
  {
    FirstColumnLast(data);
  }

  lemma RowsCountLast(data: seq<seq<TableCell>>)
    requires |data| > 0
    ensures var n := |data| - 1;
      |ContentRows(data)| == |ContentRows(data[..n])| + (if LeadsWithContent(data[n]) then 1 else 0)
  {
    var n := |data| - 1;
    ContentRowsLast(data);
    if LeadsWithContent(data[n]) {
      AddOne(ContentRows(data[..n]), n);
    }
  }

  /** Filtering the first column of a table adds the last row's first cell when it has content. */
  lemma FirstColumnLast(data: seq<seq<TableCell>>)
    requires |data| > 0
    ensures var last := data[|data| - 1];
      Filter(FirstColumn(data), HasContent)
        == Filter(FirstColumn(data[..|data| - 1]), HasContent)
           + (if LeadsWithContent(last) then [last[0]] else [])
  {
    var last := data[|data| - 1];
    var head := if |last| > 0 then [last[0]] else [];
    assert FirstColumn(data) == FirstColumn(data[..|data| - 1]) + head;
    FilterAppend(FirstColumn(data[..|data| - 1]), head, HasContent);
    if |last| > 0 {
      FilterSingle(last[0], HasContent);
    } else {
      assert Filter(head, HasContent) == [];
    }
  }

  /** `ContentRows` of a table adds the last row when its first cell has content. */
  lemma ContentRowsLast(data: seq<seq<TableCell>>)
    requires |data| > 0
    ensures var n := |data| - 1;
      && n !in ContentRows(data[..n])
      && ContentRows(data) == ContentRows(data[..n]) + (if LeadsWithContent(data[n]) then {n} else {})
  {
    var n := |data| - 1;
    var init := data[..n];
    var more := if LeadsWithContent(data[n]) then {n} else {};
    forall r | r in ContentRows(data) ensures r in ContentRows(init) + more {
      if r < n {
        assert init[r] == data[r];
        assert r in ContentRows(init);
      } else {
        assert r == n && r in more;
      }
    }
    forall r | r in ContentRows(init) ensures r in ContentRows(data) {
      assert init[r] == data[r];
    }
  }

  /** An emphasised non-empty cell of the first column is an emphasised cell of a row of
      `ContentRows`, and back. */
  lemma EmphasisedContent(data: seq<seq<TableCell>>)
    ensures (exists c :: c in Filter(FirstColumn(data), HasContent) && Emphasised(c))
        <==> (exists r :: r in ContentRows(data) && Emphasised(data[r][0]))
  {
    var cells := Filter(FirstColumn(data), HasContent);
    if c :| c in cells && Emphasised(c) {
      var r := RowOfCell(data, c);
      assert r in ContentRows(data) && Emphasised(data[r][0]);
    }
    if r :| r in ContentRows(data) && Emphasised(data[r][0]) {
      InFirstColumn(data, r);
      var c := data[r][0];
      assert c in cells && Emphasised(c);
    }
  }

  /** A non-empty cell of the first column is the first cell of a row of `ContentRows`. */
  lemma RowOfCell(data: seq<seq<TableCell>>, c: TableCell) returns (r: int)
    requires c in Filter(FirstColumn(data), HasContent)
    ensures r in ContentRows(data) && data[r][0] == c
  {
    assert c in FirstColumn(data) && HasContent(c);
    r :| 0 <= r < |data| && |data[r]| > 0 && data[r][0] == c;
    assert LeadsWithContent(data[r]);
  }

  /** The first column is a row header when the table has two rows or more, at least two of
      the first column's cells are non-empty, and one of them is emphasised. */
  function RowHeader(data: seq<seq<TableCell>>): bool {
    if |data| > 1 then
      var cells := Filter(FirstColumn(data), HasContent);
      |cells| > 1 && exists c :: c in cells && Emphasised(c)
    else false
  }

  /** A row header is exactly: two rows or more, at least two rows whose first cell has
      content, and one of those cells emphasised. */
  lemma RowHeaderMeans(data: seq<seq<TableCell>>)
    ensures RowHeader(data) <==>
      && |data| > 1
      && |ContentRows(data)| > 1
      && exists r :: r in ContentRows(data) && Emphasised(data[r][0])
  {
    FirstColumnContent(data);
    EmphasisedContent(data);
  }

  datatype Outline = Outline(width: Option<int>, style: string, color: string)

  /** The border of the table, read from the first cell of the first source row, with the
      defaults 1, `solid` and `#cccccc` for what that cell does not declare (or when there
      is no such cell). The width is `parseInt` of the declaration: `None` is NaN. */
  function OutlineOf(rows: seq<seq<CellSource>>): (o: Outline)
    ensures |rows| == 0 || |rows[0]| == 0 ==> o == Outline(Some(1), "solid", "#cccccc")
    ensures |rows| > 0 && |rows[0]| > 0 && StyleValue(rows[0][0].style, "border-width").None? ==> o.width == Some(1)
    ensures |rows| > 0 && |rows[0]| > 0 && StyleValue(rows[0][0].style, "border-style").None? ==> o.style == "solid"
    ensures |rows| > 0 && |rows[0]| > 0 && StyleValue(rows[0][0].style, "border-color").None? ==> o.color == "#cccccc"
  {
    if |rows| > 0 && |rows[0]| > 0 then
      var style := rows[0][0].style;
      var width := match StyleValue(style, "border-width")
        case None => Some(1)
        case Some(v) => ParseInt(v);
      var color := match StyleValue(style, "border-color")
        case None => "#cccccc"
        case Some(v) => CleanColor(v);
      Outline(width, Declared(style, "border-style").GetOr("solid"), color)
    else Outline(Some(1), "solid", "#cccccc")
  }

  /** The theme colour: the `--themeColor` custom property of the table's style (its value
      stops at `;` or `)`), else white. */
  function ThemeColor(tableStyle: string): string {
    match PropFrom(tableStyle, "--themecolor", {';', ')'}, 0)
    case None => "rgb(255, 255, 255)"
    case Some(v) => CleanColor(v)
  }

  /** `--themeColor` decides the theme colour at its first occurrence, in any letter case;
      a style without it gives white. */
  lemma ThemeColorDeclared(tableStyle: string)
    ensures (forall i: nat :: PropAt(tableStyle, i, "--themecolor", {';', ')'}).None?) ==>
      ThemeColor(tableStyle) == "rgb(255, 255, 255)"
    ensures forall i: nat ::
      PropAt(tableStyle, i, "--themecolor", {';', ')'}).Some? &&
      (forall j: nat :: j < i ==> PropAt(tableStyle, j, "--themecolor", {';', ')'}).None?) ==>
      ThemeColor(tableStyle) == CleanColor(PropAt(tableStyle, i, "--themecolor", {';', ')'}).value)
  {
    forall i: nat | PropAt(tableStyle, i, "--themecolor", {';', ')'}).Some? &&
      (forall j: nat :: j < i ==> PropAt(tableStyle, j, "--themecolor", {';', ')'}).None?)
      ensures ThemeColor(tableStyle) == CleanColor(PropAt(tableStyle, i, "--themecolor", {';', ')'}).value)
    {
      PropFromLeftmost(tableStyle, "--themecolor", {';', ')'}, 0, i);
    }
  }

  const RowHeight: int := 36

  datatype TableTheme = TableTheme(color: string, rowHeader: bool, rowFooter: bool, colHeader: bool, colFooter: bool)

  /** The table element; its id is not modelled. */
  datatype TableElement = TableElement(
    width: int, height: int, colWidths: seq<real>, rotate: int, data: seq<seq<TableCell>>,
    left: int, top: int, outline: Outline, theme: TableTheme, cellMinHeight: int)

  /** A tokenised `<table>`: its `style` attribute and its rows of `td`/`th` cells. */
  datatype TableSource = TableSource(style: string, rows: seq<seq<CellSource>>)

  /** How the builder reads a cell once its column is known. */
  function Reader(ptToPx: string -> string): CellReader {
    (src: CellSource, col: nat) => MakeCell(src, col, ptToPx)
  }

  /** `Math.max(500, Math.min(900, maxCols * 100))`. */
  function EstimatedWidth(m: int): (w: int)
    ensures 500 <= w <= 900
    ensures 500 <= m * 100 <= 900 ==> w == m * 100
    ensures m * 100 <= 500 ==> w == 500
    ensures 900 <= m * 100 ==> w == 900
  {
    Max(500, Min(900, m * 100))
  }

  /** The element built from a finished pass whose column count is `m`. */
  function Assemble(st: Pass, m: nat, nsource: nat, tableStyle: string, outline: Outline): (t: TableElement)
    requires Shape(st) && nsource <= st.nrows
    ensures |t.data| == st.nrows
    ensures forall row :: row in t.data ==> |row| == m
    ensures forall i: nat, c: nat :: i < |t.data| && c < m ==> t.data[i][c] == RefCell(st.log, i, c)
    ensures |t.colWidths| == m && forall i :: 0 <= i < m ==> t.colWidths[i] == 1.0 / m as real
    ensures t.width == EstimatedWidth(m) && t.height == |t.data| * RowHeight
    ensures t.theme.color == ThemeColor(tableStyle)
    ensures t.theme.colHeader == ColHeader(t.data) && t.theme.rowHeader == RowHeader(t.data)
    ensures !t.theme.rowFooter && !t.theme.colFooter && t.outline == outline
  {
    var data := Grid(st.occ, st.nrows, m);
    GridIsRecord(st, m);
    var colWidths := seq(m, i requires 0 <= i < m => 1.0 / m as real);
    var height := Max(|data| * RowHeight, nsource * RowHeight);
    var theme := TableTheme(ThemeColor(tableStyle), RowHeader(data), false, ColHeader(data), false);
    TableElement(EstimatedWidth(m), height, colWidths, 0, data, 100, 150, outline, theme, RowHeight)
  }

  /** `parseHTMLTable` (src/hooks/useAIPPT.ts): no table, no rows, or a NaN colspan (whose
      `Array(NaN)` throws inside the `try`) give `None`; otherwise the rectangular grid the
      record describes, with its derived sizes, header flags, border and theme. */
  function ParseTable(src: Option<TableSource>, ptToPx: string -> string): (r: Option<TableElement>)
    ensures r.Some? <==> src.Some? && |src.value.rows| > 0 && ColsNeeded(Layout(src.value.rows, Reader(ptToPx)).log).Some?
  {
    if src.None? || |src.value.rows| == 0 then None
    else
      var rows := src.value.rows;
      var st := Layout(rows, Reader(ptToPx));
      LayoutInv(rows, Reader(ptToPx));
      ColsNeededFacts(st.log);
      match st.maxCols
      case None => None
      case Some(m) =>
        Some(Assemble(st, m as nat, |rows|, src.value.style, OutlineOf(rows)))
  }

  /** A parsed table is the rectangular grid the layout record describes: as many rows
      as the source or the spans need, as many columns as the spans need, each position
      holding the cell whose rectangle covers it. */
  lemma ParseTableGrid(src: TableSource, ptToPx: string -> string)
    requires ParseTable(Some(src), ptToPx).Some?
    ensures var st := Layout(src.rows, Reader(ptToPx));
      var m := ColsNeeded(st.log).value;
      var t := ParseTable(Some(src), ptToPx).value;
      && |t.data| == Max(|src.rows|, RowsNeeded(st.log))
      && (forall row :: row in t.data ==> |row| == m)
      && (forall i: nat, c: nat :: i < |t.data| && c < m ==> t.data[i][c] == RefCell(st.log, i, c))
  {
    var st := Layout(src.rows, Reader(ptToPx));
    LayoutInv(src.rows, Reader(ptToPx));
    assert st.maxCols == ColsNeeded(st.log);
  }

  /** A parsed table's derived sizes: equal column widths summing to the whole, a width
      of 100 per column clamped to 500..900, a row height per row, the theme colour of the
      table's style, the header flags read from the grid, no footers, and the border of
      the first cell. */
  lemma ParseTableSizes(src: TableSource, ptToPx: string -> string)
    requires ParseTable(Some(src), ptToPx).Some?
    ensures var st := Layout(src.rows, Reader(ptToPx));
      var m := ColsNeeded(st.log).value;
      var t := ParseTable(Some(src), ptToPx).value;
      && |t.colWidths| == m && (forall i :: 0 <= i < m ==> t.colWidths[i] == 1.0 / m as real)
      && t.width == EstimatedWidth(m)
      && t.theme.color == ThemeColor(src.style)
      && t.height == |t.data| * RowHeight
      && t.theme.colHeader == ColHeader(t.data) && t.theme.rowHeader == RowHeader(t.data)
      && !t.theme.rowFooter && !t.theme.colFooter
      && t.outline == OutlineOf(src.rows)
  {
    var st := Layout(src.rows, Reader(ptToPx));
    LayoutInv(src.rows, Reader(ptToPx));
    assert st.maxCols == ColsNeeded(st.log);
  }

  /** Every source cell with two positive spans appears in the table at the position the
      layout gave it, read from its own attributes, text and style at that column. */
  lemma SourceCellLands(src: TableSource, ptToPx: string -> string, j: nat)
    requires ParseTable(Some(src), ptToPx).Some?
    requires j < |Flatten(src.rows)|
    requires Positive(Span(Flatten(src.rows)[j].colspan)) && Positive(Span(Flatten(src.rows)[j].rowspan))
    ensures j < |Layout(src.rows, Reader(ptToPx)).log|
    ensures var p := Layout(src.rows, Reader(ptToPx)).log[j];
      var t := ParseTable(Some(src), ptToPx).value;
      && p.row < |t.data| && p.col < |t.data[p.row]|
      && t.data[p.row][p.col] == MakeCell(Flatten(src.rows)[j], p.col, ptToPx)
  {
    var st := Layout(src.rows, Reader(ptToPx));
    var t := ParseTable(Some(src), ptToPx).value;
    LayoutInv(src.rows, Reader(ptToPx));
    ParseTableGrid(src, ptToPx);
    LogCellInGrid(st.log, j, t.data, ColsNeeded(st.log).value);
  }

  /** A grid that reads every position from the record shows each placed cell at its
      origin. */
  lemma LogCellInGrid(log: seq<Placement>, j: nat, data: seq<seq<TableCell>>, m: int)
    requires OriginsFree(log) && j < |log| && IsPlaced(log[j])
    requires ColsNeeded(log) == Some(m) && RowsNeeded(log) <= |data|
    requires forall row :: row in data ==> |row| == m
    requires forall i: nat, c: nat :: i < |data| && c < m ==> data[i][c] == RefCell(log, i, c)
    ensures log[j].row < |data| && log[j].col < |data[log[j].row]|
    ensures data[log[j].row][log[j].col] == log[j].cell
  {
    var p := log[j];
    ColsNeededFacts(log);
    RowsNeededBound(log, j);
    assert data[p.row] in data;
    OriginSurvives(log, j);
  }

  /** One cell whose colspan does not parse as a number makes the whole table fail. */
  lemma NaNColspanFails(src: TableSource, ptToPx: string -> string, j: nat)
    requires j < |Flatten(src.rows)| && Span(Flatten(src.rows)[j].colspan).None?
    ensures ParseTable(Some(src), ptToPx).None?
  {
    var st := Layout(src.rows, Reader(ptToPx));
    LayoutInv(src.rows, Reader(ptToPx));
    ColsNeededFacts(st.log);
    assert st.log[j].cell.colspan.None?;
  }
}

=== FILE: tablestyle.dfy ===
/** Reading one table cell of `parseHTMLTable`: the inline-style regular expressions, the
    colour clean-up, the cell style and the cell text. The HTML is taken as already
    tokenised: a cell arrives as its attribute values and text contents. */
module TableStyle {
  import opened Common
  import opened Strings

  /** ASCII lower-casing, the only case folding the style expressions' `i` flag performs on
      the ASCII property names they look for. */
  function LowerAscii(c: char): char {
    if 'A' <= c <= 'Z' then (c as int + 32) as char else c
  }

  /** `word` contains no upper-case ASCII letter. */
  predicate IsLowerWord(word: string) {
    forall k :: 0 <= k < |word| ==> LowerAscii(word[k]) == word[k]
  }

  /** `word` occurs at `i`, ignoring ASCII case. */
  predicate MatchesAt(s: string, i: nat, word: string) {
    i + |word| <= |s| && forall k :: 0 <= k < |word| ==> LowerAscii(s[i + k]) == word[k]
  }

  /** What `\s*(...+)` captures of a non-empty run: the run less its leading white space;
      when the run is all white space the greedy `\s*` gives back its last character. */
  function Group(run: string): (g: string)
    requires |run| > 0
    ensures |g| > 0 && forall c :: c in g ==> c in run
  {
    var t := TrimStart(run);
    if |t| > 0 then
      SuffixMembers(run, |run| - |t|);
      t
    else
      SuffixMembers(run, |run| - 1);
      run[|run| - 1..]
  }

  /** Trimmed, the group is the trimmed run: the white space it keeps or gives back never
      survives a trim. */
  lemma GroupTrim(run: string)
    requires |run| > 0
    ensures Trim(Group(run)) == Trim(run)
  {
    var t := TrimStart(run);
    if |t| > 0 {
      TrimStartKeepsTrim(run);
    } else {
      BlankTrim(run);
      BlankTrim(run[|run| - 1..]);
    }
  }

  /** The group `\s*([^stops]+)` captures at `from`: the `Group` of the longest run of
      characters outside `stops`, or `None` when that run is empty. */
  function Capture(s: string, from: nat, stops: set<char>): (r: Option<string>)
    requires from <= |s|
    ensures r.None? <==> from == |s| || s[from] in stops
    ensures r.Some? ==> |r.value| > 0 && forall c :: c in r.value ==> c !in stops
  {
    var n := RunAvoiding(s, from, stops);
    if n == 0 then None
    else
      var run := s[from..from + n];
      assert forall c :: c in run ==> c !in stops;
      Some(Group(run))
  }

  lemma SuffixMembers(s: string, i: nat)
    requires i <= |s|
    ensures forall c :: c in s[i..] ==> c in s
  {
    assert forall k :: i <= k < |s| ==> s[i..][k - i] == s[k];
  }

  lemma TrimStartKeepsTrim(s: string)
    ensures Trim(TrimStart(s)) == Trim(s)
  {
  }

  lemma BlankTrim(s: string)
    requires IsBlank(s)
    ensures Trim(s) == ""
  {
  }

  /** `prop:\s*([^stops]+)` matches at `i`. */
  function PropAt(s: string, i: nat, prop: string, stops: set<char>): Option<string> {
    if MatchesAt(s, i, prop + ":") then Capture(s, i + |prop| + 1, stops) else None
  }

  /** The leftmost match at or after `k` of `prop:\s*([^stops]+)`. */
  function PropFrom(s: string, prop: string, stops: set<char>, k: nat): (r: Option<string>)
    ensures r.Some? ==> exists i :: k <= i && PropAt(s, i, prop, stops) == r
    ensures r.None? ==> forall i :: k <= i ==> PropAt(s, i, prop, stops).None?
    decreases |s| - k
  {
    if k > |s| then None
    else if PropAt(s, k, prop, stops).Some? then PropAt(s, k, prop, stops)
    else PropFrom(s, prop, stops, k + 1)
  }

  /** The search returns the leftmost match: the first position at or after `k` where
      the expression matches decides the value. */
  lemma {:induction false} PropFromLeftmost(s: string, prop: string, stops: set<char>, k: nat, i: nat)
    requires k <= i && PropAt(s, i, prop, stops).Some?
    requires forall j :: k <= j < i ==> PropAt(s, j, prop, stops).None?
    ensures PropFrom(s, prop, stops, k) == PropAt(s, i, prop, stops)
    decreases i - k
  {
    if k > |s| {
      assert false;
    } else if k < i {
      assert PropAt(s, k, prop, stops).None?;
      PropFromLeftmost(s, prop, stops, k + 1, i);
      assert PropFrom(s, prop, stops, k) == PropFrom(s, prop, stops, k + 1);
    } else {
      assert PropFrom(s, prop, stops, k) == PropAt(s, k, prop, stops);
      assert k == i;
    }
  }

  /** The group of `/prop:\s*([^;]+)/i` on an inline style, if it matches. */
  function StyleValue(style: string, prop: string): Option<string> {
    PropFrom(style, prop, {';'}, 0)
  }

  /** The trimmed value of the first declaration of `prop`, as every reader of a
      declaration trims it. */
  function Declared(style: string, prop: string): Option<string> {
    match StyleValue(style, prop)
    case None => None
    case Some(v) => Some(Trim(v))
  }

  /** What the property expressions capture never holds the semicolon that ends them. */
  lemma StyleValueNoSemicolon(style: string, prop: string)
    ensures StyleValue(style, prop).Some? ==> ';' !in StyleValue(style, prop).value
  {
    var r := StyleValue(style, prop);
    if r.Some? {
      var i :| 0 <= i && PropAt(style, i, prop, {';'}) == r;
    }
  }

  /** Where `color:` would start after the white space following `q`. */
  function SkipSpaces(s: string, q: nat): (w: nat)
    requires q <= |s|
    ensures q <= w <= |s|
    ensures forall k :: q <= k < w ==> IsSpace(s[k])
    ensures w < |s| ==> !IsSpace(s[w])
    decreases |s| - q
  {
    if q < |s| && IsSpace(s[q]) then SkipSpaces(s, q + 1) else q
  }

  /** `\s*color:\s*([^;]+)` at `q`. */
  function ColorAfter(s: string, q: nat): Option<string>
    requires q <= |s|
  {
    var w := SkipSpaces(s, q);
    PropAt(s, w, "color", {';'})
  }

  /** `(?:^|;)\s*color:\s*([^;]+)` at `p`: either the start of the style or a semicolon
      introduces the declaration. */
  function ColorAt(s: string, p: nat): Option<string> {
    var a := if p == 0 then ColorAfter(s, 0) else None;
    if a.Some? then a
    else if p < |s| && s[p] == ';' then ColorAfter(s, p + 1)
    else None
  }

  function ColorFrom(s: string, k: nat): (r: Option<string>)
    ensures r.Some? ==> exists p :: k <= p && ColorAt(s, p) == r
    ensures r.None? ==> forall p :: k <= p ==> ColorAt(s, p).None?
    decreases |s| - k
  {
    if k > |s| then None
    else if ColorAt(s, k).Some? then ColorAt(s, k)
    else ColorFrom(s, k + 1)
  }

  /** The group of `/(?:^|;)\s*color:\s*([^;]+)/i`: only a `color` declaration of its own,
      never the tail of `background-color` or `border-color`. */
  function StyleColor(style: string): Option<string> {
    ColorFrom(style, 0)
  }

  /** The trimmed value of the first stand-alone `color` declaration. */
  function DeclaredColor(style: string): Option<string> {
    match StyleColor(style)
    case None => None
    case Some(v) => Some(Trim(v))
  }

  lemma StyleColorNoSemicolon(style: string)
    ensures StyleColor(style).Some? ==> ';' !in StyleColor(style).value
  {
    var r := StyleColor(style);
    if r.Some? {
      var p :| 0 <= p && ColorAt(style, p) == r;
      var a := if p == 0 then ColorAfter(style, 0) else None;
      if a.Some? {
        var w := SkipSpaces(style, 0);
        assert PropAt(style, w, "color", {';'}) == r;
      } else {
        var w := SkipSpaces(style, p + 1);
        assert PropAt(style, w, "color", {';'}) == r;
      }
    }
  }

  /** Every run of two or more semicolons collapsed into one. */
  function CollapseSemicolons(s: string): (r: string)
    ensures ';' !in s ==> r == s
  {
    if |s| < 2 then s
    else if s[0] == ';' && s[1] == ';' then CollapseSemicolons(s[1..])
    else [s[0]] + CollapseSemicolons(s[1..])
  }

  /** `cleanColorValue`: runs of semicolons collapsed, the first literal ";$" removed,
      surrounding white space trimmed. */
  function CleanColor(s: string): string {
    Trim(ReplaceFirst(CollapseSemicolons(s), ";$", ""))
  }

  /** On the values the expressions capture, which never contain a semicolon, the clean-up
      only trims. */
  lemma CleanColorOfCapture(s: string)
    requires ';' !in s
    ensures CleanColor(s) == Trim(s)
  {
    NoSemicolonNoMarker(s);
  }

  lemma NoSemicolonNoMarker(s: string)
    requires ';' !in s
    ensures IndexOf(s, ";$") == -1
  {
    forall j | 0 <= j <= |s| - 2 ensures !OccursAt(s, ";$", j) {
      assert s[j] in s;
      assert s[j..j + 2][0] == s[j];
    }
  }

  /** What `font-size` becomes: the trimmed value, or its conversion when in points. The
      conversion (`Math.round(parseFloat(v) * 1.33) + 'px'`) is floating-point arithmetic
      and is the parameter `ptToPx`. */
  function FontSize(v: string, ptToPx: string -> string): string {
    var t := Trim(v);
    if Contains(t, "pt") then ptToPx(ReplaceFirst(t, "pt", "")) else t
  }

  /** Every quote character removed. */
  function StripQuotes(s: string): (r: string)
    ensures |r| <= |s|
    ensures forall c :: c in r <==> c in s && c != '\'' && c != '"'
  {
    if |s| == 0 then []
    else if s[0] == '\'' || s[0] == '"' then StripQuotes(s[1..])
    else [s[0]] + StripQuotes(s[1..])
  }

  /** The names the source maps to their Latin font names; other names are kept. */
  function FontName(family: string): string {
    if family == "黑体" then "SimHei"
    else if family == "微软雅黑" then "Microsoft YaHei"
    else if family == "宋体" then "SimSun"
    else if family == "楷体" then "KaiTi"
    else family
  }

  /** A weight is bold when it is `bold` or parses to at least 600. */
  predicate IsBoldWeight(w: string) {
    w == "bold" || (ParseInt(w).Some? && ParseInt(w).value >= 600)
  }

  /** The style of a table cell. Flags the source only ever sets to true (`em`,
      `underline`, `strikethrough`) are `false` when unset. */
  datatype CellStyle = CellStyle(
    backcolor: Option<string>,
    color: Option<string>,
    fontsize: Option<string>,
    fontname: Option<string>,
    bold: Option<bool>,
    em: bool,
    underline: bool,
    strikethrough: bool,
    align: string)

  /** The alignment a cell gets without a `text-align` declaration. */
  function DefaultAlign(col: int): string {
    if col == 0 then "left" else "center"
  }

  /** The style of every filler cell: only the default alignment. */
  function FillerStyle(col: int): CellStyle {
    CellStyle(None, None, None, None, None, false, false, false, DefaultAlign(col))
  }

  /** A background colour is kept unless blank or one of the two transparent spellings. */
  function Backcolor(style: string): Option<string> {
    match StyleValue(style, "background-color")
    case None => None
    case Some(v) =>
      var c := CleanColor(v);
      if c != "" && c != "transparent" && c != "rgba(0, 0, 0, 0)" then Some(c) else None
  }

  function TextColor(style: string): Option<string> {
    match StyleColor(style)
    case None => None
    case Some(v) =>
      var c := CleanColor(v);
      if c != "" && c != "transparent" then Some(c) else None
  }

  /** The style read from a cell's inline `style` attribute; `col` is the column the cell
      lands in. `CellColors`, `CellFont` and `CellDecoration` state what each field is. */
  function ParseCellStyle(style: string, col: nat, ptToPx: string -> string): (r: CellStyle)
    ensures r.backcolor.Some? ==> r.backcolor.value !in {"", "transparent", "rgba(0, 0, 0, 0)"}
    ensures r.color.Some? ==> r.color.value !in {"", "transparent"}
    ensures Declared(style, "text-align").None? ==> r.align == DefaultAlign(col)
  {
    var fontsize := match StyleValue(style, "font-size")
      case None => None
      case Some(v) => Some(FontSize(v, ptToPx));
    var fontname := match Declared(style, "font-family")
      case None => None
      case Some(v) => Some(FontName(StripQuotes(v)));
    var bold := match Declared(style, "font-weight")
      case None => None
      case Some(v) => Some(IsBoldWeight(v));
    var em := Declared(style, "font-style") == Some("italic");
    var decoration := Declared(style, "text-decoration").GetOr("");
    var align := Declared(style, "text-align").GetOr(DefaultAlign(col));
    CellStyle(Backcolor(style), TextColor(style), fontsize, fontname, bold, em,
              Contains(decoration, "underline"), Contains(decoration, "line-through"), align)
  }

  /** The colours are the trimmed first declarations, dropped when blank or transparent. */
  lemma CellColors(style: string, col: nat, ptToPx: string -> string)
    ensures var r := ParseCellStyle(style, col, ptToPx);
      && (r.backcolor.Some? <==>
            Declared(style, "background-color").Some?
            && Declared(style, "background-color").value !in {"", "transparent", "rgba(0, 0, 0, 0)"})
      && (r.backcolor.Some? ==> r.backcolor == Declared(style, "background-color"))
      && (r.color.Some? <==> DeclaredColor(style).Some? && DeclaredColor(style).value !in {"", "transparent"})
      && (r.color.Some? ==> r.color == DeclaredColor(style))
  {
    ColorsOnlyTrimmed(style);
  }

  /** The font fields: the size as declared unless in points, the family unquoted and
      mapped, and the weight bold exactly when `bold` or a number of at least 600. */
  lemma CellFont(style: string, col: nat, ptToPx: string -> string)
    ensures var r := ParseCellStyle(style, col, ptToPx);
      && (r.fontsize.Some? <==> Declared(style, "font-size").Some?)
      && (Declared(style, "font-size").Some? && !Contains(Declared(style, "font-size").value, "pt") ==>
            r.fontsize == Declared(style, "font-size"))
      && (r.fontname.Some? <==> Declared(style, "font-family").Some?)
      && (r.fontname.Some? ==> r.fontname.value == FontName(StripQuotes(Declared(style, "font-family").value)))
      && (r.bold.Some? <==> Declared(style, "font-weight").Some?)
      && (Declared(style, "font-weight") == Some("bold") ==> r.bold == Some(true))
    ensures var r := ParseCellStyle(style, col, ptToPx);
      forall n: int {:trigger IntToString(n)} ::
        Declared(style, "font-weight") == Some(IntToString(n)) ==> r.bold == Some(n >= 600)
  {
    var v := StyleValue(style, "font-size");
    if v.Some? {
      assert Declared(style, "font-size") == Some(Trim(v.value));
    }
    NumericWeights();
  }

  /** Italic, underline, strike-through and alignment follow their declarations. */
  lemma CellDecoration(style: string, col: nat, ptToPx: string -> string)
    ensures var r := ParseCellStyle(style, col, ptToPx);
      && (r.em <==> Declared(style, "font-style") == Some("italic"))
      && (r.underline <==>
            Declared(style, "text-decoration").Some? && Contains(Declared(style, "text-decoration").value, "underline"))
      && (r.strikethrough <==>
            Declared(style, "text-decoration").Some? && Contains(Declared(style, "text-decoration").value, "line-through"))
      && (Declared(style, "text-align").Some? ==> r.align == Declared(style, "text-align").value)
  {
    if Declared(style, "text-decoration").None? {
      assert !Contains("", "underline") && !Contains("", "line-through");
    }
  }

  /** The clean-up of both captured colours is a trim. */
  lemma ColorsOnlyTrimmed(style: string)
    ensures StyleValue(style, "background-color").Some? ==>
      CleanColor(StyleValue(style, "background-color").value) == Trim(StyleValue(style, "background-color").value)
    ensures StyleColor(style).Some? ==> CleanColor(StyleColor(style).value) == Trim(StyleColor(style).value)
  {
    StyleValueNoSemicolon(style, "background-color");
    if StyleValue(style, "background-color").Some? {
      CleanColorOfCapture(StyleValue(style, "background-color").value);
    }
    StyleColorNoSemicolon(style);
    if StyleColor(style).Some? {
      CleanColorOfCapture(StyleColor(style).value);
    }
  }

  /** A cell as the tokeniser delivers it: attribute values (`""` when absent), its trimmed
      or untrimmed text and the text of a nested `.cell-text` element, if any. */
  datatype CellSource = CellSource(
    colspan: string,
    rowspan: string,
    dataValue: string,
    textContent: string,
    cellTextDiv: Option<string>,
    style: string)

  /** The text of a cell: its `data-value`, else its trimmed text, else the trimmed text of
      its nested `.cell-text` element, else empty. */
  function CellText(src: CellSource): (r: string)
    ensures src.dataValue != "" ==> r == src.dataValue
    ensures src.dataValue == "" && !IsBlank(src.textContent) ==> r == Trim(src.textContent)
    ensures src.dataValue == "" && IsBlank(src.textContent) ==>
      r == (if src.cellTextDiv.Some? then Trim(src.cellTextDiv.value) else "")
  {
    var t := if src.dataValue != "" then src.dataValue else Trim(src.textContent);
    if t == "" && src.cellTextDiv.Some? then Trim(src.cellTextDiv.value) else t
  }

  /** `parseInt(attr || '1')`: a missing or empty span is 1; `None` stands for NaN. */
  function Span(attr: string): Option<int> {
    ParseInt(if attr == "" then "1" else attr)
  }

  /** The first declaration of a property is the one read, whatever follows it. */
  lemma FirstDeclarationWins(prop: string, v: string, rest: string)
    requires IsLowerWord(prop) && ';' !in v && |v| > 0
    ensures Declared(prop + ":" + v + ";" + rest, prop) == Some(Trim(v))
  {
    var s := prop + ":" + v + ";" + rest;
    DeclarationMatches(prop, v, rest);
    DeclarationCaptures(prop, v, rest);
    assert StyleValue(s, prop) == Some(Group(v));
    GroupTrim(v);
  }

  lemma DeclarationMatches(prop: string, v: string, rest: string)
    requires IsLowerWord(prop)
    ensures var s := prop + ":" + v + ";" + rest;
      PropAt(s, 0, prop, {';'}) == Capture(s, |prop| + 1, {';'})
  {
    DeclarationLayout(prop, v, rest);
    PropAtCapture(prop + ":" + v + ";" + rest, 0, prop, {';'});
  }

  lemma DeclarationCaptures(prop: string, v: string, rest: string)
    requires IsLowerWord(prop) && ';' !in v && |v| > 0
    ensures Capture(prop + ":" + v + ";" + rest, |prop| + 1, {';'}) == Some(Group(v))
  {
    var s := prop + ":" + v + ";" + rest;
    DeclarationLayout(prop, v, rest);
    CaptureOfValue(s, |prop| + 1, v, {';'});
  }

  lemma DeclarationLayout(prop: string, v: string, rest: string)
    requires IsLowerWord(prop)
    ensures var s := prop + ":" + v + ";" + rest;
      && MatchesAt(s, 0, prop + ":")
      && s[|prop| + 1..|prop| + 1 + |v|] == v
      && s[|prop| + 1 + |v|] == ';'
  {
    var s := prop + ":" + v + ";" + rest;
    forall k | 0 <= k < |prop + ":"| ensures LowerAscii(s[k]) == (prop + ":")[k] {
      assert s[k] == (prop + ":")[k];
    }
  }

  lemma PropAtCapture(s: string, i: nat, prop: string, stops: set<char>)
    requires MatchesAt(s, i, prop + ":")
    ensures i + |prop| + 1 <= |s|
    ensures PropAt(s, i, prop, stops) == Capture(s, i + |prop| + 1, stops)
  {
  }

  /** The capture at `from` of a run `v` that a stop character ends is the group of `v`. */
  lemma {:induction false} CaptureOfValue(s: string, from: nat, v: string, stops: set<char>)
    requires |v| > 0 && forall c :: c in v ==> c !in stops
    requires from + |v| < |s| && s[from..from + |v|] == v && s[from + |v|] in stops
    ensures Capture(s, from, stops) == Some(Group(v))
  {
    assert RunAvoiding(s, from, stops) == |v| by {
      forall k | from <= k < from + |v| ensures s[k] !in stops {
        assert s[k] == v[k - from];
      }
      RunAvoidingExact(s, from, |v|, stops);
    }
    CaptureRun(s, from, stops, |v|);
  }

  /** A capture over a known non-empty run is the group of that run. */
  lemma {:induction false} CaptureRun(s: string, from: nat, stops: set<char>, n: nat)
    requires from <= |s| && RunAvoiding(s, from, stops) == n > 0
    ensures from + n <= |s| && Capture(s, from, stops) == Some(Group(s[from..from + n]))
  {
  }

  lemma {:induction false} RunAvoidingExact(s: string, from: nat, n: nat, stops: set<char>)
    requires from + n < |s| && s[from + n] in stops
    requires forall k :: from <= k < from + n ==> s[k] !in stops
    ensures RunAvoiding(s, from, stops) == n
    decreases n
  {
    if n > 0 {
      RunAvoidingExact(s, from + 1, n - 1, stops);
    }
  }

  lemma NumericWeights()
    ensures forall n: int :: IsBoldWeight(IntToString(n)) <==> n >= 600
  {
    forall n: int ensures IsBoldWeight(IntToString(n)) <==> n >= 600 {
      NumericWeight(n);
    }
  }

  /** Numeric weights: at least 600 is bold, below is not. */
  lemma NumericWeight(n: int)
    ensures IsBoldWeight(IntToString(n)) <==> n >= 600
  {
    ParseIntRoundTrip(n);
    assert IntToString(n) != "bold" by {
      if n < 0 {
        assert IntToString(n)[0] == '-';
      } else {
        assert AllDigits(IntToString(n));
        assert IsDigit(IntToString(n)[0]);
      }
    }
  }
}

=== FILE: templateselector.dfy ===
/** The template selector (`getUseableTemplates`): among the templates of one category,
    the ones whose number of slots of a role best fits the number of items to place. */
module TemplateSelector {
  import opened Common
  import opened Slides

  /** The number of elements of `slide` whose text type is `t`. */
  function RoleCount(slide: Slide, t: TextType): nat {
    |Filter(slide.elements, el => HasTextType(el, t))|
  }

  /** A template with no slot of role `t` but exactly one title and one content slot. */
  predicate IsMinimal(slide: Slide, t: TextType) {
    RoleCount(slide, t) == 0 && RoleCount(slide, Title) == 1 && RoleCount(slide, Content) == 1
  }

  /** The count the selection settles on: the smallest count at or above `n` when some
      template reaches `n`, otherwise the largest count there is. */
  ghost predicate IsWinningCount(ts: seq<Slide>, n: int, t: TextType, c: nat) {
    && (exists s :: s in ts && RoleCount(s, t) == c)
    && if exists s :: s in ts && RoleCount(s, t) >= n then
         c >= n && forall s :: s in ts && RoleCount(s, t) >= n ==> c <= RoleCount(s, t)
       else
         forall s :: s in ts ==> RoleCount(s, t) <= c
  }

  /** `list.reduce((closest, current) => (currentLen - n) <= (closestLen - n) ? current : closest)`:
      a template of least count, the last one among equals. */
  function Closest(list: seq<Slide>, n: int, t: TextType): (r: Slide)
    requires |list| > 0
    ensures r in list
    ensures forall s :: s in list ==> RoleCount(r, t) <= RoleCount(s, t)
  {
    if |list| == 1 then list[0]
    else
      var closest := Closest(list[..|list| - 1], n, t);
      var current := list[|list| - 1];
      assert list == list[..|list| - 1] + [current];
      if RoleCount(current, t) - n <= RoleCount(closest, t) - n then current else closest
  }

  /** The last element of `templates` sorted by ascending count: a template of greatest count. */
  function Largest(ts: seq<Slide>, t: TextType): (r: Slide)
    requires |ts| > 0
    ensures r in ts
    ensures forall s :: s in ts ==> RoleCount(s, t) <= RoleCount(r, t)
  {
    if |ts| == 1 then ts[0]
    else
      var best := Largest(ts[..|ts| - 1], t);
      var last := ts[|ts| - 1];
      assert ts == ts[..|ts| - 1] + [last];
      if RoleCount(last, t) >= RoleCount(best, t) then last else best
  }

  /** The count of the template the general rule settles on. */
  function TargetCount(ts: seq<Slide>, n: int, t: TextType): (c: nat)
    requires |ts| > 0
    ensures IsWinningCount(ts, n, t, c)
  {
    var list := Filter(ts, s => RoleCount(s, t) >= n);
    if |list| == 0 then
      var target := Largest(ts, t);
      assert forall s :: s in ts ==> RoleCount(s, t) < n by {
        forall s | s in ts ensures RoleCount(s, t) < n { assert s !in list; }
      }
      RoleCount(target, t)
    else
      var target := Closest(list, n, t);
      assert target in list;
      RoleCount(target, t)
  }

  /** The general rule: every template whose count is the target count, in order. */
  function BestFit(ts: seq<Slide>, n: int, t: TextType): (r: seq<Slide>)
    requires |ts| > 0
    ensures |r| > 0
    ensures IsWinningCount(ts, n, t, RoleCount(r[0], t))
    ensures forall s :: s in r <==> s in ts && RoleCount(s, t) == RoleCount(r[0], t)
  {
    var c := TargetCount(ts, n, t);
    var r := Filter(ts, s => RoleCount(s, t) == c);
    var w :| w in ts && RoleCount(w, t) == c;
    assert w in r;
    assert r[0] in r;
    r
  }

  /** `getUseableTemplates(templates, n, type)` (src/hooks/useAIPPT.ts): the minimal
      templates when one item is placed and some exist, otherwise every template whose
      count is the winning count. */
  function UseableTemplates(ts: seq<Slide>, n: int, t: TextType): (r: seq<Slide>)
    ensures |r| > 0 <==> |ts| > 0
    ensures forall s :: s in r ==> s in ts
    ensures n == 1 && (exists s :: s in ts && IsMinimal(s, t)) ==>
      forall s :: s in r <==> s in ts && IsMinimal(s, t)
    ensures !(n == 1 && exists s :: s in ts && IsMinimal(s, t)) && |r| > 0 ==>
      && IsWinningCount(ts, n, t, RoleCount(r[0], t))
      && forall s :: s in r <==> s in ts && RoleCount(s, t) == RoleCount(r[0], t)
  {
    var minimal := Filter(ts, s => IsMinimal(s, t));
    if n == 1 && |minimal| > 0 then
      assert minimal[0] in minimal;
      minimal
    else if |ts| == 0 then []
    else
      assert n == 1 ==> |minimal| == 0;
      BestFit(ts, n, t)
  }
}

=== FILE: textfitter.dfy ===
/** The text fitter: the font-size search of `getAdaptedFontsize`, the font defaults of
    `getFontInfo` and the text replacement of `getNewTextElement`. Text measurement (a
    canvas in the browser) is the parameter `m`. */
module TextFitter {
  import opened Common
  import opened Strings
  import opened Slides

  const MinFontSize: real := 10.0
  const DefaultFontSize: real := 16.0
  const DefaultFontFamily: string := "Microsoft Yahei"
  /** Horizontal padding of a text box, subtracted twice (plus 2px of border) from its width. */
  const Padding: real := 10.0
  /** Line height given to text elements whose fitted size is below `DenseBelow`. */
  const DenseLineHeight: real := 1.2
  const DenseBelow: real := 15.0

  /** Text measurement: the pixel width of a text at a font size in a font family. */
  type Measure = (string, real, string) -> real

  function Ceil(x: real): (c: int)
    ensures x <= c as real < x + 1.0
  {
    -((-x).Floor)
  }

  /** `Math.ceil(textWidth / width) <= maxLine` in IEEE arithmetic: over a zero width the
      quotient is infinite (or NaN for a zero text width) and fits only when negative. */
  predicate FitsLines(textWidth: real, width: real, maxLine: int) {
    if width == 0.0 then textWidth < 0.0 else Ceil(textWidth / width) <= maxLine
  }

  predicate FitsAt(m: Measure, text: string, family: string, size: real, width: real, maxLine: int) {
    FitsLines(m(text, size, family), width, maxLine)
  }

  /** The next size tried: 2px smaller above 22px, 1px smaller at or below. */
  function NextSize(size: real): real {
    if size <= 22.0 then size - 1.0 else size - 2.0
  }

  /** The sizes the search tries, largest first, down to the last one not below the floor. */
  function Tried(start: real): seq<real>
    decreases start.Floor
  {
    if start < MinFontSize then [] else [start] + Tried(NextSize(start))
  }

  /** Every tried size lies between the floor and the starting size. */
  lemma {:induction false} TriedBounds(start: real)
    ensures forall s :: s in Tried(start) ==> MinFontSize <= s <= start
    decreases start.Floor
  {
    if start >= MinFontSize {
      TriedBounds(NextSize(start));
    }
  }

  /** The tried sizes strictly decrease. */
  lemma {:induction false} TriedDecreasing(start: real)
    ensures forall i, j :: 0 <= i < j < |Tried(start)| ==> Tried(start)[i] > Tried(start)[j]
    decreases start.Floor
  {
    if start >= MinFontSize {
      var rest := Tried(NextSize(start));
      TriedDecreasing(NextSize(start));
      TriedBounds(NextSize(start));
      assert Tried(start) == [start] + rest;
      forall i, j | 0 <= i < j < |Tried(start)| ensures Tried(start)[i] > Tried(start)[j] {
        if i > 0 {
          assert Tried(start)[i] == rest[i - 1] && Tried(start)[j] == rest[j - 1];
        } else {
          assert Tried(start)[j] == rest[j - 1] && rest[j - 1] in rest;
        }
      }
    }
  }

  /** `getAdaptedFontsize` (src/hooks/useAIPPT.ts): the first tried size at which the text
      fits in `maxLine` lines of the box width, or the floor when none does. */
  function AdaptedFontSize(m: Measure, text: string, family: string, size: real, width: real, maxLine: int): (r: real)
    ensures (r in Tried(size) && FitsAt(m, text, family, r, width, maxLine))
         || (r == MinFontSize && forall s :: s in Tried(size) ==> !FitsAt(m, text, family, s, width, maxLine))
    ensures forall s :: s in Tried(size) && s > r ==> !FitsAt(m, text, family, s, width, maxLine)
    ensures size >= MinFontSize ==> MinFontSize <= r <= size
    ensures size < MinFontSize ==> r == MinFontSize
    decreases size.Floor
  {
    TriedBounds(size);
    if size < MinFontSize then MinFontSize
    else if FitsAt(m, text, family, size, width, maxLine) then size
    else
      var r := AdaptedFontSize(m, text, family, NextSize(size), width, maxLine);
      assert Tried(size) == [size] + Tried(NextSize(size));
      r
  }

  datatype FontInfo = FontInfo(size: real, family: string)

  /** `getFontInfo`: the declared size and family, each defaulting when not declared. */
  function GetFontInfo(rt: RichText): (r: FontInfo)
    ensures rt.fontSize.Some? ==> r.size == rt.fontSize.value
    ensures rt.fontSize.None? ==> r.size == DefaultFontSize
    ensures rt.fontFamily.Some? ==> r.family == rt.fontFamily.value
    ensures rt.fontFamily.None? ==> r.family == DefaultFontFamily
  {
    FontInfo(rt.fontSize.GetOr(DefaultFontSize), rt.fontFamily.GetOr(DefaultFontFamily))
  }

  /** The text written into the first text run: a one-character text replacing a
      two-character placeholder is left-padded with "0" when `digitPadding` is set. */
  function PaddedText(firstRun: string, text: string, digitPadding: bool): string {
    if digitPadding && |firstRun| == 2 && |text| == 1 then "0" + text else text
  }

  /** Padding keeps numbers readable: a padded number reads back as the number, and a
      two-character placeholder always receives at least two characters. */
  lemma PaddedNumber(firstRun: string, n: nat)
    ensures ParseInt(PaddedText(firstRun, NatToString(n), true)) == Some(n)
    ensures |firstRun| == 2 ==> |PaddedText(firstRun, NatToString(n), true)| >= 2
    ensures n >= 10 ==> PaddedText(firstRun, NatToString(n), true) == NatToString(n)
  {
    if |firstRun| == 2 && |NatToString(n)| == 1 {
      ParseIntZeroPadded(n);
    } else {
      ParseIntRoundTrip(n);
    }
  }

  /** The text the size search measures: the longest text of the group when given,
      otherwise the replacement text itself. */
  function MeasuredText(text: string, longestText: string): string {
    if longestText != "" then longestText else text
  }

  /** The size `getNewTextElement` fits the element's text to. */
  function FittedSize(m: Measure, el: Element, text: string, maxLine: int, longestText: string): real
    requires HasMarkup(el)
  {
    var info := GetFontInfo(MarkupOf(el));
    AdaptedFontSize(m, MeasuredText(text, longestText), info.family, info.size,
                    el.width - 2.0 * Padding - 2.0, maxLine)
  }

  /** The markup with its first text run replaced and every size declaration set to `size`;
      markup without any size declaration gets one on its paragraph, if it has one. */
  function RewriteMarkup(rt: RichText, text: string, digitPadding: bool, size: real): RichText {
    var runs := if |rt.runs| > 0 then [PaddedText(rt.runs[0], text, digitPadding)] + rt.runs[1..] else rt.runs;
    var fontSize := if rt.fontSize.Some? || rt.hasParagraph then Some(size) else None;
    rt.(runs := runs, fontSize := fontSize)
  }

  /** `getNewTextElement` (src/hooks/useAIPPT.ts): the element with its first text run
      replaced by the new text and its font size fitted to the box. */
  function NewTextElement(m: Measure, el: Element, text: string, maxLine: int, longestText: string, digitPadding: bool): (r: Element)
    requires HasMarkup(el)
    ensures HasMarkup(r) && r.kind.TextKind? == el.kind.TextKind?
    ensures r.id == el.id && r.groupId == el.groupId && TextTypeOf(r) == TextTypeOf(el)
    ensures r.left == el.left && r.top == el.top && r.width == el.width && r.height == el.height
    ensures var before := MarkupOf(el); var after := MarkupOf(r);
      && |after.runs| == |before.runs|
      && (|before.runs| > 0 ==> after.runs[0] == PaddedText(before.runs[0], text, digitPadding)
                                && after.runs[1..] == before.runs[1..])
      && (before.fontSize.Some? || before.hasParagraph ==>
            after.fontSize == Some(FittedSize(m, el, text, maxLine, longestText)))
      && (before.fontSize.None? && !before.hasParagraph ==> after.fontSize.None?)
      && after.fontFamily == before.fontFamily
    ensures r.kind.TextKind? ==>
      && (FittedSize(m, el, text, maxLine, longestText) < DenseBelow ==> r.kind.lineHeight == Some(DenseLineHeight))
      && (FittedSize(m, el, text, maxLine, longestText) >= DenseBelow ==> r.kind.lineHeight == el.kind.lineHeight)
  {
    var size := FittedSize(m, el, text, maxLine, longestText);
    var content := RewriteMarkup(MarkupOf(el), text, digitPadding, size);
    match el.kind
    case TextKind(_, t, lh) =>
      el.(kind := TextKind(content, t, if size < DenseBelow then Some(DenseLineHeight) else lh))
    case ShapeKind(st) =>
      el.(kind := ShapeKind(Some(st.value.(content := content))))
  }
}
